=== FILE: README.md ===
# FrameworkApp core, modelled in Dafny

FrameworkApp is a GTK control panel for Framework laptops. It shows a
picture of the laptop, with one tab per subsystem. This project models the
logic behind those tabs. GTK, threads and subprocesses are left out. Each
command's output, or a file's content, is a parameter of the model, and
`None` stands for a read or a run that failed.

- **UsbTopology** covers `expansion_cards.py` and
  `expansion_cards_widget.py`. It parses `lsusb -t` into a map from
  (bus, zero-padded device) to a zero-padded port. It parses `lsusb` lines
  and classifies a device with a first-match rule list (HDMI, USB-A,
  Storage, MicroSD). It then places each card image into one of the four
  expansion slots, overflowing into the first free slot.
- **ConnectedDevices** covers `connected_devices.py`. It annotates each
  `lsusb` line with its port label, card type and sysfs path. It splits the
  lines into "Devices with Known USB-C Port:" and "Other USB Devices:"
  sections,
  followed by the raw topology block.
- **PowerProfiles** covers the tuned branch of `power_profiles_widget.py`
  and `power_profiles_controller.py`. It parses `tuned-adm active` and
  `tuned-adm list`. It models the widget's three toggle buttons and the
  controller's combo box.
- **LedWidget** and **LedControls** cover `led_widget.py` and
  `led_controls.py`: the On/Auto/Off mode cycle, the colour buttons, the
  `ectool led` commands and the LED overlays.
- **KeyboardBacklight** covers both keyboard variants: reading
  `pwmgetkblight`, the four-mode cycle, and the brightness slider. A mode
  click differs between them only when `pgrep` or `pkexec` is missing:
  the widget catches every exception, and the older box lets OSError
  escape before the mode file is written.
- **SleepMode** reads the bracketed mode from `/sys/power/mem_sleep`. It
  also models writing a new mode and the dialog's messages.
- **PowerStatus** covers the battery status box and the battery widget. It
  models the sysfs files, the health percentage and the charging overlay.
- **SystemStats** derives the distribution from `/etc/os-release`. It maps
  the distribution to a logo overlay and extracts the graphics name from
  `lspci`. It also builds the statistics label.
- **FrameworkModel** looks up the laptop model by its DMI board name.
- **ImageUtils** covers `colorize_image`. It parses the colour argument:
  a hex string, a tuple, or any other string. It multiplies each pixel's
  RGB and alpha bytes by the colour, pixel by pixel, over a row-strided
  buffer.
- **Ui** covers the main window's bookkeeping. Each tab's widget data is
  kept in one table. The background refresh isolates a failing widget.
  Every widget's overlays are gathered for the laptop image. A cache
  decides when that image is rebuilt. The sidebar buttons behave like a
  radio group.
- **Text**, **PyInt**, **Wrappers** and **Overlays** hold the Python
  built-ins the core relies on, modelled on `seq<char>`:
  - `str.strip`, `split`, `splitlines`, `partition`-style splits, `lower`,
    `upper`, `zfill`;
  - `int(s, radix)`, `//` and truncating `int(x / y)`;
  - the Option and Result types;
  - the overlay record.

Integers are unbounded, and so are Python's. `int(o * c / 255)` is a float
division. For bytes `o` and `c`, the true quotient is either an integer or
at least 1/255 away from one. Truncating the float therefore gives the
integer quotient, which is what the model computes.

## Model

| member | source | states |
|---|---|---|
| UsbTopology.DigitRun | app/expansion_cards.py:67 | The `\d+` run at the start of a line: it is all digits and stops at the first non-digit. |
| UsbTopology.LiteralDigits | app/expansion_cards.py:67-70 | A literal followed by a non-empty digit run splits the text into literal, digits and rest, and concatenating them gives the text back. |
| UsbTopology.MatchRoot | app/expansion_cards.py:67 | A root-hub match yields a non-empty run of digits as the bus. |
| UsbTopology.MatchChild | app/expansion_cards.py:70 | A child match yields non-empty digit runs as port and device. |
| UsbTopology.MatchRootLine | app/expansion_cards.py:67-69 | The bus of every line of the form `/:  Bus B.Port P: Dev D,…` is read back exactly as printed, without padding. |
| UsbTopology.MatchChildLine | app/expansion_cards.py:70 | The port and device of a `|__ Port P: Dev D,…` line are read back, whatever whitespace indents the line. |
| UsbTopology.RootLineNotChild | app/expansion_cards.py:67-70 | A root-hub line never matches the child pattern. |
| UsbTopology.ChildLineNotRoot | app/expansion_cards.py:67-70 | An indented child line never matches the root pattern. |
| UsbTopology.StepWithGood | app/expansion_cards.py:66-74 | Given digit-run matches, a step keeps the tree state well formed; only a root match moves the bus, and only a child match under a known bus writes the map. |
| UsbTopology.TreeStepGood | app/expansion_cards.py:66-74 | One tree line keeps every recorded bus a digit run and every recorded device and port a digit run of at least three characters. A root line sets the current bus; a line that is no child, or a child before any root, leaves the map unchanged. |
| UsbTopology.TreeRunGood | app/expansion_cards.py:64-74 | Scanning any sequence of lines keeps that shape for every entry of the map. |
| UsbTopology.ParseTree | app/expansion_cards.py:64-74 | Every entry of the parsed tree has a digit bus and zfilled digit device and port keys. |
| UsbTopology.TreeRunBus | app/expansion_cards.py:67-69 | While the tree is scanned, the current bus is the bus of the last root-hub line seen so far. |
| UsbTopology.TreeRunLast | app/expansion_cards.py:64-74 | Each child line after a root writes (bus, zfilled device) := zfilled port; any other line leaves the map as it was. |
| UsbTopology.ParseTreeOverwrites | app/expansion_cards.py:64-74 | The tree loop equals writing every line's entry into an empty map, in line order. |
| UsbTopology.OverwriteKeys | app/expansion_cards.py:71-74 | A key is in the map exactly when some line writes it. |
| UsbTopology.OverwriteLastWins | app/expansion_cards.py:71-74 | A key's value is the one written by the last line that writes it. |
| UsbTopology.ParseTreeKeys | app/expansion_cards.py:64-74 | A (bus, device) key is in the parsed tree exactly when some child line, after some root line, emits it. |
| UsbTopology.ParseTreeLastWins | app/expansion_cards.py:71-74 | If a key is emitted more than once, the last line's port wins. |
| UsbTopology.ParseTreeWithoutRoot | app/expansion_cards.py:68-74 | Child lines before any root-hub line record nothing. |
| UsbTopology.TwoLineTree | app/expansion_cards.py:64-74 | A root line followed by a child line gives exactly one entry, keyed by the unpadded bus and the zfilled device, with the zfilled port as its value. |
| UsbTopology.RootThenChild | app/expansion_cards.py:64-74 | Any root line followed by a child line gives exactly one entry under the root's bus. |
| UsbTopology.ParseDeviceLine | app/expansion_cards.py:75-82 | A device line yields (bus, device) exactly when it has at least six whitespace-separated fields. |
| UsbTopology.ParseLsusbLine | app/expansion_cards.py:76-82 | An `lsusb` line `Bus B Device D: ID …` is read back as (B, D), with the colon dropped. |
| UsbTopology.ParseTokens | app/expansion_cards.py:76-82 | For any line of six or more fields, the bus is the second field and the device is the fourth without its last character. |
| UsbTopology.Classify | app/expansion_cards.py:85-96 | An HDMI line is always HDMI, whatever else it mentions. A "USB DISK" or `090c:3350` line is always some card. Storage needs `13fe:6500` or "USB DISK 3.2". |
| UsbTopology.SlotIndex | app/expansion_cards.py:83-84 | A device gets a slot exactly when the tree gives it a port and the port table maps that port; the slot is one of the table's values. |
| UsbTopology.Placement | app/expansion_cards.py:76-97 | A line is placed exactly when it has six fields, is classified and has a non-negative slot. The placement carries the line's category and a slot from the port table. |
| UsbTopology.FirstMatch | app/expansion_cards.py:85-96 | The category is that of the first rule that holds, and none at all exactly when no rule holds. |
| UsbTopology.FirstMatchCons | app/expansion_cards.py:85-96 | The first rule decides when it holds; otherwise the remaining rules decide. |
| UsbTopology.ClassifyIsFirstMatch | app/expansion_cards.py:85-96 | The classifier's if/elif chain equals the first match over the six rules in program order. |
| UsbTopology.StorageBeforeMicroSd | app/expansion_cards.py:93-96 | A "USB DISK 3.2" device is never labelled a MicroSD card, because the storage test comes first. |
| UsbTopology.DefaultSlots | app/expansion_cards.py:52 | Start from one default image per port. |
| UsbTopology.FirstDefault | app/expansion_cards.py:100-105 | The overflow target is the first slot that still holds the default image, or none when all slots are taken. |
| UsbTopology.Place | app/expansion_cards.py:97-108 | An in-range index overwrites its slot, even one already filled. An index past the port count fills only the first default slot, and nothing when all are filled. |
| UsbTopology.Resolve | app/expansion_cards.py:75-108 | The slot list always has one entry per port. |
| UsbTopology.ShippedSlotMapInRange | app/expansion_cards.py:56-63 | The shipped port table maps into slots 0..3, and ports 002, 004 and 005 all share slot 2. |
| UsbTopology.ResolveLastWriterWins | app/expansion_cards.py:97-108 | When every mapped slot is in range, a slot shows the image of the last device placed there, or the default image. |
| UsbTopology.ResolveSkipsUnplaced | app/expansion_cards.py:80-97 | A short line, an unclassified device, or a device with no known port changes nothing. |
| UsbTopology.ResolveWithoutTree | app/expansion_cards_widget.py:65-97 | The widget never fills its device-to-port map, so every slot keeps the default image. |
| UsbTopology.OverflowScenario | app/expansion_cards.py:98-105 | Two out-of-range cards fill the free slots in order, and a third finds none and is dropped. |
| UsbTopology.UnpaddedBusNeverMatches | app/expansion_cards.py:81-83 | The tree is keyed by the bus as printed, so a line whose bus text differs (e.g. "001" against "1") finds no port and the slots stay default. |
| UsbTopology.UnkeyedLineSkipped | app/expansion_cards.py:82-84 | A device whose (bus, device) is not in the tree leaves every slot default. |
| UsbTopology.ZFillDigits | app/expansion_cards.py:71-72 | Zero-filling a digit run keeps it a run of digits. |
| UsbTopology.ExpansionCardsUpdate | app/expansion_cards.py:50-113 | One entry per port. A failed command leaves the defaults. Every entry is the default image or some card's image. |
| UsbTopology.ResolveImages | app/expansion_cards.py:97-108 | Every resolved slot holds the default image or the image of some card category. |
| UsbTopology.WidgetUpdate | app/expansion_cards_widget.py:51-108 | The widget's slots are always the defaults. The camera-off overlay is shown exactly when the camera is not listed or `lsusb` failed. |
| UsbTopology.CameraFoundSplit | app/expansion_cards_widget.py:66-68 | The camera is found in a listing exactly when it is found in one of its parts: any line may mention it. |
| ConnectedDevices.PortLabel | app/connected_devices.py:69 | A port always gets a non-empty label. |
| ConnectedDevices.UnmappedPortLabel | app/connected_devices.py:34-40 | A port missing from the table is labelled "Port" plus its padded number. |
| ConnectedDevices.KnownPort | app/connected_devices.py:67-68 | A port is known only for a (bus, device) in the tree and is its non-empty entry. Every entry of a parsed tree is known. |
| ConnectedDevices.PortSuffix | app/connected_devices.py:85-86 | A known port adds `  [label]` with its label; no port adds nothing. |
| ConnectedDevices.CardSuffix | app/connected_devices.py:71-88 | A classified line adds `  <label>` with its card label; an unclassified one adds nothing. |
| ConnectedDevices.PathText | app/connected_devices.py:89 | The sysfs part is never empty: the path when there is one, "(unknown)" otherwise. |
| ConnectedDevices.DeviceEntry | app/connected_devices.py:67-89 | A device is listed under expansion ports exactly when the tree gives it a non-empty port. Its entry starts with the line's text. |
| ConnectedDevices.Annotate | app/connected_devices.py:57-89 | A short line is kept stripped under "other"; a device line becomes a device entry. |
| ConnectedDevices.AnnotateKeepsLine | app/connected_devices.py:85-89 | An annotated entry begins with the stripped `lsusb` line. |
| ConnectedDevices.Entries | app/connected_devices.py:57-95 | Every `lsusb` line gets exactly one entry, in order. |
| ConnectedDevices.Partition | app/connected_devices.py:90-95 | The two sections together hold exactly as many lines as there are entries. |
| ConnectedDevices.SectionAppend | app/connected_devices.py:90-95 | Appending an entry appends its text to exactly the section of its kind. |
| ConnectedDevices.Section | app/connected_devices.py:90-95 | A section holds no more lines than there are entries, and each line is the text of an entry of its kind. |
| ConnectedDevices.PartitionIsFilter | app/connected_devices.py:90-95 | The expansion section is the known entries and the other section the rest, each in `lsusb` order. |
| ConnectedDevices.Sections | app/connected_devices.py:97-105 | A non-empty section appears under its header, expansion first. The topology block always comes last. |
| ConnectedDevices.TopologyBlockStripped | app/connected_devices.py:105 | The topology block depends only on the stripped tree text. |
| ConnectedDevices.UpdateDevices | app/connected_devices.py:25-113 | A failed command shows "Error detecting devices:" with the first failure's message. |
| ConnectedDevices.ReportAlwaysHasTopology | app/connected_devices.py:97-109 | On success, the report is the two filtered sections followed by the topology, joined by newlines. |
| ConnectedDevices.ParseTreePortsPadded | app/connected_devices.py:49-53 | Every port the tree records has at least three characters. |
| ConnectedDevices.KnownIffCorrelated | app/connected_devices.py:67-70 | A device line is annotated as an expansion port exactly when its (bus, device) is in the parsed tree. |
| PowerProfiles.ActiveValue | app/power_profiles_widget.py:82-85 | A line yields a value exactly when it mentions "Current active profile:". The value is stripped, or renamed to "balanced-battery". |
| PowerProfiles.ActiveLineValue | app/power_profiles_widget.py:82-85 | A line `pre` + "Current active profile: v", with no colon in `pre`, reads back as v, or "balanced-battery" for "balanced" under tuned. |
| PowerProfiles.LastIndex | app/power_profiles_widget.py:80-85 | Finds the last line that yields a value, or none when no line does. |
| PowerProfiles.LastActive | app/power_profiles_widget.py:80-85 | The current profile is the value of the last marker line; every line is read, not just the first. |
| PowerProfiles.LastActiveAt | app/power_profiles_widget.py:81-85 | A marker line followed only by lines without the marker decides the profile. |
| PowerProfiles.ParseActive | app/power_profiles_widget.py:78-85 | A failed `tuned-adm active` gives no profile. A successful one gives a profile exactly when some line carries the marker. |
| PowerProfiles.ReadActive | app/power_profiles_widget.py:78-85 | The output `tuned-adm active` prints for a profile, with other lines around it, is read back as that profile. |
| PowerProfiles.IsListLine | app/power_profiles_widget.py:96 | A listing line is one that starts with "- " or "* ". |
| PowerProfiles.ListName | app/power_profiles_widget.py:97-103 | Naming a listing line either succeeds or raises exactly IndexError. |
| PowerProfiles.ListNameWith | app/power_profiles_widget.py:97-103 | With " - " present, the name is the stripped text before it; otherwise it is the first word. |
| PowerProfiles.ListNameOfRendered | app/power_profiles_widget.py:95-103 | The name of any rendered `- name` or `* name - desc` line is read back. |
| PowerProfiles.ListStep | app/power_profiles_widget.py:95-108 | Only allowed profiles are collected, at most one per line. An error ends the scan. |
| PowerProfiles.ListStepRendered | app/power_profiles_widget.py:104-108 | A rendered line adds its allowed profile, and a starred one becomes the listed current profile. |
| PowerProfiles.ParseList | app/power_profiles_widget.py:95-108 | A successful parse yields only allowed profiles, no more than there are lines. |
| PowerProfiles.ParseRenderedList | app/power_profiles_widget.py:95-108 | Parsing a rendered listing gives back the allowed names in order, with the last starred one as current. |
| PowerProfiles.WidgetUpdate | app/power_profiles_widget.py:75-119 | A failed run leaves no profiles and no current. Otherwise the current profile is listed or comes from `tuned-adm active`. |
| PowerProfiles.CurrentFromListing | app/power_profiles_widget.py:109 | A starred listing entry decides the current profile; the active command is consulted only when none is starred. |
| PowerProfiles.ButtonStates | app/power_profiles_widget.py:155-171 | Without profiles every button is disabled. Otherwise a button is enabled iff its profile is listed, and pressed iff it is current. |
| PowerProfiles.AtMostOnePressed | app/power_profiles_widget.py:164-171 | No two buttons are ever shown pressed. |
| PowerProfiles.Toggle | app/power_profiles_widget.py:209-233 | Pressing a listed profile's button makes it current, releases the others and issues `tuned-adm profile`. Anything else issues no command. |
| PowerProfiles.ToggleAgreesWithDisplay | app/power_profiles_widget.py:209-233 | After pressing, the buttons match what `update_visual` shows for the new data. Releasing the current button presses it again. |
| PowerProfiles.ErrorOutput | app/power_profiles_widget.py:247 | The error text is stripped: stderr when it is not blank, else stdout. It is empty exactly when both are blank. |
| PowerProfiles.SetProfileLabel | app/power_profiles_widget.py:244-254 | A zero exit sets no label. A run that raised gives "Failed to set tuned profile.". An error mentioning "does not exist" names the profile; any other failure shows the error text. |
| PowerProfiles.SetLabelCarriesError | app/power_profiles_widget.py:246-251 | For failed runs with other errors, two labels are equal exactly when the stripped stderr texts are. |
| PowerProfiles.UpdateCombo | app/power_profiles_controller.py:137-146 | One combo entry per profile, with its display name or the profile itself. The current profile's row is selected iff it is non-empty and listed. |
| PowerProfiles.DisplayMap | app/power_profiles_controller.py:124-126 | Every listed profile maps to its allowed display name. |
| PowerProfiles.ControllerUpdate | app/power_profiles_controller.py:95-133 | A failed run leaves the combo untouched. |
| PowerProfiles.ControllerShowsDisplayNames | app/power_profiles_controller.py:115-146 | The controller's combo shows, in listing order, the display names of exactly the listed allowed profiles. |
| PowerProfiles.ComboChanged | app/power_profiles_controller.py:161-168 | An index inside the list switches to that profile; any other index is ignored. |
| PowerProfiles.SelectedRowIsCurrent | app/power_profiles_controller.py:145-146 | Choosing the row shown as selected asks for the current profile again. |
| LedWidget.Palette | app/led_widget.py:34-43 | The power LED offers five colours without blue; the others offer all six. |
| LedWidget.ModeClick | app/led_widget.py:65-85 | The mode advances cyclically. "On" restores the previous colour, or white after auto/off, and selects it. Other modes write their lower-cased label and deselect. |
| LedWidget.ColorClick | app/led_widget.py:87-93 | A colour click switches to "On" and writes and selects that colour. |
| LedWidget.LedCommand | app/led_widget.py:102-106 | The command is `pkexec /usr/bin/ectool led` followed by the LED and the value. |
| LedWidget.ModeCycle | app/led_widget.py:67 | Three mode clicks bring the mode index back to where it was. |
| LedWidget.ModeSequence | app/led_widget.py:26-85 | From the initial Auto state, clicks go Off, On (white), Auto. |
| LedWidget.OffThenOnIsWhite | app/led_widget.py:72-80 | Switching on from "off" gives white. |
| LedWidget.ColorRgba | app/led_widget.py:131-148 | Auto and off are fully transparent, and only they are. Unknown colours are opaque white. |
| LedWidget.OverlayPath | app/led_widget.py:126-130 | An LED has an overlay image exactly when it is one of left, power and right. |
| LedWidget.GetOverlay | app/led_widget.py:122-151 | An LED gets an overlay exactly when it exists, has an image and is not off; the overlay carries its colour's RGBA. |
| LedWidget.Somes | app/led_widget.py:156-160 | Dropping the absent overlays keeps at most as many, and none exactly when all are absent. |
| LedWidget.SomesMembers | app/led_widget.py:156-160 | An overlay is kept exactly when it was present. |
| LedWidget.LedRank | app/led_widget.py:17-19 | The position of an LED in creation order, and only LEDs have a position in range. |
| LedWidget.SomesRanked | app/led_widget.py:153-161 | Dropping absent overlays from a list ordered by LED keeps the survivors in strictly increasing LED order. |
| LedWidget.GetOverlays | app/led_widget.py:153-161 | The list holds exactly the LEDs' existing overlays, in the order left, power, right. It is empty iff no LED has one. |
| LedWidget.NoneOffAllShown | app/led_widget.py:153-161 | With no LED off, every LED's overlay is listed, in LED order. |
| LedWidget.InitialOverlaysWhite | app/led_widget.py:57-62 | At start every LED shows a white overlay. |
| LedWidget.ModeClickOverlay | app/led_widget.py:81-85 | Clicking into Off removes the LED's overlay. Clicking into Auto leaves it with a transparent tint. |
| LedWidget.ColorClickOverlay | app/led_widget.py:87-93 | After a colour click the LED shows that colour's overlay. |
| LedWidget.Update | app/led_widget.py:108-116 | New data is set only when some overlay exists; otherwise the previous data stays. |
| LedWidget.AllOffKeepsData | app/led_widget.py:111-116 | With every LED off, the widget keeps its stale data. |
| LedControls.RefreshMode | app/led_controls.py:77-95 | Refreshing the mode button never changes the mode. Off modes show their label and deselect. "On" from auto/off sets white through the colour handler. |
| LedControls.ModeClick | app/led_controls.py:97-106 | The mode advances cyclically, and the mode callback for the new label is the last callback fired. |
| LedControls.ColorClick | app/led_controls.py:64-70 | A colour click selects "On" and that colour. From auto/off it first sets white. |
| LedControls.InitialGood | app/led_controls.py:23-45 | The initial control satisfies the state invariant. |
| LedControls.ModeClickGood | app/led_controls.py:97-106 | Mode clicks preserve the state invariant. |
| LedControls.ColorClickGood | app/led_controls.py:64-70 | Clicks on a palette colour preserve the state invariant. |
| LedControls.ModeCycleFromInitial | app/led_controls.py:97-106 | From the initial state, three clicks return to it. |
| LedControls.ClickFromAuto | app/led_controls.py:80-88 | The first click turns the LED on in white. |
| LedControls.ClickFromOn | app/led_controls.py:93-105 | From "On", a click goes to "Off" and fires the Off callback. |
| LedControls.ClickFromOff | app/led_controls.py:93-105 | From "Off", a click returns to the initial Auto state. |
| LedControls.OffModesShowLabel | app/led_controls.py:93-95 | In off modes the state label shows the mode. |
| LedControls.DefaultCommands | app/led_controls.py:120-135 | The default mode handler writes the lower-cased label; the colour handler writes only a non-empty colour. |
| LedControls.TraceCommands | app/led_controls.py:120-135 | A callback trace issues at most one command per callback. |
| LedControls.TurnOnCommands | app/led_controls.py:81-88 | Turning on from Auto sends "white", then "on". |
| KeyboardBacklight.FirstWith | app/keyboard_backlight_widget.py:55-58 | Finds the first line containing the marker, or none when no line does. |
| KeyboardBacklight.ReadBrightness | app/keyboard_backlight_widget.py:49-62 | A failed run, or output without the marker, reads as 0. |
| KeyboardBacklight.FirstValue | app/keyboard_backlight_widget.py:51-58 | Without a marker line the value is 0. |
| KeyboardBacklight.PercentLineValue | app/keyboard_backlight_widget.py:56-57 | The line `ectool` prints for a percent n contains the marker and parses back to n. |
| KeyboardBacklight.TaggedValue | app/keyboard_backlight_widget.py:57 | The integer after the last ':' of a `head: n` line is n. |
| KeyboardBacklight.FirstValueOf | app/keyboard_backlight_widget.py:55-58 | The value comes from the first marker line, whatever follows it. |
| KeyboardBacklight.ReadPrinted | app/keyboard_backlight_widget.py:49-62 | A printed percent line is read back as its number. |
| KeyboardBacklight.FirstLineDecides | app/keyboard_backlight_widget.py:55-60 | An unparsable first marker line gives 0 even if a later line would parse, because the exception ends the scan. |
| KeyboardBacklight.ModeClick | app/keyboard_backlight_widget.py:65-88 | In the widget, the mode advances cyclically through four modes, and the button shows it. The daemon is started iff it is not running. The lower-cased mode is always written. |
| KeyboardBacklight.BoxModeClick | app/keyboard_backlight.py:65-98 | In the older box, the mode and label change as in the widget. The daemon start is attempted iff `pgrep` exists and finds no daemon. The mode is written iff `pgrep` exists and either the daemon runs or `pkexec` exists; otherwise OSError escapes first. |
| KeyboardBacklight.BoxAgreesWithWidget | app/keyboard_backlight.py:65-98 | With both programs installed, the older box does exactly what the widget does. |
| KeyboardBacklight.ModeCycle | app/keyboard_backlight_widget.py:66-68 | Four clicks from Manual return to Manual, passing Auto, Responsive and Breathe. |
| KeyboardBacklight.BrightnessChanged | app/keyboard_backlight_widget.py:90-116 | Moving the slider forces Manual mode, shows "n%" and issues `ectool pwmsetkblight n`. |
| KeyboardBacklight.SlideAfterModes | app/keyboard_backlight_widget.py:93-95 | After any mode click, the slider returns to Manual. |
| KeyboardBacklight.Update | app/keyboard_backlight_widget.py:121-128 | The data holds a known mode name and the slider's value. |
| KeyboardBacklight.VisualText | app/keyboard_backlight_widget.py:130-135 | Shows "No data yet." without data; otherwise starts with the brightness. |
| KeyboardBacklight.SlideShown | app/keyboard_backlight_widget.py:121-135 | After a slide, the display shows that brightness and Manual. |
| SleepMode.FirstBracketed | app/sleep_mode_widget.py:66-71 | The current mode is the first known mode whose bracketed form appears, and none exactly when no bracket matches. |
| SleepMode.CurrentMode | app/sleep_mode_widget.py:61-73 | The mode found is a bracketed known mode. "[s2idle]" wins over "[deep]". An unreadable file gives none. |
| SleepMode.MarkedMode | app/sleep_mode_widget.py:66-70 | A file marking exactly one mode reports that mode. |
| SleepMode.KernelFormat | app/sleep_mode_widget.py:61-73 | The kernel's "s2idle [deep]\n" reads as "deep". |
| SleepMode.SetCommand | app/sleep_mode_widget.py:82-84 | The command is `pkexec sh -c` with a shell line that starts "echo " followed by the mode. |
| SleepMode.SetSleepMode | app/sleep_mode_widget.py:75-88 | Unknown modes fail with "Invalid sleep mode: …". Otherwise the result is success iff the write exits with 0. |
| SleepMode.SetClicked | app/sleep_mode_widget.py:42-52 | Only a known selection runs the write. The message is "Invalid mode.", the new current mode, or the root hint. |
| SleepMode.Update | app/sleep_mode_widget.py:90-97 | The data lists both modes, and a current mode is one of them. |
| SleepMode.UpdateVisual | app/sleep_mode_widget.py:99-109 | Shows the current mode or "Unknown". The selected row, if any, is the current mode's. |
| SleepMode.SelectedRowWritesCurrent | app/sleep_mode_widget.py:103-107 | Applying the row shown selected reports the current mode again. |
| PowerStatus.ReadFile | app/power_status.py:11-17 | A readable file gives its stripped content; an unreadable one gives None. |
| PowerStatus.PowerPath | app/power_status.py:19-21 | An absolute file name is the path itself. Otherwise the path starts with "/sys/class/power_supply/" and the battery name and ends with the file name, with one "/" between them unless the battery name is empty or already ends in "/". |
| PowerStatus.PowerPathFile | app/power_status.py:19-21 | A file name without "/" is the last component of its path, whatever the battery name. |
| PowerStatus.EmptyBatteryPath | app/power_status.py:21 | An empty battery name gives "/sys/class/power_supply/capacity" for "capacity", with no doubled "/". |
| PowerStatus.Health | app/power_status.py:31-36 | Health exists iff both files are non-empty integers and the design is non-zero. It is then `full * 100 // design`. |
| PowerStatus.GetBatteryStats | app/power_status.py:24-41 | The percentage and status are the stripped file texts, never parsed. Health comes from the charge files. |
| PowerStatus.HealthOfPrinted | app/power_status.py:32-34 | For capacities printed by the kernel, health is the floor of the percentage. |
| PowerStatus.HealthBounded | app/power_status.py:32-36 | For printed capacities with the charge not above a non-zero design, the health is present and within 0..100. |
| PowerStatus.ZeroDesign | app/power_status.py:35-36 | A zero design capacity gives no health instead of an error. |
| PowerStatus.BoxLines | app/power_status.py:66-70 | Three lines; each missing value reads "Unknown", and the percentage and health carry "%". |
| PowerStatus.BoxText | app/power_status.py:66-71 | The box text is the three status lines joined by newlines. |
| PowerStatus.Update | app/power_status_widget.py:24-40 | The widget keeps the stats. The charging overlay is shown iff the lower-cased status is "charging". |
| PowerStatus.ChargingAnyCase | app/power_status_widget.py:31-33 | "Charging" as the kernel writes it shows the overlay. |
| PowerStatus.VisualText | app/power_status_widget.py:42-52 | Shows "No data yet." without data; otherwise starts with the battery line. |
| PowerStatus.UnknownPercent | app/power_status_widget.py:46-49 | The widget shows "Unknown%" where the box shows "Unknown". |
| PowerStatus.SameHealth | app/power_status_widget.py:64-69 | The box and the widget show the same health figure. |
| SystemStats.FirstNaming | app/system_stats_widget.py:113-117 | Finds the first ID or NAME line, or none when there is no such line. |
| SystemStats.NamesDistro | app/system_stats_widget.py:114-117 | A naming line starts with "ID=" or "NAME=", so it holds an `=`. |
| SystemStats.NamingValue | app/system_stats_widget.py:115-117 | A naming line's value is lower-case and without quotes. |
| SystemStats.LinuxDistro | app/system_stats_widget.py:108-120 | The distribution is lower-case without quotes, and "linux" when the file is unreadable or names nothing. |
| SystemStats.DistroOfRelease | app/system_stats_widget.py:110-117 | The first `ID=` or `NAME=` line decides the distribution: its value, lower-cased, with quotes removed. |
| SystemStats.DistroOfLines | app/system_stats_widget.py:110-117 | The distribution is the first naming line's value. |
| SystemStats.FirstKeyFrom | app/system_stats_widget.py:69-73 | Finds the first table key contained in the distribution name. |
| SystemStats.DistroFile | app/system_stats_widget.py:58-75 | Gives the generic logo exactly when no key matches; otherwise the logo of some matching key. |
| SystemStats.FirstListedKeyWins | app/system_stats_widget.py:69-73 | The first key in table order that the name contains picks the logo. |
| SystemStats.OsFile | app/system_stats_widget.py:54-81 | Linux uses the distribution's logo. Windows and Darwin have their own logos; anything else is unknown. |
| SystemStats.OsOverlayPath | app/system_stats_widget.py:83-87 | The overlay path is the fixed prefix plus the logo file. |
| SystemStats.OverlayPathsDistinguishLogos | app/system_stats_widget.py:83-87 | Two overlay paths are equal iff their logos are. |
| SystemStats.UnreadableReleaseIsGeneric | app/system_stats_widget.py:118-120 | An unreadable os-release gives the generic Linux logo. |
| SystemStats.CloseFrom | app/system_stats_widget.py:145 | Finds the `]` that closes a bracket on the same line, if there is one. |
| SystemStats.CloseUnique | app/system_stats_widget.py:145 | A bracket has at most one closing `]`. |
| SystemStats.SearchFrom | app/system_stats_widget.py:145 | Finds the leftmost match of `\[(.*?)\]`: a `[` whose nearest following `]` comes before any newline, with an empty group allowed. Reports when no position starts a match. |
| SystemStats.LeftmostMatch | app/system_stats_widget.py:145 | Any match with no match before it is the one found. |
| SystemStats.Graphics | app/system_stats_widget.py:139-151 | Unreadable, blank or bracket-free output gives "Unknown". Otherwise the result is stripped. |
| SystemStats.GraphicsAt | app/system_stats_widget.py:144-147 | The graphics name is the stripped text inside the first match. |
| SystemStats.GraphicsOfMatch | app/system_stats_widget.py:144-147 | Whatever bracket pair the search finds, the name is its stripped inside. |
| SystemStats.GraphicsOf | app/system_stats_widget.py:144-147 | `pre[g]post`, with no `[` in pre, gives the stripped g. |
| SystemStats.NoBracketUnknown | app/system_stats_widget.py:145-149 | Output without `[` gives "Unknown". |
| SystemStats.BrokenBracket | app/system_stats_widget.py:145 | A bracket broken by a newline is no match. |
| SystemStats.BracketAcrossLines | app/system_stats_widget.py:145-147 | A bracket broken by a newline is skipped, and the next complete bracket is used. |
| SystemStats.Build | app/system_stats_widget.py:27-35 | The data holds graphics, memory and storage, and a single uncoloured "os" overlay at the OS path. |
| SystemStats.LabelLines | app/system_stats_widget.py:37-44 | Four lines: CPU (or "Unknown"), graphics, memory and storage. |
| SystemStats.LabelText | app/system_stats_widget.py:39-43 | The label starts with "CPU: " and every line, the last included, ends with a newline. |
| SystemStats.LabelReadsBack | app/system_stats_widget.py:37-44 | The label's lines read back as the four fields. |
| FrameworkModel.GetModel | app/framework_model.py:15-40 | The stripped board "FRANBMCP03" is the Laptop 13. Any other board, or none, gives "Unknown (board)" with no image and no ports. |
| FrameworkModel.BoardText | app/framework_model.py:37-40 | The board is shown as Python formats it: its text, or "None" for a failed read. |
| FrameworkModel.ImageIffKnown | app/framework_model.py:24-40 | A model has an image iff it has ports iff its board is known. |
| FrameworkModel.UnknownNameHoldsBoard | app/framework_model.py:37-40 | The default name gives back the board text. |
| FrameworkModel.TrailingNewlineKnown | app/framework_model.py:18-22 | The file's trailing newline does not stop the lookup. |
| FrameworkModel.TrailingSpaceIgnored | app/framework_model.py:18-34 | Any trailing whitespace after a board name gives the same model as the bare name. |
| FrameworkModel.ReadFailureLooksLikeNone | app/framework_model.py:18-40 | An unreadable file and a board named "None" get the same name but differ in board. |
| ImageUtils.LStrip | app/image_utils.py:47 | Every leading `#` is removed, and nothing else. |
| ImageUtils.Chunks | app/image_utils.py:49 | Two-character chunks, with only the last possibly shorter. |
| ImageUtils.ChunksConcat | app/image_utils.py:49 | The chunks concatenate back to the string. |
| ImageUtils.HexItems | app/image_utils.py:49 | Parses each chunk in base 16; one bad chunk fails the whole parse. |
| ImageUtils.HexChunks | app/image_utils.py:49 | The hex string of n bytes splits into exactly the n bytes' digit pairs. |
| ImageUtils.HexItemsOfBytes | app/image_utils.py:49 | The hex string of some bytes parses back to those bytes. |
| ImageUtils.Items | app/image_utils.py:45-49 | A `#` string gives hex bytes; another string gives its characters; a tuple gives its numbers. |
| ImageUtils.ItemValue | app/image_utils.py:53 | `int(c)` of a number is the number. |
| ImageUtils.ParseColor | app/image_utils.py:45-53 | Four items are RGBA, and three get alpha 255. Any other count, or a bad item, fails. |
| ImageUtils.HexColorRoundTrip | app/image_utils.py:45-53 | "#rrggbb" and "#rrggbbaa" parse back to their bytes, with alpha defaulting to 255. |
| ImageUtils.HexColorOf | app/image_utils.py:45-49 | A hex colour string yields its bytes as items. |
| ImageUtils.ParseNums | app/image_utils.py:51-53 | Numeric items of length 4 or 3 give the colour; other lengths fail. |
| ImageUtils.DigitColor | app/image_utils.py:45-53 | A string of three or four decimal digits without `#` is read one digit per channel. |
| ImageUtils.CharColor | app/image_utils.py:45-53 | A non-`#` string is read character by character, as `int(c)`. |
| ImageUtils.Channel | app/image_utils.py:71-75 | A successful channel write is a byte. |
| ImageUtils.ChannelOfBytes | app/image_utils.py:71-75 | For bytes, the channel is ⌊o·c/255⌋: never above o, and equal to o when c is 255. |
| ImageUtils.BlendBytes | app/image_utils.py:66-75 | Blending a pixel's channels keeps the buffer's length. |
| ImageUtils.BytesWrites | app/image_utils.py:66-75 | A pixel blends iff every channel fits in a byte. It writes exactly its own channels, each scaled by the colour. |
| ImageUtils.BlendPixel | app/image_utils.py:65-75 | Blending one pixel keeps the buffer's length. |
| ImageUtils.PixelWrites | app/image_utils.py:65-75 | A pixel writes RGB, and alpha only for four-channel images with alpha. Everything else is unchanged. |
| ImageUtils.InBounds | app/image_utils.py:65 | Every pixel offset and its channels lie inside the buffer. |
| ImageUtils.StartOrder | app/image_utils.py:63-65 | Pixels visited earlier lie wholly before later ones. |
| ImageUtils.BlendRow | app/image_utils.py:64-75 | A row pass succeeds only on a buffer and keeps its length. |
| ImageUtils.BlendRows | app/image_utils.py:63-75 | A pass over rows keeps the length. |
| ImageUtils.Blend | app/image_utils.py:60-75 | The nested loop over a copy of the pixels computes the row-by-row reference blend, or fails where it does. |
| ImageUtils.BlendRowAt | app/image_utils.py:64-75 | The inner loop computes the reference row blend, and fails exactly when it does. |
| ImageUtils.RowStep | app/image_utils.py:64-75 | One more pixel of a row is one more pixel blend. |
| ImageUtils.BlendPixelAt | app/image_utils.py:65-75 | The pixel step computes the reference pixel blend, and fails exactly when it does. |
| ImageUtils.RowFailureStays | app/image_utils.py:71-75 | Once a row pass fails, extending it still fails. |
| ImageUtils.RowsFailureStays | app/image_utils.py:63-75 | Once a row fails, the whole pass fails. |
| ImageUtils.FailureStays | app/image_utils.py:63-75 | A pixel that overflows a byte fails the whole colorization. |
| ImageUtils.RowKeeps | app/image_utils.py:63-75 | A byte that no pixel of the row touches is unchanged by that row. |
| ImageUtils.RowsKeepBefore | app/image_utils.py:63-75 | Later rows never change bytes of earlier rows. |
| ImageUtils.RowKeepsBefore | app/image_utils.py:64-75 | Later pixels never change bytes before them. |
| ImageUtils.UnvisitedUnchanged | app/image_utils.py:66-69 | A pixel reads its original bytes, since no earlier pixel wrote them. |
| ImageUtils.RowsKeepAfter | app/image_utils.py:63-75 | Bytes after the rows visited so far keep their original values. |
| ImageUtils.LaterRowsKeep | app/image_utils.py:63-75 | Rows after a pixel's row leave its bytes as that row left them. |
| ImageUtils.LaterPixelsKeep | app/image_utils.py:63-75 | The final image holds each pixel's bytes as its own blend step wrote them. |
| ImageUtils.LaterInRowKeep | app/image_utils.py:64-75 | Later pixels of the same row leave a pixel's bytes alone. |
| ImageUtils.PixelBlended | app/image_utils.py:65-75 | Each written channel of the result is ⌊original·colour/255⌋ of the original byte. |
| ImageUtils.UntouchedKept | app/image_utils.py:63-75 | Bytes that no pixel writes keep their values. |
| ImageUtils.UntouchedRows | app/image_utils.py:63-75 | Bytes that no pixel writes keep their values through every row. |
| ImageUtils.PaddingUntouched | app/image_utils.py:58-65 | The padding between a row's pixels and the rowstride is never written. |
| ImageUtils.AlphaByteUntouched | app/image_utils.py:69-75 | In a four-channel image without alpha, the fourth byte is never written. |
| ImageUtils.ByteFilter | app/image_utils.py:71-75 | For byte pixels and a byte colour, colorizing always succeeds and only darkens. |
| ImageUtils.WhiteKeepsColour | app/image_utils.py:71-73 | A white filter keeps every RGB byte. |
| ImageUtils.ByteRows | app/image_utils.py:63-75 | For bytes, every row pass succeeds and yields bytes. |
| ImageUtils.ByteRow | app/image_utils.py:64-75 | For bytes, a row pass succeeds and yields bytes. |
| ImageUtils.PixelOfBytes | app/image_utils.py:65-75 | For bytes, a pixel blend succeeds and yields bytes. |
| ImageUtils.Colorize | app/image_utils.py:29-90 | A missing file gives no image, and a bad colour raises ValueError. Otherwise the image is the reference blend of the parsed colour, or the overflow failure. |
| Ui.InitialTable | app/ui.py:116-118 | The window starts with one data entry per tab, in tab order, all empty. |
| Ui.Contribution | app/ui.py:275-280 | A widget contributes its overlay list only when its data is a dict holding one. |
| Ui.AllOverlaysEmpty | app/ui.py:269-280 | No widget contributing means no overlays. |
| Ui.SplitAround | app/ui.py:275-280 | The gathered overlays are those of the widgets before a position, then that widget's own, then those after it. |
| Ui.AllOverlaysConcat | app/ui.py:275-280 | Gathering over two runs of tabs concatenates their overlays. |
| Ui.AllOverlaysMembers | app/ui.py:275-280 | An overlay is gathered iff some widget lists it. |
| Ui.OneWidgetChanges | app/ui.py:275-280 | Changing one widget's data changes only its own share of the overlays. |
| Ui.Refresh | app/ui.py:200-218 | Widgets update in tab order. A caught exception clears that widget's data and records an error. An uncaught one aborts the refresh. |
| Ui.ErrorText | app/ui.py:210-215 | The error record starts with "NotImplementedError: " exactly for that exception kind and ends with the exception's message. |
| Ui.FailureIsolated | app/ui.py:205-215 | A widget failing with a caught error changes only its own entry. |
| Ui.KeysAreTabNames | app/ui.py:116-118 | The table's keys are the tab names before and after a refresh. |
| Ui.Finish | app/ui.py:229-240 | The cache always holds the gathered overlays. The image is rebuilt iff the model has one and the overlays changed. |
| Ui.FinishIdempotent | app/ui.py:229-233 | A second refresh with the same overlays rebuilds nothing. |
| Ui.FirstFinishRebuilds | app/ui.py:229-233 | The first refresh always rebuilds the image, even with no overlays. |
| Ui.FinishKeepsImageInStep | app/ui.py:229-240 | For a model with an image, the image shows the cached overlays after every refresh. |
| Ui.InitialButtons | app/ui.py:152-164 | Only the first tab button starts active. |
| Ui.TabClicked | app/ui.py:250-259 | After a click exactly the clicked button is active, and its tab is shown. |
| Ui.ExactlyClickedActive | app/ui.py:254-258 | The clicked button is active and no two buttons are. |
| Ui.ClickShownTab | app/ui.py:254-258 | Clicking the already shown first tab changes no button. |
| PyInt.ParseRadix | app/image_utils.py:49 | `int(s, base)` succeeds only on text that is not all whitespace, and never on text holding one of U+001C..U+001F: `isspace()` holds for these, but `int()` does not skip them. |
| PyInt.SeparatorNotSkipped | app/keyboard_backlight_widget.py:57 | A leading U+001C makes `int()` fail, whatever follows it. |
| PyInt.ParseIntToString | app/keyboard_backlight_widget.py:57 | `int(str(n)) == n` for every integer. |
| PyInt.ParseIntSurrounded | app/keyboard_backlight_widget.py:57 | Whitespace other than U+001C..U+001F around a number does not change `int(s)`. |
| PyInt.ZFillValue | app/expansion_cards.py:71-72 | Zero-filling a digit run keeps its value. |
| PyInt.FloorDiv | app/power_status.py:34 | Floor division fails exactly on a zero divisor; otherwise it rounds toward minus infinity. |
| PyInt.TruncDiv | app/image_utils.py:71-75 | `int(n / d)` rounds toward zero. |
| Text.Strip | app/power_status.py:15 | The result is trimmed and no longer than the input. It is empty iff the input is all whitespace. |
| Text.StripSurrounded | app/framework_model.py:20 | Stripping removes exactly the surrounding whitespace. |
| Text.StripIdempotent | app/power_status.py:15 | Stripping twice is stripping once. |
| Text.Split | app/expansion_cards.py:76 | `split()` yields non-empty whitespace-free fields. |
| Text.SplitJoin | app/expansion_cards.py:76 | Splitting a space-joined list of fields gives the fields back. |
| Text.LinesUnlines | app/expansion_cards.py:75 | Splitting joined lines gives the lines back. |
| Text.SplitOnce | app/system_stats_widget.py:115 | Splitting at a separator succeeds iff it occurs. The first part has no separator, and the parts rejoin to the text. |
| Text.AfterLast | app/keyboard_backlight_widget.py:57 | `split(":")[-1]` is the suffix after the last colon. |
| Text.PathJoin | app/power_status.py:21 | `os.path.join(a, b)`: an absolute `b` is the result. A relative `b` follows `a`, with a "/" added only when `a` is non-empty and does not end in one. |
| Text.JoinedBaseName | app/power_status.py:21 | The last "/"-component of a joined path is the relative name that was joined on. |
| Text.FirstIndex | app/power_profiles_controller.py:146 | `list.index` finds the first occurrence, and only of a listed value. |
| Text.ZFill | app/expansion_cards.py:71-72 | `zfill` pads with leading zeros up to the width and keeps the text. |
| Text.Lower | app/power_status_widget.py:32 | Lower-casing keeps the length and leaves no upper-case letter. |

## Left out

- GTK widgets, timers, threads and `GLib.idle_add` are not modelled. Command outputs and file contents are parameters, and a failed run or read is `None`.
- The power-profiles-daemon (D-Bus) branches of `power_profiles_widget.py` and `power_profiles_controller.py` are not modelled. Only the tuned branch is.
- The `ectool` and `/usr/bin/keyboard_backlight_daemon.py` processes themselves are left out. The model returns the command lines and the text the program writes to them.
- The slider debounce timer is left out, and so is the 2-second timeout of `pwmgetkblight`.
- `model_image`, `helpers`, `three_leds`, `sample_widget` and `main` are not part of this model.
- Image loading and scaling (`GdkPixbuf.scale_simple`) are left out. So are the `GLib.Error` fallback to the unfiltered image and the PIL overlay generation.
- ImageUtils.Blend: it works on an immutable copy of the pixels, not on an `array.array('B')` in place. A channel that leaves 0..255 raises OverflowError in the program and is a `None` result here.
- The memory and storage figures of the statistics tab are floating-point `psutil` values. They enter the model as ready-made strings.
- The CPU name comes from `getattr(model, 'cpu', 'Unknown')` (system_stats_widget.py:39) and is a parameter. `FrameworkModel` (framework_model.py:9-13) has no `cpu` attribute, so the program always shows "CPU: Unknown"; that is the `None` case of the parameter.
- `_find_sysfs_path` walks `/sys/bus/usb/devices`. It is a lookup parameter here.
- The `lsblk` output is only checked for success, because the program never reads it.
- PyInt.ParseRadix: only ASCII digits count. `int()` also accepts other Unicode decimal digits, and such text gives `None` here.
- Python's `\d`, `upper()` and `lower()` are modelled on ASCII only. `isspace()`/`strip()` use Python's whitespace set of ASCII and common Unicode spaces.
- `print` side effects are not modelled.
- PowerProfiles.UpdateCombo: when the display map is non-empty, it requires a display name for every profile. The program would raise KeyError otherwise. Its only caller builds the map from the same listing.
- PowerProfiles.ListName: a blank `- ` line raises IndexError in the program, and the model returns that error as a `Failure` instead of excluding the line.
- KeyboardBacklight.ReadBrightness: the older `keyboard_backlight.py` reader (lines 30-50) catches only some exceptions; others escape its thread. Both readers are modelled by this one function, where `None` is a failed run.
- SystemStats.NamingValue: its `None` case is a stripped naming line without `=`. It cannot occur, because a line starting with `ID=` or `NAME=` keeps its `=` when stripped. The case is kept so the function is total.
- The topology map is keyed by the bus exactly as `lsusb -t` prints it, and `|__` lines match at any depth of the tree (expansion_cards.py:67-74). The `lsusb` listing is looked up with its own bus field. When that field is padded differently from the tree's bus, the device finds no port. `UsbTopology.UnpaddedBusNeverMatches` states this consequence.
- Ui.Finish: assumes the laptop model has an `overlay_id`. ui.py:172 and ui.py:238 read `self.model.overlay_id`, but `FrameworkModel` (framework_model.py:9-13) defines no such attribute, so for a board with an image (ui.py:171, ui.py:233) the program as shipped raises AttributeError when it builds the laptop image. The model covers the cache logic that would run if the attribute existed.

=== FILE: connected_devices.dfy ===
/** The connected-devices report: every `lsusb` line, annotated with the
    friendly name of the USB-C port it sits behind and the expansion card it
    looks like, sorted into a known-port section and an "other" section,
    followed by the raw `lsusb -t` tree. The tree parser and the classifier
    are the ones of `UsbTopology`. */
module ConnectedDevices {
  import opened Wrappers
  import opened Text
  import opened UsbTopology

  /** Friendly names of the padded port numbers. Port 005 is not listed. */
  const FriendlyPorts: map<string, string> := map[
    "001" := "Top Right",
    "002" := "Bottom Right",
    "003" := "Bottom Left/Right",
    "004" := "Top/Bottom Left",
    "006" := "Top Left"
  ]

  /** `port_map.get(port, f"Port {port}")`. */
  function PortLabel(port: string): (r: string)
    ensures r != ""
  {
    if port in FriendlyPorts then FriendlyPorts[port] else "Port " + port
  }

  /** A report entry and the section it goes to. */
  datatype Entry = Known(text: string) | Other(text: string)

  /** The sysfs lookup the report calls for each device; it walks
      `/sys/bus/usb/devices` and is a parameter here. */
  type SysfsLookup = (string, string) -> Option<string>

  /** The padded port the tree map records for a device, when it is
      non-empty (an empty port counts as absent). */
  function KnownPort(corr: map<Key, string>, bus: string, dev: string): (r: Option<string>)
    ensures r.Some? ==> (bus, dev) in corr && r.value == corr[(bus, dev)] && r.value != ""
    ensures GoodMap(corr) && (bus, dev) in corr ==> r.Some?
  {
    if (bus, dev) in corr && corr[(bus, dev)] != "" then Some(corr[(bus, dev)]) else None
  }

  /** `"  [label]"` for a known port, nothing otherwise. */
  function PortSuffix(port: Option<string>): (r: string)
    ensures r == "" <==> port.None?
    ensures port.Some? ==> |r| > 4 && r[..3] == "  [" && r[3..|r| - 1] == PortLabel(port.value) && r[|r| - 1] == ']'
  {
    if port.Some? then "  [" + PortLabel(port.value) + "]" else ""
  }

  /** `"  <card>"` for a classified line, nothing otherwise. */
  function CardSuffix(text: string): (r: string)
    ensures r == "" <==> Classify(text).None?
    ensures Classify(text).Some? ==>
      |r| > 4 && r[..3] == "  <" && r[3..|r| - 1] == Label(Classify(text).value) && r[|r| - 1] == '>'
  {
    match Classify(text)
    case Some(c) => "  <" + Label(c) + ">"
    case None => ""
  }

  /** The sysfs path, or "(unknown)" when the lookup found none. */
  function PathText(path: Option<string>): (r: string)
    ensures r != ""
    ensures path.Some? && path.value != "" ==> r == path.value
  {
    if path.Some? && path.value != "" then path.value else "(unknown)"
  }

  /** The entry for a device with stripped line `text`, bus and device
      tokens `bus` and `dev`. */
  function DeviceEntry(text: string, bus: string, dev: string, corr: map<Key, string>, sysfs: SysfsLookup): (e: Entry)
    ensures e.Known? <==> KnownPort(corr, bus, dev).Some?
    ensures StartsWith(e.text, text)
  {
    var port := KnownPort(corr, bus, dev);
    var rest := PortSuffix(port) + CardSuffix(text) + "\n  sysfs: " + PathText(sysfs(bus, dev));
    assert (text + rest)[..|text|] == text;
    if port.Some? then Known(text + rest) else Other(text + rest)
  }

  /** The annotated entry for one `lsusb` line: a line with fewer than six
      tokens goes to the other section as its stripped text; a longer one
      goes to the known section exactly when its port is known. */
  function Annotate(line: string, corr: map<Key, string>, sysfs: SysfsLookup): (e: Entry)
    ensures ParseDeviceLine(line).None? ==> e == Other(Strip(line))
    ensures ParseDeviceLine(line).Some? ==>
      e == DeviceEntry(Strip(line), ParseDeviceLine(line).value.0, ParseDeviceLine(line).value.1, corr, sysfs)
  {
    var parsed := ParseDeviceLine(line);
    if parsed.None? then Other(Strip(line))
    else DeviceEntry(Strip(line), parsed.value.0, parsed.value.1, corr, sysfs)
  }

  /** Every entry begins with the stripped line it was made from. */
  lemma AnnotateKeepsLine(line: string, corr: map<Key, string>, sysfs: SysfsLookup)
    ensures StartsWith(Annotate(line, corr, sysfs).text, Strip(line))
  {
    var text := Strip(line);
    assert text[..|text|] == text;
  }

  /** The annotated lines, in order. */
  function Entries(lines: seq<string>, corr: map<Key, string>, sysfs: SysfsLookup): (es: seq<Entry>)
    ensures |es| == |lines|
    ensures forall i :: 0 <= i < |lines| ==> es[i] == Annotate(lines[i], corr, sysfs)
  {
    seq(|lines|, i requires 0 <= i < |lines| => Annotate(lines[i], corr, sysfs))
  }

  /** The two lists of the loop, appended to one entry at a time. */
  function Partition(es: seq<Entry>): (r: (seq<string>, seq<string>))
    ensures |r.0| + |r.1| == |es|
  {
    if |es| == 0 then ([], [])
    else
      var r := Partition(es[..|es| - 1]);
      var e := es[|es| - 1];
      if e.Known? then (r.0 + [e.text], r.1) else (r.0, r.1 + [e.text])
  }

  /** The texts of the entries of one section, in order. */
  function Section(es: seq<Entry>, known: bool): (r: seq<string>)
    ensures |r| <= |es|
    ensures forall t :: t in r ==> exists j :: 0 <= j < |es| && es[j].Known? == known && es[j].text == t
  {
    if |es| == 0 then []
    else if es[0].Known? == known then [es[0].text] + Section(es[1..], known)
    else Section(es[1..], known)
  }

  lemma {:induction false} SectionAppend(es: seq<Entry>, e: Entry, known: bool)
    ensures Section(es + [e], known) == Section(es, known) + (if e.Known? == known then [e.text] else [])
    decreases |es|
  {
    if |es| == 0 {
      assert es + [e] == [e];
      assert [e][1..] == [];
    } else {
      assert (es + [e])[1..] == es[1..] + [e];
      SectionAppend(es[1..], e, known);
    }
  }

  /** The one-pass loop equals two order-preserving filters. */
  lemma {:induction false} PartitionIsFilter(es: seq<Entry>)
    ensures Partition(es).0 == Section(es, true)
    ensures Partition(es).1 == Section(es, false)
    decreases |es|
  {
    if |es| > 0 {
      var n := |es| - 1;
      PartitionIsFilter(es[..n]);
      assert es == es[..n] + [es[n]];
      SectionAppend(es[..n], es[n], true);
      SectionAppend(es[..n], es[n], false);
    }
  }

  const KnownHeader: string := "Devices with Known USB-C Port:"
  const OtherHeader: string := "Other USB Devices:"

  /** The topology block: a blank line, its title and the stripped tree. */
  function TopologyBlock(tree: string): string {
    "\nUSB Topology (lsusb -t):\n" + Strip(tree)
  }

  /** Whitespace around the tree output does not change the block. */
  lemma TopologyBlockStripped(tree: string)
    ensures TopologyBlock(Strip(tree)) == TopologyBlock(tree)
  {
    StripIdempotent(tree);
  }

  /** The report's sections: each list under its header only when it is
      non-empty, then the topology block. */
  function Sections(known: seq<string>, other: seq<string>, tree: string): (r: seq<string>)
    ensures |r| > 0 && r[|r| - 1] == TopologyBlock(tree)
    ensures |r| == (if known == [] then 0 else 1 + |known|) + (if other == [] then 0 else 1 + |other|) + 1
    ensures known != [] ==> r[0] == KnownHeader && r[1..1 + |known|] == known
    ensures other != [] ==>
      var at := if known == [] then 0 else 1 + |known|;
      r[at] == OtherHeader && r[at + 1..at + 1 + |other|] == other
  {
    var a := if known != [] then [KnownHeader] + known else [];
    var b := if other != [] then [OtherHeader] + other else [];
    var r := a + b + [TopologyBlock(tree)];
    assert r[|a|..|a| + |b|] == b;
    assert known != [] ==> r[..|a|] == a;
    r
  }

  /** The text of `ConnectedDevicesBox.update_devices`. Each command's
      output is a `Result`: `Failure` carries the text of the `OSError`
      that running it raised. The `lsblk` output itself is never read. */
  function UpdateDevices(lsblk: Result<string, string>, lsusb: Result<string, string>,
                         lsusbTree: Result<string, string>, sysfs: SysfsLookup): (text: string)
    ensures lsblk.Failure? ==> text == "Error detecting devices: " + lsblk.error
    ensures lsblk.Success? && lsusb.Failure? ==> text == "Error detecting devices: " + lsusb.error
    ensures lsblk.Success? && lsusb.Success? && lsusbTree.Failure? ==>
      text == "Error detecting devices: " + lsusbTree.error
  {
    if lsblk.Failure? then "Error detecting devices: " + lsblk.error
    else if lsusb.Failure? then "Error detecting devices: " + lsusb.error
    else if lsusbTree.Failure? then "Error detecting devices: " + lsusbTree.error
    else
      var corr := ParseTree(SplitLines(lsusbTree.value));
      var parts := Partition(Entries(SplitLines(lsusb.value), corr, sysfs));
      var sections := Sections(parts.0, parts.1, lsusbTree.value);
      if |sections| > 0 then Join(sections, "\n") else "No external devices detected."
  }

  /** The report is the sections joined by newlines: the topology block is
      always present, so the "No external devices detected." branch is
      never taken. */
  lemma ReportAlwaysHasTopology(lsblk: string, lsusb: string, lsusbTree: string, sysfs: SysfsLookup)
    ensures
      var corr := ParseTree(SplitLines(lsusbTree));
      var es := Entries(SplitLines(lsusb), corr, sysfs);
      UpdateDevices(Success(lsblk), Success(lsusb), Success(lsusbTree), sysfs)
        == Join(Sections(Section(es, true), Section(es, false), lsusbTree), "\n")
  {
    PartitionIsFilter(Entries(SplitLines(lsusb), ParseTree(SplitLines(lsusbTree)), sysfs));
  }

  /** Every value of the tree map is a padded port number, so a device
      that has a tree entry always has a known port. */
  lemma {:induction false} ParseTreePortsPadded(lines: seq<string>)
    ensures forall k :: k in ParseTree(lines) ==> |ParseTree(lines)[k]| >= 3
    decreases |lines|
  {
    if |lines| > 0 {
      var n := |lines| - 1;
      ParseTreePortsPadded(lines[..n]);
      TreeRunLast(lines);
      match MatchChild(lines[n]) {
        case None =>
          assert Emitted(lines, n) == None;
        case Some((port, dev)) =>
          assert Emitted(lines, n).Some? ==> Emitted(lines, n).value.1 == ZFill(port, 3);
      }
    }
  }

  /** With the map the report builds, a six-token line lands in the
      known-port section exactly when its (bus, device) pair has a tree
      entry. */
  lemma KnownIffCorrelated(line: string, tree: seq<string>, sysfs: SysfsLookup)
    requires ParseDeviceLine(line).Some?
    ensures Annotate(line, ParseTree(tree), sysfs).Known? <==> ParseDeviceLine(line).value in ParseTree(tree)
  {
    ParseTreePortsPadded(tree);
  }

  /** Port 005 has no friendly name. */
  lemma UnmappedPortLabel()
    ensures PortLabel("005") == "Port 005"
  {
  }
}

=== FILE: framework_model.dfy ===
/** The laptop model, looked up by the DMI board name: one known board,
    and a default that carries the board text in its name. */
module FrameworkModel {
  import opened Wrappers
  import opened Text

  /** A model: the board it was looked up by (None when the board name
      could not be read), its display name, its image and its number of
      expansion-card ports. */
  datatype Model = Model(boardName: Option<string>, name: string, image: Option<string>, ports: nat)

  /** The one board the table knows. */
  const KnownBoard: string := "FRANBMCP03"

  const Laptop13: Model :=
    Model(Some(KnownBoard), "Framework Laptop 13 i5 11th Gen", Some("framework-laptop-13.png"), 4)

  /** How Python formats the board inside the default name: the text, or
      "None" when there is none. */
  function BoardText(board: Option<string>): (r: string)
    ensures r == "None" <==> board.None? || board == Some("None")
    ensures board.Some? && board.value != "None" ==> r == board.value
  {
    if board.Some? then board.value else "None"
  }

  /** `get_framework_model`: the board file's stripped text is looked up;
      `None` for the file's content stands for a failed read. An unknown
      board gets a model named after it, without image or ports. */
  function GetModel(content: Option<string>): (m: Model)
    ensures content.Some? && Strip(content.value) == KnownBoard ==> m == Laptop13
    ensures !(content.Some? && Strip(content.value) == KnownBoard) ==>
      m.image.None? && m.ports == 0 && m.name == "Unknown (" + BoardText(m.boardName) + ")"
    ensures m.boardName == (if content.Some? then Some(Strip(content.value)) else None)
  {
    var board := if content.Some? then Some(Strip(content.value)) else None;
    if board == Some(KnownBoard) then Laptop13
    else Model(board, "Unknown (" + BoardText(board) + ")", None, 0)
  }

  /** A model has an image exactly when it has ports, exactly when its
      board is the known one. */
  lemma ImageIffKnown(content: Option<string>)
    ensures GetModel(content).image.Some? <==> GetModel(content).ports > 0
    ensures GetModel(content).image.Some? <==> (content.Some? && Strip(content.value) == KnownBoard)
  {
  }

  /** The default name gives the board text back. */
  lemma UnknownNameHoldsBoard(content: Option<string>)
    requires GetModel(content).image.None?
    ensures var n := GetModel(content).name;
      |n| >= 10 && n[9..|n| - 1] == BoardText(GetModel(content).boardName)
  {
    var n := GetModel(content).name;
    var b := BoardText(GetModel(content).boardName);
    assert n == "Unknown (" + b + ")";
    assert n[9..|n| - 1] == b;
  }

  /** The board file may end in a newline or other whitespace; the lookup
      gives the same model as for the bare board name. */
  lemma TrailingSpaceIgnored(board: string, ws: string)
    requires Trimmed(board) && board != "" && AllSpace(ws)
    ensures GetModel(Some(board + ws)) == GetModel(Some(board))
  {
    StripSurrounded("", board, ws);
    assert "" + board + ws == board + ws;
    StripTrimmed(board);
  }

  /** In particular the known board, followed by its newline, is found. */
  lemma TrailingNewlineKnown()
    ensures GetModel(Some(KnownBoard + "\n")) == Laptop13
  {
    assert AllSpace("\n");
    TrailingSpaceIgnored(KnownBoard, "\n");
    StripTrimmed(KnownBoard);
  }

  /** An unreadable board file and a board literally named "None" get the
      same display name, though their board names differ. */
  lemma ReadFailureLooksLikeNone()
    ensures GetModel(None).name == GetModel(Some("None")).name
    ensures GetModel(None).boardName != GetModel(Some("None")).boardName
  {
    StripSurrounded("", "None", "");
    assert "" + "None" + "" == "None";
  }
}

=== FILE: image_utils.dfy ===
/** `colorize_image`: the colour argument parsed into four integers, and
    the pass over a pixel buffer that scales each colour byte by the
    filter, `int(orig * c / 255)`, and the alpha byte only when the image
    has an alpha channel. Scaling the image first and building GTK images
    are left out; the buffer enters as a sequence of bytes. */
module ImageUtils {
  import opened Wrappers
  import opened Text
  import opened PyInt

  // ================================================================ the colour

  /** The colour argument: a string, or a tuple of integers. */
  datatype ColorArg = Str(s: string) | Tuple(components: seq<int>)

  /** An element of the colour once the hex string is decoded: an integer,
      or a character of a string that was not a hex colour (iterating a
      string gives its characters). */
  datatype Item = Num(n: int) | Chr(c: char)

  /** Python's `s.lstrip(c)` for one character. */
  function LStrip(s: string, c: char): (r: string)
    ensures |r| <= |s| && r == s[|s| - |r|..]
    ensures |r| > 0 ==> r[0] != c
    ensures forall i :: 0 <= i < |s| - |r| ==> s[i] == c
  {
    if |s| > 0 && s[0] == c then LStrip(s[1..], c) else s
  }

  /** `[s[i:i+2] for i in range(0, len(s), 2)]`: pairs of characters, the
      last one possibly single. */
  function Chunks(s: string): (r: seq<string>)
    ensures |r| == (|s| + 1) / 2
    ensures forall i :: 0 <= i < |r| ==> 0 < |r[i]| <= 2
    ensures forall i :: 0 <= i < |r| - 1 ==> |r[i]| == 2
    decreases |s|
  {
    if |s| == 0 then []
    else if |s| <= 2 then [s]
    else [s[..2]] + Chunks(s[2..])
  }

  /** The strings joined. */
  function Concat(ss: seq<string>): string {
    if |ss| == 0 then "" else ss[0] + Concat(ss[1..])
  }

  /** The chunks put back together give the string. */
  lemma {:induction false} ChunksConcat(s: string)
    ensures Concat(Chunks(s)) == s
    decreases |s|
  {
    if |s| > 2 {
      ChunksConcat(s[2..]);
      assert s[..2] + s[2..] == s;
    }
  }

  /** `int(chunk, 16)` of every chunk, in order; None when one of them is
      not hex (the comprehension raises on the first such chunk). */
  function HexItems(chunks: seq<string>): (r: Option<seq<Item>>)
    ensures r.None? <==> exists i :: 0 <= i < |chunks| && ParseRadix(chunks[i], 16).None?
    ensures r.Some? ==> |r.value| == |chunks|
    ensures r.Some? ==> forall i :: 0 <= i < |chunks| ==> r.value[i] == Num(ParseRadix(chunks[i], 16).value)
  {
    if forall i :: 0 <= i < |chunks| ==> ParseRadix(chunks[i], 16).Some? then
      Some(seq(|chunks|, i requires 0 <= i < |chunks| && ParseRadix(chunks[i], 16).Some? =>
        Num(ParseRadix(chunks[i], 16).value)))
    else None
  }

  /** The colour as a sequence of items: a string starting with '#' is
      stripped of its leading '#'s and decoded pair by pair; any other
      string stays a string; a tuple is its integers. None stands for the
      ValueError of a chunk that is not hex. */
  function Items(color: ColorArg): (r: Option<seq<Item>>)
    ensures color.Tuple? ==> r == Some(seq(|color.components|, i requires 0 <= i < |color.components| => Num(color.components[i])))
    ensures color.Str? && !StartsWith(color.s, "#") ==> r == Some(seq(|color.s|, i requires 0 <= i < |color.s| => Chr(color.s[i])))
    ensures color.Str? && StartsWith(color.s, "#") ==> r == HexItems(Chunks(LStrip(color.s, '#')))
  {
    match color
    case Tuple(ns) => Some(seq(|ns|, i requires 0 <= i < |ns| => Num(ns[i])))
    case Str(s) =>
      if StartsWith(s, "#") then HexItems(Chunks(LStrip(s, '#')))
      else Some(seq(|s|, i requires 0 <= i < |s| => Chr(s[i])))
  }

  /** `int(c)` of an item. */
  function ItemValue(it: Item): (r: Option<int>)
    ensures it.Num? ==> r == Some(it.n)
  {
    match it
    case Num(n) => Some(n)
    case Chr(c) => ParseInt([c])
  }

  /** A colour filter: red, green, blue and alpha. */
  type Color = (int, int, int, int)

  /** `r, g, b, a = (int(c) for c in color)` after a three-item colour is
      given alpha 255: None for any other number of items or an item that
      is not an integer (a ValueError). */
  function ParseColor(color: ColorArg): (r: Option<Color>)
    ensures color.Tuple? && |color.components| == 4 ==>
      r == Some((color.components[0], color.components[1], color.components[2], color.components[3]))
    ensures color.Tuple? && |color.components| == 3 ==>
      r == Some((color.components[0], color.components[1], color.components[2], 255))
    ensures color.Tuple? && |color.components| !in {3, 4} ==> r.None?
    ensures Items(color).None? ==> r.None?
  {
    match Items(color)
    case None => None
    case Some(items) =>
      var full := if |items| == 3 then items + [Num(255)] else items;
      if |full| != 4 then None
      else
        match (ItemValue(full[0]), ItemValue(full[1]), ItemValue(full[2]), ItemValue(full[3]))
        case (Some(r), Some(g), Some(b), Some(a)) => Some((r, g, b, a))
        case _ => None
  }

  /** A hex digit in lower case. */
  function HexDigit(d: nat): (c: char)
    requires d < 16
    ensures IsRadixDigit(c, 16) && RadixValue(c) == d && !IsSpace(c) && c != '#'
  {
    if d < 10 then ('0' as int + d) as char else ('a' as int + d - 10) as char
  }

  /** A byte as two hex digits, as a colour is written. */
  function HexByte(n: nat): (s: string)
    requires n < 256
    ensures |s| == 2
  {
    [HexDigit(n / 16), HexDigit(n % 16)]
  }

  /** `int(…, 16)` reads a written byte back. */
  lemma HexByteValue(n: nat)
    requires n < 256
    ensures ParseRadix(HexByte(n), 16) == Some(n)
  {
    var s := HexByte(n);
    StripTrimmed(s);
    assert s[..1] == [s[0]];
    assert GroupedValue(s[..1], 16) == RadixValue(s[0]) by {
      assert s[..1][..0] == [];
    }
  }

  /** The chunks of written bytes are the written first byte, then the
      chunks of the rest. */
  lemma HexChunksCons(bytes: seq<nat>)
    requires |bytes| > 0 && forall i :: 0 <= i < |bytes| ==> bytes[i] < 256
    ensures Chunks(HexString(bytes)) == [HexByte(bytes[0])] + Chunks(HexString(bytes[1..]))
  {
    var s := HexString(bytes);
    assert s == HexByte(bytes[0]) + HexString(bytes[1..]);
    assert s[..2] == HexByte(bytes[0]);
    assert s[2..] == HexString(bytes[1..]);
    if |bytes| == 1 {
      assert HexString(bytes[1..]) == "";
      assert s == HexByte(bytes[0]);
    }
  }

  /** The chunks of written bytes are the written bytes, one each. */
  lemma {:induction false} HexChunks(bytes: seq<nat>)
    requires forall i :: 0 <= i < |bytes| ==> bytes[i] < 256
    ensures |Chunks(HexString(bytes))| == |bytes|
    ensures forall i :: 0 <= i < |bytes| ==> Chunks(HexString(bytes))[i] == HexByte(bytes[i])
    decreases |bytes|
  {
    if |bytes| > 0 {
      HexChunksCons(bytes);
      HexChunks(bytes[1..]);
      var chunks := Chunks(HexString(bytes));
      forall i | 1 <= i < |bytes|
        ensures chunks[i] == HexByte(bytes[i])
      {
        assert chunks[i] == Chunks(HexString(bytes[1..]))[i - 1];
        assert bytes[1..][i - 1] == bytes[i];
      }
    }
  }

  /** Decoding the chunks of written bytes gives the bytes. */
  lemma HexItemsOfBytes(bytes: seq<nat>)
    requires forall i :: 0 <= i < |bytes| ==> bytes[i] < 256
    ensures HexItems(Chunks(HexString(bytes))) == Some(seq(|bytes|, i requires 0 <= i < |bytes| => Num(bytes[i])))
  {
    var chunks := Chunks(HexString(bytes));
    HexChunks(bytes);
    forall i | 0 <= i < |chunks|
      ensures ParseRadix(chunks[i], 16) == Some(bytes[i] as int)
    {
      HexByteValue(bytes[i]);
    }
    HexItemsOfValues(chunks, bytes);
  }

  /** Chunks that all read as integers decode to those integers. */
  lemma HexItemsOfValues(chunks: seq<string>, ns: seq<int>)
    requires |chunks| == |ns|
    requires forall i :: 0 <= i < |chunks| ==> ParseRadix(chunks[i], 16) == Some(ns[i])
    ensures HexItems(chunks) == Some(seq(|ns|, i requires 0 <= i < |ns| => Num(ns[i])))
  {
    var want := seq(|ns|, i requires 0 <= i < |ns| => Num(ns[i]));
    var r := HexItems(chunks);
    assert r.Some?;
    assert |r.value| == |want|;
    assert forall i :: 0 <= i < |ns| ==> r.value[i] == want[i];
    assert r.value == want;
  }

  /** Bytes written as hex digits. */
  function HexString(bytes: seq<nat>): (s: string)
    requires forall i :: 0 <= i < |bytes| ==> bytes[i] < 256
    ensures |s| == 2 * |bytes|
    ensures '#' !in s
  {
    if |bytes| == 0 then "" else HexByte(bytes[0]) + HexString(bytes[1..])
  }

  /** A colour written "#rrggbb" reads back as those bytes with alpha 255,
      and "#rrggbbaa" as all four. */
  lemma HexColorRoundTrip(bytes: seq<nat>)
    requires |bytes| == 3 || |bytes| == 4
    requires forall i :: 0 <= i < |bytes| ==> bytes[i] < 256
    ensures |bytes| == 3 ==> ParseColor(Str("#" + HexString(bytes))) == Some((bytes[0], bytes[1], bytes[2], 255))
    ensures |bytes| == 4 ==> ParseColor(Str("#" + HexString(bytes))) == Some((bytes[0], bytes[1], bytes[2], bytes[3]))
  {
    HexColorOf(bytes);
    ParseNums(Str("#" + HexString(bytes)), bytes);
  }

  /** A colour whose items are integers is those integers, with alpha 255
      after three of them; any other count fails. */
  lemma ParseNums(color: ColorArg, ns: seq<int>)
    requires Items(color) == Some(seq(|ns|, i requires 0 <= i < |ns| => Num(ns[i])))
    ensures |ns| == 4 ==> ParseColor(color) == Some((ns[0], ns[1], ns[2], ns[3]))
    ensures |ns| == 3 ==> ParseColor(color) == Some((ns[0], ns[1], ns[2], 255))
    ensures |ns| !in {3, 4} ==> ParseColor(color).None?
  {
  }

  lemma HexColorOf(bytes: seq<nat>)
    requires forall i :: 0 <= i < |bytes| ==> bytes[i] < 256
    ensures Items(Str("#" + HexString(bytes))) == Some(seq(|bytes|, i requires 0 <= i < |bytes| => Num(bytes[i])))
  {
    var s := "#" + HexString(bytes);
    assert StartsWith(s, "#");
    assert s[1..] == HexString(bytes);
    assert LStrip(s, '#') == HexString(bytes) by {
      var t := HexString(bytes);
      assert LStrip(s, '#') == LStrip(t, '#');
      if |t| > 0 {
        assert t[0] != '#';
      }
    }
    HexItemsOfBytes(bytes);
  }

  /** A digit character of a string colour is read by `int(c)`. */
  lemma DigitItem(d: nat)
    requires d < 10
    ensures ItemValue(Chr(DigitChar(d))) == Some(d)
  {
    var c := DigitChar(d);
    assert "" + [c] == [c];
    ParseSignedDigits([c], false, [c]);
    GroupedDigit(c, 10);
  }

  /** The decimal digits of `ds` written out. */
  function DigitString(ds: seq<nat>): (s: string)
    requires forall i :: 0 <= i < |ds| ==> ds[i] < 10
    ensures |s| == |ds| && forall i :: 0 <= i < |ds| ==> s[i] == DigitChar(ds[i])
  {
    seq(|ds|, i requires 0 <= i < |ds| => DigitChar(ds[i]))
  }

  /** A string that is not a hex colour is taken character by character:
      four digits give the colour of those digits (so "1234" is
      (1, 2, 3, 4)), and three digits get alpha 255. */
  lemma DigitColor(ds: seq<nat>)
    requires |ds| == 3 || |ds| == 4
    requires forall i :: 0 <= i < |ds| ==> ds[i] < 10
    ensures |ds| == 4 ==> ParseColor(Str(DigitString(ds))) == Some((ds[0], ds[1], ds[2], ds[3]))
    ensures |ds| == 3 ==> ParseColor(Str(DigitString(ds))) == Some((ds[0], ds[1], ds[2], 255))
  {
    var s := DigitString(ds);
    forall i | 0 <= i < |s|
      ensures ItemValue(Chr(s[i])) == Some(ds[i] as int)
    {
      DigitItem(ds[i]);
    }
    assert IsDigit(s[0]);
    CharColor(s, ds);
  }

  /** A string of three or four characters not starting with '#' whose
      characters each read as an integer is the colour of those integers. */
  lemma CharColor(s: string, vs: seq<int>)
    requires |s| == |vs| && (|s| == 3 || |s| == 4) && s[0] != '#'
    requires forall i :: 0 <= i < |s| ==> ItemValue(Chr(s[i])) == Some(vs[i])
    ensures |s| == 4 ==> ParseColor(Str(s)) == Some((vs[0], vs[1], vs[2], vs[3]))
    ensures |s| == 3 ==> ParseColor(Str(s)) == Some((vs[0], vs[1], vs[2], 255))
  {
    assert s[..1][0] == s[0];
    assert !StartsWith(s, "#");
    var items := seq(|s|, i requires 0 <= i < |s| => Chr(s[i]));
    assert Items(Str(s)) == Some(items);
    var full := if |items| == 3 then items + [Num(255)] else items;
    assert ItemValue(full[0]) == Some(vs[0]) && ItemValue(full[1]) == Some(vs[1]);
    assert ItemValue(full[2]) == Some(vs[2]);
    assert ItemValue(full[3]) == Some(if |s| == 3 then 255 else vs[3]);
  }

  // ================================================================ the pixel buffer

  /** A pixel buffer's shape, as GdkPixbuf reports it. */
  datatype Layout = Layout(width: nat, height: nat, rowstride: nat, nChannels: nat, hasAlpha: bool)

  /** The alpha byte is read and written only for an image with an alpha
      channel stored in four channels. */
  predicate AlphaBlended(g: Layout) {
    g.hasAlpha && g.nChannels == 4
  }

  /** How many bytes of each pixel the pass writes. */
  function Written(g: Layout): nat {
    if AlphaBlended(g) then 4 else 3
  }

  /** The product `a * b`, written as repeated addition so that offsets
      stay linear for the prover; `MulIsProduct` ties it to `*`. */
  function Mul(a: nat, b: nat): nat {
    if a == 0 then 0 else Mul(a - 1, b) + b
  }

  lemma {:induction false} MulIsProduct(a: nat, b: nat)
    ensures Mul(a, b) == a * b
  {
    if a > 0 {
      MulIsProduct(a - 1, b);
      assert (a - 1) * b + b == a * b;
    }
  }

  /** The first byte of pixel (x, y): `y * rowstride + x * n_channels`. */
  function Start(g: Layout, y: nat, x: nat): nat {
    Mul(y, g.rowstride) + Mul(x, g.nChannels)
  }

  /** A buffer of `size` bytes holds the layout: at least three channels,
      rows no shorter than their pixels, and the last row's pixels inside
      the buffer. */
  predicate Fits(g: Layout, size: nat) {
    && 3 <= g.nChannels
    && Mul(g.width, g.nChannels) <= g.rowstride
    && (g.width > 0 && g.height > 0 ==> Mul(g.height - 1, g.rowstride) + Mul(g.width, g.nChannels) <= size)
  }

  /** The filter component applied to byte `k` of a pixel. */
  function Component(c: Color, k: nat): int
    requires k < 4
  {
    if k == 0 then c.0 else if k == 1 then c.1 else if k == 2 then c.2 else c.3
  }

  /** Byte `p` lies outside the written bytes of pixel (x, y). */
  predicate PixelClear(g: Layout, y: nat, x: nat, p: nat) {
    p < Start(g, y, x) || Start(g, y, x) + Written(g) <= p
  }

  /** `int(o * c / 255)` stored in a byte array: the quotient truncated
      toward zero, and None (an OverflowError) when it is not a byte. */
  function Channel(o: int, c: int): (r: Option<int>)
    ensures r.Some? ==> 0 <= r.value <= 255
  {
    var q := TruncDiv(o * c, 255);
    if 0 <= q <= 255 then Some(q) else None
  }

  /** A byte blended with a byte component is a byte again: the floor of
      `o * c / 255`, never more than `o`, and `o` itself for a full
      component. */
  lemma ChannelOfBytes(o: int, c: int)
    requires 0 <= o <= 255 && 0 <= c <= 255
    ensures Channel(o, c).Some?
    ensures Channel(o, c).value * 255 <= o * c < Channel(o, c).value * 255 + 255
    ensures Channel(o, c).value <= o
    ensures c == 255 ==> Channel(o, c).value == o
  {
    assert 0 <= o * c <= 255 * c <= 255 * 255;
    assert o * c <= o * 255;
  }

  /** Bytes `i + k` to `i + w - 1` blended in turn, byte `i + j` with
      component `j`: None when a result is not a byte. */
  function BlendBytes(b: seq<int>, i: nat, color: Color, k: nat, w: nat): (r: Option<seq<int>>)
    requires k <= w <= 4 && i + w <= |b|
    ensures r.Some? ==> |r.value| == |b|
    decreases w - k
  {
    if k == w then Some(b)
    else
      match Channel(b[i + k], Component(color, k))
      case None => None
      case Some(v) => BlendBytes(b[i + k := v], i, color, k + 1, w)
  }

  /** Blending bytes `i + k` onwards fails exactly when one of their
      results is not a byte, and otherwise writes each of them, scaled by
      its component, and nothing else. */
  lemma {:induction false} BytesWrites(b: seq<int>, i: nat, color: Color, k: nat, w: nat)
    requires k <= w <= 4 && i + w <= |b|
    ensures BlendBytes(b, i, color, k, w).Some? <==>
      forall p :: i + k <= p < i + w ==> Channel(b[p], Component(color, p - i)).Some?
    ensures var r := BlendBytes(b, i, color, k, w);
      r.Some? ==> forall p :: 0 <= p < |b| && !(i + k <= p < i + w) ==> r.value[p] == b[p]
    ensures var r := BlendBytes(b, i, color, k, w);
      r.Some? ==> forall p :: i + k <= p < i + w ==> r.value[p] == Channel(b[p], Component(color, p - i)).value
    decreases w - k
  {
    if k < w {
      var c := Channel(b[i + k], Component(color, k));
      if c.Some? {
        var b' := b[i + k := c.value];
        BytesWrites(b', i, color, k + 1, w);
        assert forall p :: i + k < p < i + w ==> b'[p] == b[p];
      }
    }
  }

  /** The bytes of one pixel blended, red, green and blue, then alpha when
      the image blends it: None when a result is not a byte. */
  function BlendPixel(b: seq<int>, g: Layout, color: Color, y: nat, x: nat): (r: Option<seq<int>>)
    requires Start(g, y, x) + Written(g) <= |b|
    ensures r.Some? ==> |r.value| == |b|
  {
    BlendBytes(b, Start(g, y, x), color, 0, Written(g))
  }

  /** One pixel's blend writes exactly its written bytes, each the
      original byte scaled by its component, and fails exactly when one
      of them is not a byte. */
  lemma PixelWrites(b: seq<int>, g: Layout, color: Color, y: nat, x: nat)
    requires Start(g, y, x) + Written(g) <= |b|
    ensures var i := Start(g, y, x);
      BlendPixel(b, g, color, y, x).Some? <==>
        forall p :: i <= p < i + Written(g) ==> Channel(b[p], Component(color, p - i)).Some?
    ensures var r := BlendPixel(b, g, color, y, x);
      r.Some? ==> forall p :: 0 <= p < |b| && PixelClear(g, y, x, p) ==> r.value[p] == b[p]
    ensures var r, i := BlendPixel(b, g, color, y, x), Start(g, y, x);
      r.Some? ==> forall p :: i <= p < i + Written(g) ==> r.value[p] == Channel(b[p], Component(color, p - i)).value
  {
    BytesWrites(b, Start(g, y, x), color, 0, Written(g));
  }

  /** Multiplication keeps order. */
  lemma {:induction false} MulLe(a: nat, b: nat, c: nat)
    requires a <= b
    ensures Mul(a, c) <= Mul(b, c)
    decreases b
  {
    if a < b {
      MulLe(a, b - 1, c);
    }
  }

  /** Every pixel's written bytes lie inside a buffer that fits the
      layout. */
  lemma InBounds(g: Layout, size: nat, y: nat, x: nat)
    requires Fits(g, size) && y < g.height && x < g.width
    ensures Start(g, y, x) + g.nChannels <= size
    ensures Written(g) <= g.nChannels
  {
    MulLe(y, g.height - 1, g.rowstride);
    MulLe(x + 1, g.width, g.nChannels);
  }

  /** Pixel (x1, y1) comes before pixel (x2, y2) in the scan. */
  predicate Earlier(y1: nat, x1: nat, y2: nat, x2: nat) {
    y1 < y2 || (y1 == y2 && x1 < x2)
  }

  /** The pass visits pixels at increasing offsets, each pixel's bytes
      ending before the next pixel starts. */
  lemma StartOrder(g: Layout, y1: nat, x1: nat, y2: nat, x2: nat)
    requires Mul(g.width, g.nChannels) <= g.rowstride && x1 < g.width
    requires Earlier(y1, x1, y2, x2)
    ensures Start(g, y1, x1) + g.nChannels <= Start(g, y2, x2)
  {
    if y1 == y2 {
      MulLe(x1 + 1, x2, g.nChannels);
    } else {
      MulLe(x1 + 1, g.width, g.nChannels);
      MulLe(y1 + 1, y2, g.rowstride);
    }
  }

  /** The first `x` pixels of row `y` blended into `buf`. */
  function BlendRow(buf: Option<seq<int>>, g: Layout, color: Color, y: nat, x: nat): (r: Option<seq<int>>)
    requires buf.Some? ==> Fits(g, |buf.value|)
    requires y < g.height && x <= g.width
    ensures r.Some? ==> buf.Some? && |r.value| == |buf.value|
  {
    if x == 0 then buf
    else
      match BlendRow(buf, g, color, y, x - 1)
      case None => None
      case Some(b) =>
        InBounds(g, |b|, y, x - 1);
        BlendPixel(b, g, color, y, x - 1)
  }

  /** The first `y` rows blended into `buf`. */
  function BlendRows(buf: Option<seq<int>>, g: Layout, color: Color, y: nat): (r: Option<seq<int>>)
    requires buf.Some? ==> Fits(g, |buf.value|)
    requires y <= g.height
    ensures r.Some? ==> buf.Some? && |r.value| == |buf.value|
  {
    if y == 0 then buf
    else BlendRow(BlendRows(buf, g, color, y - 1), g, color, y - 1, g.width)
  }

  /** The whole pass, row by row and left to right, as a reference. */
  function BlendImage(pixels: seq<int>, g: Layout, color: Color): (r: Option<seq<int>>)
    requires Fits(g, |pixels|)
  {
    BlendRows(Some(pixels), g, color, g.height)
  }

  /** The loop of `colorize_image` over a copy of the buffer: row by row,
      pixel by pixel, bytes `i`, `i+1`, `i+2` (and `i+3` when blending
      alpha) at `i = y * rowstride + x * n_channels`. A result that does
      not fit a byte ends the pass with None. */
  method Blend(pixels: seq<int>, g: Layout, color: Color) returns (r: Option<seq<int>>)
    requires Fits(g, |pixels|)
    ensures r == BlendImage(pixels, g, color)
  {
    var buf := pixels;
    var y := 0;
    while y < g.height
      invariant y <= g.height
      invariant BlendRows(Some(pixels), g, color, y) == Some(buf)
    {
      var ok, next := BlendRowAt(buf, g, color, y);
      if !ok {
        RowsFailureStays(pixels, g, color, y + 1, g.height);
        return None;
      }
      buf := next;
      y := y + 1;
    }
    r := Some(buf);
  }

  /** One row of the loop, pixel by pixel from the left: the buffer with
      the row blended, or false when a pixel fails. */
  method BlendRowAt(b: seq<int>, g: Layout, color: Color, y: nat) returns (ok: bool, out: seq<int>)
    requires Fits(g, |b|) && y < g.height
    ensures ok <==> BlendRow(Some(b), g, color, y, g.width).Some?
    ensures ok ==> BlendRow(Some(b), g, color, y, g.width) == Some(out)
  {
    out := b;
    var x := 0;
    while x < g.width
      invariant x <= g.width
      invariant BlendRow(Some(b), g, color, y, x) == Some(out)
    {
      RowStep(Some(b), g, color, y, x, out);
      var next;
      ok, next := BlendPixelAt(out, g, color, y, x);
      if !ok {
        RowFailureStays(Some(b), g, color, y, x + 1, g.width);
        return;
      }
      out := next;
      x := x + 1;
    }
    ok := true;
  }

  /** The row up to pixel `x + 1` is the row up to pixel `x` with that
      pixel blended. */
  lemma RowStep(buf: Option<seq<int>>, g: Layout, color: Color, y: nat, x: nat, b: seq<int>)
    requires buf.Some? ==> Fits(g, |buf.value|)
    requires y < g.height && x < g.width
    requires BlendRow(buf, g, color, y, x) == Some(b)
    ensures Start(g, y, x) + Written(g) <= |b|
    ensures BlendRow(buf, g, color, y, x + 1) == BlendPixel(b, g, color, y, x)
  {
    InBounds(g, |b|, y, x);
  }

  /** One pixel of the loop: from `i = y * rowstride + x * n_channels`,
      bytes `i`, `i+1`, `i+2` (and `i+3` when blending alpha) are blended
      and written back in turn, until a result that is not a byte stops
      the pass. */
  method BlendPixelAt(b: seq<int>, g: Layout, color: Color, y: nat, x: nat) returns (ok: bool, out: seq<int>)
    requires Start(g, y, x) + Written(g) <= |b|
    ensures ok <==> BlendPixel(b, g, color, y, x).Some?
    ensures ok ==> BlendPixel(b, g, color, y, x) == Some(out)
  {
    var i := y * g.rowstride + x * g.nChannels;
    assert i == Start(g, y, x) by {
      MulIsProduct(y, g.rowstride);
      MulIsProduct(x, g.nChannels);
    }
    var w := if g.hasAlpha && g.nChannels == 4 then 4 else 3;
    out := b;
    var k := 0;
    while k < w
      invariant k <= w == Written(g) && |out| == |b|
      invariant BlendBytes(b, i, color, 0, w) == BlendBytes(out, i, color, k, w)
    {
      var v := Channel(out[i + k], Component(color, k));
      if v.None? {
        return false, b;
      }
      out := out[i + k := v.value];
      k := k + 1;
    }
    ok := true;
  }

  /** A failed row ends the whole pass in failure. */
  lemma {:induction false} RowFailureStays(buf: Option<seq<int>>, g: Layout, color: Color, y: nat, x1: nat, x2: nat)
    requires buf.Some? ==> Fits(g, |buf.value|)
    requires y < g.height && x1 <= x2 <= g.width
    requires BlendRow(buf, g, color, y, x1).None?
    ensures BlendRow(buf, g, color, y, x2).None?
    decreases x2
  {
    if x2 > x1 {
      RowFailureStays(buf, g, color, y, x1, x2 - 1);
    }
  }

  lemma {:induction false} RowsFailureStays(pixels: seq<int>, g: Layout, color: Color, y1: nat, y2: nat)
    requires Fits(g, |pixels|)
    requires y1 <= y2 <= g.height
    requires BlendRows(Some(pixels), g, color, y1).None?
    ensures BlendRows(Some(pixels), g, color, y2).None?
    decreases y2
  {
    if y2 > y1 {
      RowsFailureStays(pixels, g, color, y1, y2 - 1);
      RowFailureStays(None, g, color, y2 - 1, 0, g.width);
    }
  }

  /** A pixel whose bytes do not fit the array fails the whole pass. */
  lemma FailureStays(pixels: seq<int>, g: Layout, color: Color, y: nat, x: nat)
    requires Fits(g, |pixels|) && y < g.height && x < g.width
    requires BlendRow(BlendRows(Some(pixels), g, color, y), g, color, y, x + 1).None?
    ensures BlendImage(pixels, g, color).None?
  {
    var rows := BlendRows(Some(pixels), g, color, y);
    RowFailureStays(rows, g, color, y, x + 1, g.width);
    assert BlendRows(Some(pixels), g, color, y + 1) == BlendRow(rows, g, color, y, g.width);
    RowsFailureStays(pixels, g, color, y + 1, g.height);
  }

  // ================================================================ what the pass writes

  /** Byte `p` belongs to the written bytes of some pixel. */
  ghost predicate Touched(g: Layout, p: nat) {
    exists y: nat, x: nat :: y < g.height && x < g.width && Start(g, y, x) <= p < Start(g, y, x) + Written(g)
  }

  /** Blending row `y` up to pixel `x` keeps every byte outside those
      pixels' written bytes. */
  lemma {:induction false} RowKeeps(b: seq<int>, g: Layout, color: Color, y: nat, x: nat, p: nat)
    requires Fits(g, |b|) && y < g.height && x <= g.width && p < |b|
    requires forall x' :: 0 <= x' < x ==> PixelClear(g, y, x', p)
    requires BlendRow(Some(b), g, color, y, x).Some?
    ensures BlendRow(Some(b), g, color, y, x).value[p] == b[p]
    decreases x
  {
    if x > 0 {
      RowKeeps(b, g, color, y, x - 1, p);
      var c := BlendRow(Some(b), g, color, y, x - 1).value;
      InBounds(g, |c|, y, x - 1);
      PixelWrites(c, g, color, y, x - 1);
      assert PixelClear(g, y, x - 1, p);
    }
  }

  /** Blending rows `y1` to `y2` keeps every byte before row `y1`. */
  lemma {:induction false} RowsKeepBefore(pixels: seq<int>, g: Layout, color: Color, y1: nat, y2: nat, p: nat)
    requires Fits(g, |pixels|) && y1 <= y2 <= g.height && p < |pixels|
    requires p < Mul(y1, g.rowstride)
    requires BlendRows(Some(pixels), g, color, y2).Some?
    ensures BlendRows(Some(pixels), g, color, y1).Some?
    ensures BlendRows(Some(pixels), g, color, y2).value[p] == BlendRows(Some(pixels), g, color, y1).value[p]
    decreases y2
  {
    if y2 > y1 {
      var row := y2 - 1;
      var prev := BlendRows(Some(pixels), g, color, row);
      RowsKeepBefore(pixels, g, color, y1, row, p);
      MulLe(y1, row, g.rowstride);
      forall x': nat | x' < g.width
        ensures PixelClear(g, row, x', p)
      {
      }
      RowKeeps(prev.value, g, color, row, g.width, p);
    }
  }

  /** Blending pixels `x1` to `x2` of a row keeps every byte before pixel
      `x1`. */
  lemma {:induction false} RowKeepsBefore(buf: Option<seq<int>>, g: Layout, color: Color, y: nat, x1: nat, x2: nat, p: nat)
    requires buf.Some? ==> Fits(g, |buf.value|)
    requires y < g.height && x1 <= x2 <= g.width
    requires p < Start(g, y, x1)
    requires BlendRow(buf, g, color, y, x2).Some?
    ensures BlendRow(buf, g, color, y, x1).Some?
    ensures p < |buf.value| ==> BlendRow(buf, g, color, y, x2).value[p] == BlendRow(buf, g, color, y, x1).value[p]
    decreases x2
  {
    if x2 > x1 {
      RowKeepsBefore(buf, g, color, y, x1, x2 - 1, p);
      MulLe(x1, x2 - 1, g.nChannels);
      var c := BlendRow(buf, g, color, y, x2 - 1).value;
      InBounds(g, |c|, y, x2 - 1);
      PixelWrites(c, g, color, y, x2 - 1);
      assert PixelClear(g, y, x2 - 1, p);
    }
  }

  /** Before pixel (x, y) is blended, its bytes still hold their original
      values. */
  lemma {:induction false} UnvisitedUnchanged(pixels: seq<int>, g: Layout, color: Color, y: nat, x: nat, p: nat)
    requires Fits(g, |pixels|) && y < g.height && x <= g.width && p < |pixels|
    requires Start(g, y, x) <= p
    requires BlendRow(BlendRows(Some(pixels), g, color, y), g, color, y, x).Some?
    ensures BlendRows(Some(pixels), g, color, y).Some?
    ensures BlendRow(BlendRows(Some(pixels), g, color, y), g, color, y, x).value[p] == pixels[p]
  {
    var rows := BlendRows(Some(pixels), g, color, y);
    assert rows.Some?;
    RowsKeepAfter(pixels, g, color, y, p);
    forall x': nat | x' < x
      ensures PixelClear(g, y, x', p)
    {
      InBounds(g, |pixels|, y, x');
      StartOrder(g, y, x', y, x);
    }
    RowKeeps(rows.value, g, color, y, x, p);
  }

  /** The first `y` rows leave every byte from row `y` on alone. */
  lemma {:induction false} RowsKeepAfter(pixels: seq<int>, g: Layout, color: Color, y: nat, p: nat)
    requires Fits(g, |pixels|) && y <= g.height && p < |pixels|
    requires Mul(y, g.rowstride) <= p
    requires BlendRows(Some(pixels), g, color, y).Some?
    ensures BlendRows(Some(pixels), g, color, y).value[p] == pixels[p]
    decreases y
  {
    if y > 0 {
      var row := y - 1;
      var prev := BlendRows(Some(pixels), g, color, row);
      MulLe(row, y, g.rowstride);
      RowsKeepAfter(pixels, g, color, row, p);
      forall x': nat | x' < g.width
        ensures PixelClear(g, row, x', p)
      {
        InBounds(g, |pixels|, row, x');
        StartOrder(g, row, x', y, 0);
      }
      RowKeeps(prev.value, g, color, row, g.width, p);
    }
  }

  /** The rows after row `y` leave the bytes of its pixels as they were
      once the row was blended. */
  lemma LaterRowsKeep(pixels: seq<int>, g: Layout, color: Color, y: nat, x: nat, p: nat)
    requires Fits(g, |pixels|) && y < g.height && x < g.width
    requires p < Start(g, y, x) + g.nChannels && p < |pixels|
    requires BlendImage(pixels, g, color).Some?
    ensures BlendRows(Some(pixels), g, color, y + 1).Some?
    ensures BlendImage(pixels, g, color).value[p] == BlendRows(Some(pixels), g, color, y + 1).value[p]
  {
    StartOrder(g, y, x, y + 1, 0);
    RowsKeepBefore(pixels, g, color, y + 1, g.height, p);
  }

  /** Every pixel after pixel (x, y) leaves that pixel's bytes as they
      were once it was blended. */
  lemma LaterPixelsKeep(pixels: seq<int>, g: Layout, color: Color, y: nat, x: nat, p: nat)
    requires Fits(g, |pixels|) && y < g.height && x < g.width
    requires Start(g, y, x) <= p < Start(g, y, x) + g.nChannels
    requires BlendImage(pixels, g, color).Some?
    ensures p < |pixels|
    ensures BlendRows(Some(pixels), g, color, y).Some?
    ensures BlendRow(BlendRows(Some(pixels), g, color, y), g, color, y, x + 1).Some?
    ensures BlendImage(pixels, g, color).value[p] ==
      BlendRow(BlendRows(Some(pixels), g, color, y), g, color, y, x + 1).value[p]
  {
    InBounds(g, |pixels|, y, x);
    LaterRowsKeep(pixels, g, color, y, x, p);
    var rows := BlendRows(Some(pixels), g, color, y);
    assert BlendRows(Some(pixels), g, color, y + 1) == BlendRow(rows, g, color, y, g.width);
    LaterInRowKeep(rows, g, color, y, x, p);
  }

  /** The rest of a row leaves the bytes of its pixel (x, y) as they were
      once that pixel was blended. */
  lemma LaterInRowKeep(rows: Option<seq<int>>, g: Layout, color: Color, y: nat, x: nat, p: nat)
    requires rows.Some? ==> Fits(g, |rows.value|)
    requires y < g.height && x < g.width
    requires Start(g, y, x) <= p < Start(g, y, x) + g.nChannels
    requires BlendRow(rows, g, color, y, g.width).Some?
    ensures BlendRow(rows, g, color, y, x + 1).Some?
    ensures p < |rows.value| ==> BlendRow(rows, g, color, y, g.width).value[p] == BlendRow(rows, g, color, y, x + 1).value[p]
  {
    assert Start(g, y, x + 1) == Start(g, y, x) + g.nChannels;
    RowKeepsBefore(rows, g, color, y, x + 1, g.width, p);
  }

  /** Each written byte of each pixel ends up as its original value
      blended with the filter's component: `int(orig * c / 255)`. */
  lemma PixelBlended(pixels: seq<int>, g: Layout, color: Color, y: nat, x: nat, k: nat)
    requires Fits(g, |pixels|) && y < g.height && x < g.width && k < Written(g)
    requires BlendImage(pixels, g, color).Some?
    ensures Start(g, y, x) + k < |pixels|
    ensures Channel(pixels[Start(g, y, x) + k], Component(color, k)).Some?
    ensures BlendImage(pixels, g, color).value[Start(g, y, x) + k] ==
      Channel(pixels[Start(g, y, x) + k], Component(color, k)).value
  {
    InBounds(g, |pixels|, y, x);
    var i := Start(g, y, x);
    var p := i + k;
    var out := BlendImage(pixels, g, color).value;
    var rows := BlendRows(Some(pixels), g, color, y);
    LaterPixelsKeep(pixels, g, color, y, x, p);
    var c := BlendRow(rows, g, color, y, x).value;
    // the pixel is blended from its original bytes
    assert c[p] == pixels[p] by {
      UnvisitedUnchanged(pixels, g, color, y, x, p);
    }
    assert BlendPixel(c, g, color, y, x).Some? && out[p] == BlendPixel(c, g, color, y, x).value[p];
    PixelWrites(c, g, color, y, x);
    assert p - i == k;
  }

  /** Bytes the pass does not write (row padding, and the alpha byte of an
      image without alpha) keep their values. */
  lemma UntouchedKept(pixels: seq<int>, g: Layout, color: Color, p: nat)
    requires Fits(g, |pixels|) && p < |pixels| && !Touched(g, p)
    requires BlendImage(pixels, g, color).Some?
    ensures BlendImage(pixels, g, color).value[p] == pixels[p]
  {
    UntouchedRows(pixels, g, color, g.height, p);
  }

  lemma {:induction false} UntouchedRows(pixels: seq<int>, g: Layout, color: Color, y: nat, p: nat)
    requires Fits(g, |pixels|) && y <= g.height && p < |pixels| && !Touched(g, p)
    requires BlendRows(Some(pixels), g, color, y).Some?
    ensures BlendRows(Some(pixels), g, color, y).value[p] == pixels[p]
    decreases y
  {
    if y > 0 {
      var row := y - 1;
      var prev := BlendRows(Some(pixels), g, color, row);
      UntouchedRows(pixels, g, color, row, p);
      forall x': nat | x' < g.width
        ensures PixelClear(g, row, x', p)
      {
      }
      RowKeeps(prev.value, g, color, row, g.width, p);
    }
  }

  /** A row's padding, after its pixels, is written by no pixel. */
  lemma PaddingUntouched(g: Layout, y: nat, o: nat)
    requires 3 <= g.nChannels && Mul(g.width, g.nChannels) <= o < g.rowstride
    ensures !Touched(g, Mul(y, g.rowstride) + o)
  {
    var p := Mul(y, g.rowstride) + o;
    forall y': nat, x': nat | y' < g.height && x' < g.width
      ensures !(Start(g, y', x') <= p < Start(g, y', x') + Written(g))
    {
      MulLe(x' + 1, g.width, g.nChannels);
      if y' < y {
        MulLe(y' + 1, y, g.rowstride);
      } else if y' > y {
        MulLe(y + 1, y', g.rowstride);
      }
    }
  }

  /** In a four-channel image without alpha the fourth byte of each pixel
      is written by no pixel. */
  lemma AlphaByteUntouched(g: Layout, y: nat, x: nat)
    requires g.nChannels == 4 && !g.hasAlpha && Mul(g.width, g.nChannels) <= g.rowstride
    requires x < g.width
    ensures !Touched(g, Start(g, y, x) + 3)
  {
    var p := Start(g, y, x) + 3;
    forall y': nat, x': nat | y' < g.height && x' < g.width
      ensures !(Start(g, y', x') <= p < Start(g, y', x') + Written(g))
    {
      if Earlier(y', x', y, x) {
        StartOrder(g, y', x', y, x);
      } else if Earlier(y, x, y', x') {
        StartOrder(g, y, x, y', x');
      }
    }
  }

  /** Every byte of a byte buffer lies in 0..255. */
  predicate Bytes(b: seq<int>) {
    forall p :: 0 <= p < |b| ==> 0 <= b[p] <= 255
  }

  /** A byte filter never fails on a byte buffer, and never brightens a
      byte; a white filter keeps the colour bytes. */
  lemma ByteFilter(pixels: seq<int>, g: Layout, color: Color)
    requires Fits(g, |pixels|) && Bytes(pixels)
    requires 0 <= color.0 <= 255 && 0 <= color.1 <= 255 && 0 <= color.2 <= 255 && 0 <= color.3 <= 255
    ensures BlendImage(pixels, g, color).Some?
    ensures forall p :: 0 <= p < |pixels| ==> BlendImage(pixels, g, color).value[p] <= pixels[p]
  {
    ByteRows(pixels, g, color, g.height);
    var out := BlendImage(pixels, g, color).value;
    forall p | 0 <= p < |pixels|
      ensures out[p] <= pixels[p]
    {
      if Touched(g, p) {
        var y: nat, x: nat :| y < g.height && x < g.width && Start(g, y, x) <= p < Start(g, y, x) + Written(g);
        var k := p - Start(g, y, x);
        PixelBlended(pixels, g, color, y, x, k);
        ChannelOfBytes(pixels[p], Component(color, k));
      } else {
        UntouchedKept(pixels, g, color, p);
      }
    }
  }

  /** With a white filter the colour bytes come out as they went in. */
  lemma WhiteKeepsColour(pixels: seq<int>, g: Layout, a: int, y: nat, x: nat, k: nat)
    requires Fits(g, |pixels|) && Bytes(pixels) && 0 <= a <= 255
    requires y < g.height && x < g.width && k < 3
    ensures Start(g, y, x) + k < |pixels|
    ensures BlendImage(pixels, g, (255, 255, 255, a)).Some?
    ensures BlendImage(pixels, g, (255, 255, 255, a)).value[Start(g, y, x) + k] == pixels[Start(g, y, x) + k]
  {
    ByteFilter(pixels, g, (255, 255, 255, a));
    PixelBlended(pixels, g, (255, 255, 255, a), y, x, k);
    ChannelOfBytes(pixels[Start(g, y, x) + k], 255);
  }

  lemma {:induction false} ByteRows(pixels: seq<int>, g: Layout, color: Color, y: nat)
    requires Fits(g, |pixels|) && Bytes(pixels) && y <= g.height
    requires 0 <= color.0 <= 255 && 0 <= color.1 <= 255 && 0 <= color.2 <= 255 && 0 <= color.3 <= 255
    ensures BlendRows(Some(pixels), g, color, y).Some?
    ensures Bytes(BlendRows(Some(pixels), g, color, y).value)
    decreases y
  {
    if y > 0 {
      ByteRows(pixels, g, color, y - 1);
      ByteRow(BlendRows(Some(pixels), g, color, y - 1).value, g, color, y - 1, g.width);
    }
  }

  lemma {:induction false} ByteRow(b: seq<int>, g: Layout, color: Color, y: nat, x: nat)
    requires Fits(g, |b|) && Bytes(b) && y < g.height && x <= g.width
    requires 0 <= color.0 <= 255 && 0 <= color.1 <= 255 && 0 <= color.2 <= 255 && 0 <= color.3 <= 255
    ensures BlendRow(Some(b), g, color, y, x).Some?
    ensures Bytes(BlendRow(Some(b), g, color, y, x).value)
    decreases x
  {
    if x > 0 {
      ByteRow(b, g, color, y, x - 1);
      var c := BlendRow(Some(b), g, color, y, x - 1).value;
      InBounds(g, |c|, y, x - 1);
      PixelOfBytes(c, g, color, y, x - 1);
      assert BlendRow(Some(b), g, color, y, x) == BlendPixel(c, g, color, y, x - 1);
    }
  }

  /** A pixel of a byte buffer blended with a byte filter is bytes again. */
  lemma PixelOfBytes(c: seq<int>, g: Layout, color: Color, y: nat, x: nat)
    requires Start(g, y, x) + Written(g) <= |c| && Bytes(c)
    requires 0 <= color.0 <= 255 && 0 <= color.1 <= 255 && 0 <= color.2 <= 255 && 0 <= color.3 <= 255
    ensures BlendPixel(c, g, color, y, x).Some?
    ensures Bytes(BlendPixel(c, g, color, y, x).value)
  {
    var i := Start(g, y, x);
    forall p | i <= p < i + Written(g)
      ensures Channel(c[p], Component(color, p - i)).Some?
    {
      ChannelOfBytes(c[p], Component(color, p - i));
    }
    PixelWrites(c, g, color, y, x);
  }

  // ================================================================ colorize_image

  /** `colorize_image` after loading: None for a file that does not exist
      (`file` is None); otherwise the colour is parsed and the buffer
      blended. A Failure stands for the ValueError or OverflowError the
      function lets escape. */
  method Colorize(file: Option<(seq<int>, Layout)>, color: ColorArg) returns (r: Result<Option<seq<int>>, string>)
    requires file.Some? ==> Fits(file.value.1, |file.value.0|)
    ensures file.None? ==> r == Success(None)
    ensures file.Some? && ParseColor(color).None? ==> r == Failure("ValueError")
    ensures file.Some? && ParseColor(color).Some? ==>
      (r.Success? <==> BlendImage(file.value.0, file.value.1, ParseColor(color).value).Some?)
    ensures file.Some? && r.Success? ==> r.value == BlendImage(file.value.0, file.value.1, ParseColor(color).value)
  {
    if file.None? {
      return Success(None);
    }
    var c := ParseColor(color);
    if c.None? {
      return Failure("ValueError");
    }
    var out := Blend(file.value.0, file.value.1, c.value);
    if out.None? {
      return Failure("OverflowError");
    }
    return Success(out);
  }
}

=== FILE: keyboard_backlight.dfy ===
/** The keyboard backlight controls, in both variants (the tab widget and
    the older box): the four-mode cycle, the brightness slider that forces
    Manual, the mode text sent to the backlight daemon, and the reading of
    the current brightness from `ectool pwmgetkblight`. The two variants
    differ in a mode click only when `pgrep` or `pkexec` is missing. */
module KeyboardBacklight {
  import opened Wrappers
  import opened Text
  import opened PyInt

  /** The modes, in cycling order. */
  const Modes: seq<string> := ["Manual", "Auto", "Responsive", "Breathe"]

  /** The text that marks the brightness line of `ectool pwmgetkblight`. */
  const PercentMarker: string := "Current keyboard backlight percent:"

  // ================================================================ reading the brightness

  /** The first line containing `sub`. */
  function FirstWith(lines: seq<string>, sub: string): (r: Option<nat>)
    ensures r.None? <==> forall j :: 0 <= j < |lines| ==> !Contains(lines[j], sub)
    ensures r.Some? ==> r.value < |lines| && Contains(lines[r.value], sub)
    ensures r.Some? ==> forall j :: 0 <= j < r.value ==> !Contains(lines[j], sub)
  {
    if |lines| == 0 then None
    else if Contains(lines[0], sub) then Some(0)
    else
      match FirstWith(lines[1..], sub)
      case None => None
      case Some(k) => Some(k + 1)
  }

  /** The brightness the controls start from: the integer after the last
      ':' of the first marker line. A failed run (`None`), a missing line
      or text that is not an integer all leave it at 0; later marker lines
      are never looked at. */
  function ReadBrightness(out: Option<string>): (v: int)
    ensures out.None? ==> v == 0
    ensures out.Some? && FirstWith(SplitLines(out.value), PercentMarker).None? ==> v == 0
  {
    if out.None? then 0 else FirstValue(SplitLines(out.value), PercentMarker)
  }

  /** The integer after the last ':' of the first line carrying `marker`,
      or 0. */
  function FirstValue(lines: seq<string>, marker: string): (v: int)
    ensures FirstWith(lines, marker).None? ==> v == 0
  {
    match FirstWith(lines, marker)
    case None => 0
    case Some(i) => ParseInt(AfterLast(lines[i], ':')).GetOr(0)
  }

  /** The brightness line as `ectool` prints it. */
  function PercentLine(n: int): string {
    PercentMarker + " " + IntToString(n)
  }

  /** `IntToString` never produces a line break or a ':'. */
  lemma IntToStringPlain(n: int)
    ensures ':' !in IntToString(n) && NoneIn(IntToString(n), LineBreaks)
    ensures Trimmed(IntToString(n)) && IntToString(n) != ""
  {
    IntToStringChars(n);
  }

  /** A line `head: n` carries its marker `head:` and no line break. */
  lemma TaggedLine(head: string, n: int)
    requires NoneIn(head, LineBreaks)
    ensures var line := head + [':'] + " " + IntToString(n);
      Contains(line, head + [':']) && NoneIn(line, LineBreaks)
  {
    var digits := IntToString(n);
    IntToStringPlain(n);
    var line := head + [':'] + " " + digits;
    assert NoneIn(": ", LineBreaks);
    NoneInConcat(": ", digits, LineBreaks);
    NoneInConcat(head, ": " + digits, LineBreaks);
    assert line == head + (": " + digits);
    assert line[..|head| + 1] == head + [':'];
    assert OccursAt(line, head + [':'], 0);
    OccursContains(line, head + [':'], 0);
  }

  /** A line `head: n` holds `n` after its last ':'. */
  lemma TaggedValue(head: string, n: int)
    requires ':' !in head
    ensures ParseInt(AfterLast(head + [':'] + " " + IntToString(n), ':')) == Some(n)
  {
    var digits := IntToString(n);
    IntToStringPlain(n);
    assert head + [':'] + " " + digits == head + [':'] + (" " + digits);
    AfterLastOf(head, ':', " " + digits);
    ParseIntSurrounded(" ", digits, "");
    assert " " + digits + "" == " " + digits;
    ParseIntToString(n);
  }

  /** The printed line carries the marker, has no line break, and holds
      `n` after its last ':'. */
  lemma PercentLineValue(n: int)
    ensures Contains(PercentLine(n), PercentMarker)
    ensures NoneIn(PercentLine(n), LineBreaks)
    ensures ParseInt(AfterLast(PercentLine(n), ':')) == Some(n)
  {
    var head := "Current keyboard backlight percent";
    assert PercentMarker == head + [':'];
    TaggedLine(head, n);
    TaggedValue(head, n);
  }

  /** The first line that carries `sub`. */
  lemma FirstWithAt(lines: seq<string>, sub: string, i: nat)
    requires i < |lines| && Contains(lines[i], sub)
    requires forall j :: 0 <= j < i ==> !Contains(lines[j], sub)
    ensures FirstWith(lines, sub) == Some(i)
  {
  }

  /** The first marker line decides the value, whatever lines come before
      it (as long as none carries the marker) and after it. */
  lemma FirstValueOf(pre: seq<string>, line: string, post: seq<string>, marker: string)
    requires forall j :: 0 <= j < |pre| ==> !Contains(pre[j], marker)
    requires Contains(line, marker)
    requires forall j :: 0 <= j < |pre| ==> NoneIn(pre[j], LineBreaks)
    requires NoneIn(line, LineBreaks)
    requires forall j :: 0 <= j < |post| ==> NoneIn(post[j], LineBreaks)
    ensures FirstValue(SplitLines(Unlines(pre + [line] + post)), marker) == ParseInt(AfterLast(line, ':')).GetOr(0)
  {
    var ls := pre + [line] + post;
    forall j | 0 <= j < |ls|
      ensures NoneIn(ls[j], LineBreaks)
    {
      if j < |pre| {
        assert ls[j] == pre[j];
      } else if j > |pre| {
        assert ls[j] == post[j - |pre| - 1];
      }
    }
    LinesUnlines(ls, LineBreaks);
    assert forall j :: 0 <= j < |pre| ==> ls[j] == pre[j];
    FirstWithAt(ls, marker, |pre|);
    assert ls[|pre|] == line;
  }

  /** The printed brightness is read back, whatever lines come before it
      (as long as none carries the marker) and after it. */
  lemma ReadPrinted(pre: seq<string>, n: int, post: seq<string>)
    requires forall j :: 0 <= j < |pre| ==> !Contains(pre[j], PercentMarker)
    requires forall j :: 0 <= j < |pre| ==> NoneIn(pre[j], LineBreaks)
    requires forall j :: 0 <= j < |post| ==> NoneIn(post[j], LineBreaks)
    ensures ReadBrightness(Some(Unlines(pre + [PercentLine(n)] + post))) == n
  {
    PercentLineValue(n);
    FirstValueOf(pre, PercentLine(n), post, PercentMarker);
  }

  /** Only the first marker line counts: when it does not hold an integer
      the brightness is 0, even if a later line (say `PercentLine(n)`)
      does. */
  lemma FirstLineDecides(first: string, later: string)
    requires Contains(first, PercentMarker) && NoneIn(first, LineBreaks)
    requires ParseInt(AfterLast(first, ':')).None?
    requires NoneIn(later, LineBreaks)
    ensures ReadBrightness(Some(Unlines([first, later]))) == 0
  {
    FirstValueOf([], first, [later], PercentMarker);
    assert [] + [first] + [later] == [first, later];
  }

  // ================================================================ the controls

  /** What the controls show and hold: the mode index, the mode button's
      text and the value label's text. */
  datatype Backlight = Backlight(mode: nat, buttonText: string, valueText: string)

  /** The tab widget starts in Manual with "Mode: Manual" on its button;
      the older box shows plain "Manual" until its first click. */
  const InitialWidget: Backlight := Backlight(0, "Mode: Manual", "0%")
  const InitialBox: Backlight := Backlight(0, "Manual", "0%")

  /** The command that starts the daemon. */
  const StartDaemon: seq<string> := ["pkexec", "python3", "/usr/bin/keyboard_backlight_daemon.py"]

  /** What a mode click does: the new state, the daemon start command when
      no daemon is running, and the text written to the daemon's mode
      file. */
  datatype ModeEffect = ModeEffect(state: Backlight, start: Option<seq<string>>, written: string)

  /** `on_mode_clicked` of the tab widget: the next mode, its name on the
      button, and its lower-cased name for the daemon. A missing `pgrep`
      reads as "not running" and a failed start is reported, so the mode
      is always written. */
  function ModeClick(b: Backlight, daemonRunning: bool): (r: ModeEffect)
    ensures r.state.mode == (b.mode + 1) % 4 && r.state.valueText == b.valueText
    ensures r.state.buttonText == "Mode: " + Modes[r.state.mode]
    ensures r.written == Lower(Modes[r.state.mode])
    ensures r.start.Some? <==> !daemonRunning
  {
    var m := (b.mode + 1) % 4;
    ModeEffect(Backlight(m, "Mode: " + Modes[m], b.valueText),
               if daemonRunning then None else Some(StartDaemon), Lower(Modes[m]))
  }

  /** A mode click in the older box: as in the widget, except that `pgrep`
      and the daemon start are guarded only against `SubprocessError`. A
      missing `pgrep`, or a missing `pkexec` when the daemon must be
      started, raises OSError out of the handler after the mode and the
      label changed and before the mode file is written. */
  datatype BoxModeEffect = BoxModeEffect(state: Backlight, start: Option<seq<string>>, written: Option<string>)

  /** `on_mode_clicked` of the older box; `pgrepFound` and `pkexecFound`
      say whether those programs can be executed. */
  function BoxModeClick(b: Backlight, daemonRunning: bool, pgrepFound: bool, pkexecFound: bool): (r: BoxModeEffect)
    ensures r.state == ModeClick(b, daemonRunning).state
    ensures r.start.Some? <==> pgrepFound && !daemonRunning
    ensures r.start.Some? ==> r.start == ModeClick(b, daemonRunning).start
    ensures r.written.Some? <==> pgrepFound && (daemonRunning || pkexecFound)
    ensures r.written.Some? ==> r.written.value == ModeClick(b, daemonRunning).written
  {
    var m := (b.mode + 1) % 4;
    var state := Backlight(m, "Mode: " + Modes[m], b.valueText);
    if !pgrepFound then BoxModeEffect(state, None, None)
    else if daemonRunning then BoxModeEffect(state, None, Some(Lower(Modes[m])))
    else BoxModeEffect(state, Some(StartDaemon), if pkexecFound then Some(Lower(Modes[m])) else None)
  }

  /** With both programs installed the two variants behave alike. */
  lemma BoxAgreesWithWidget(b: Backlight, daemonRunning: bool)
    ensures var r := BoxModeClick(b, daemonRunning, true, true);
      var e := ModeClick(b, daemonRunning);
      r.state == e.state && r.start == e.start && r.written == Some(e.written)
  {
  }

  /** The daemon's mode names. */
  lemma ModeNames()
    ensures Lower("Manual") == "manual" && Lower("Auto") == "auto"
    ensures Lower("Responsive") == "responsive" && Lower("Breathe") == "breathe"
  {
    assert Lower("Manual") == ['m', 'a', 'n', 'u', 'a', 'l'];
    assert Lower("Auto") == ['a', 'u', 't', 'o'];
    assert Lower("Responsive") == ['r', 'e', 's', 'p', 'o', 'n', 's', 'i', 'v', 'e'];
    assert Lower("Breathe") == ['b', 'r', 'e', 'a', 't', 'h', 'e'];
  }

  /** Four clicks come back to the starting mode, writing "auto",
      "responsive", "breathe" and "manual" on the way from Manual. */
  lemma ModeCycle(b: Backlight, running: bool)
    requires b.mode == 0
    ensures var e1 := ModeClick(b, running);
      var e2 := ModeClick(e1.state, running);
      var e3 := ModeClick(e2.state, running);
      var e4 := ModeClick(e3.state, running);
      [e1.written, e2.written, e3.written, e4.written] == ["auto", "responsive", "breathe", "manual"]
      && e4.state.mode == b.mode
  {
    ModeNames();
  }

  /** What a slider move does: the new state, the text written to the mode
      file and the brightness command run once the slider rests. */
  datatype SlideEffect = SlideEffect(state: Backlight, written: string, command: seq<string>)

  /** `on_brightness_changed` (both variants): the value label follows the
      slider, any mode other than Manual falls back to Manual, and "manual"
      is written whatever the mode was. */
  function BrightnessChanged(b: Backlight, value: int): (r: SlideEffect)
    requires b.mode < 4
    ensures r.state.mode == 0 && r.written == "manual"
    ensures r.state.valueText == IntToString(value) + "%"
    ensures b.mode == 0 ==> r.state.buttonText == b.buttonText
    ensures b.mode != 0 ==> r.state.buttonText == "Mode: Manual"
    ensures r.command == ["pkexec", "/usr/bin/ectool", "pwmsetkblight", IntToString(value)]
  {
    var button := if Modes[b.mode] != "Manual" then "Mode: Manual" else b.buttonText;
    SlideEffect(Backlight(0, button, IntToString(value) + "%"), "manual",
                ["pkexec", "/usr/bin/ectool", "pwmsetkblight", IntToString(value)])
  }

  /** Moving the slider after any number of mode clicks lands in Manual. */
  lemma SlideAfterModes(b: Backlight, running: bool, value: int)
    requires b.mode < 4
    ensures BrightnessChanged(ModeClick(b, running).state, value).state.mode == 0
  {
  }

  // ================================================================ the widget's data

  /** The widget's `data`. */
  datatype KbData = KbData(brightness: int, mode: string)

  /** `update`: the slider's value and the current mode's name. */
  function Update(b: Backlight, value: int): (d: KbData)
    requires b.mode < 4
    ensures d.mode in Modes && d.brightness == value
  {
    KbData(value, Modes[b.mode])
  }

  /** `update_visual`: the label's text. */
  function VisualText(data: Option<KbData>): (t: string)
    ensures data.None? ==> t == "Keyboard Backlight\nNo data yet."
    ensures data.Some? ==> StartsWith(t, "Keyboard Backlight\nBrightness: ")
  {
    match data
    case None => "Keyboard Backlight\nNo data yet."
    case Some(d) =>
      var t := "Keyboard Backlight\nBrightness: " + IntToString(d.brightness) + "%\nMode: " + d.mode;
      assert t[..|"Keyboard Backlight\nBrightness: "|] == "Keyboard Backlight\nBrightness: ";
      t
  }

  /** The label of the widget after a slider move shows the new value and
      Manual. */
  lemma SlideShown(b: Backlight, value: int)
    requires b.mode < 4
    ensures var s := BrightnessChanged(b, value).state;
      VisualText(Some(Update(s, value))) == "Keyboard Backlight\nBrightness: " + IntToString(value) + "%\nMode: Manual"
  {
  }
}

=== FILE: led_controls.dfy ===
/** The older LED control box: one LED's mode button cycling Auto, On,
    Off, its colour buttons, the state label, and the callbacks a click
    fires, in order. */
module LedControls {
  import opened Wrappers
  import opened Text

  /** The mode button's labels; `(i + 1) % 3` walks them in this order. */
  const ModeLabels: seq<string> := ["On", "Off", "Auto"]

  /** The colour values of the buttons, in grid order. */
  const ColorValues: seq<string> := ["red", "green", "blue", "yellow", "white", "amber"]

  /** The box's state: the mode index, the stored LED state, the text of
      the state label and the highlighted colour button, if any. */
  datatype Control = Control(modeIndex: nat, ledState: string, stateLabel: string, selected: Option<string>)

  /** A callback call: the colour callback with a colour, or the mode
      callback, which reads the mode button's label. */
  datatype Callback = ColorCallback(color: string) | ModeCallback(buttonLabel: string)

  /** The box as built: Auto, with the mode refresh run once (no colour
      button exists yet, so it fires nothing). */
  const Initial: Control := Control(2, "Auto", "Auto", None)

  /** `_update_mode_btn`: in On, a box whose state is "auto" or "off"
      switches to white and fires the colour callback for white; any other
      state keeps its colour. In Off or Auto the label shows the mode and no
      colour is highlighted. */
  function RefreshMode(c: Control): (r: (Control, seq<Callback>))
    requires c.modeIndex < 3
    ensures r.0.modeIndex == c.modeIndex
    ensures c.modeIndex != 0 ==> r == (c.(stateLabel := ModeLabels[c.modeIndex], selected := None), [])
    ensures c.modeIndex == 0 && Lower(c.ledState) in {"auto", "off"} ==>
      r == (c.(ledState := "white", stateLabel := "White", selected := Some("white")), [ColorCallback("white")])
    ensures c.modeIndex == 0 && Lower(c.ledState) !in {"auto", "off"} ==>
      r.0.ledState == c.ledState && r.0.selected == Some(c.ledState) && r.1 == []
  {
    var mode := ModeLabels[c.modeIndex];
    if mode == "On" then
      if Lower(c.ledState) in {"auto", "off"} then
        (c.(ledState := "white", stateLabel := "White", selected := Some("white")), [ColorCallback("white")])
      else
        (c.(stateLabel := Capitalize(c.ledState), selected := Some(c.ledState)), [])
    else
      (c.(stateLabel := mode, selected := None), [])
  }

  /** `_on_mode_btn_clicked`: advance the mode, refresh the button, store
      "white" for On or the label otherwise, then fire the mode callback. */
  function ModeClick(c: Control): (r: (Control, seq<Callback>))
    ensures r.0.modeIndex == (c.modeIndex + 1) % 3
    ensures r.0.ledState == if r.0.modeIndex == 0 then "white" else ModeLabels[r.0.modeIndex]
    ensures |r.1| > 0 && r.1[|r.1| - 1] == ModeCallback(ModeLabels[r.0.modeIndex])
  {
    var i := (c.modeIndex + 1) % 3;
    var refreshed := RefreshMode(c.(modeIndex := i));
    var state := ModeLabels[i];
    (refreshed.0.(ledState := if state == "On" then "white" else state), refreshed.1 + [ModeCallback(state)])
  }

  /** A colour button's click: switch to On (which may fire the white
      callback first), store and highlight the colour, then fire the colour
      callback with it. */
  function ColorClick(c: Control, color: string): (r: (Control, seq<Callback>))
    ensures r.0.modeIndex == 0 && r.0.ledState == color && r.0.selected == Some(color)
    ensures r.0.stateLabel == Capitalize(color)
    ensures r.1 == if Lower(c.ledState) in {"auto", "off"} then [ColorCallback("white"), ColorCallback(color)]
                   else [ColorCallback(color)]
  {
    var refreshed := RefreshMode(c.(modeIndex := 0));
    (refreshed.0.(ledState := color, stateLabel := Capitalize(color), selected := Some(color)),
     refreshed.1 + [ColorCallback(color)])
  }

  /** The lower-cased mode labels. */
  lemma LabelValues()
    ensures Lower("On") == "on" && Lower("Off") == "off" && Lower("Auto") == "auto"
  {
    assert Lower("On") == ['o', 'n'];
    assert Lower("Off") == ['o', 'f', 'f'];
    assert Lower("Auto") == ['a', 'u', 't', 'o'];
  }

  /** The states a box reaches: in Off or Auto the label shows the mode,
      the stored state is the mode's label and no colour is highlighted; in
      On a colour is stored, shown capitalised and highlighted. */
  predicate Good(c: Control) {
    && c.modeIndex < 3
    && (c.modeIndex != 0 ==> c.ledState == ModeLabels[c.modeIndex] && c.stateLabel == c.ledState && c.selected == None)
    && (c.modeIndex == 0 ==> c.ledState in ColorValues && c.stateLabel == Capitalize(c.ledState) && c.selected == Some(c.ledState))
  }

  lemma InitialGood()
    ensures Good(Initial)
  {
  }

  lemma ColorsNotModes()
    ensures forall i :: 0 <= i < |ColorValues| ==> Lower(ColorValues[i]) !in {"auto", "off"}
  {
    forall i | 0 <= i < |ColorValues|
      ensures Lower(ColorValues[i]) !in {"auto", "off"}
    {
      LowerNoUpper(ColorValues[i]);
    }
  }

  /** A mode click keeps the box in a reachable state. */
  lemma ModeClickGood(c: Control)
    requires Good(c)
    ensures Good(ModeClick(c).0)
  {
    LabelValues();
    assert Capitalize("white") == ['W'] + Lower("hite");
    LowerNoUpper("hite");
  }

  /** A click on one of the box's colour buttons keeps it in a reachable
      state. */
  lemma ColorClickGood(c: Control, color: string)
    requires Good(c) && color in ColorValues
    ensures Good(ColorClick(c, color).0)
  {
  }

  /** Mode clicks go Auto, On, Off and back to Auto. Entering On (always
      from Auto) fires the white colour callback before the mode callback. */
  lemma ModeCycleFromInitial()
    ensures var a := ModeClick(Initial);
      var b := ModeClick(a.0);
      var c := ModeClick(b.0);
      a.0.modeIndex == 0 && a.1 == [ColorCallback("white"), ModeCallback("On")]
      && b.0.modeIndex == 1 && b.1 == [ModeCallback("Off")]
      && c.0 == Initial && c.1 == [ModeCallback("Auto")]
  {
    ClickFromAuto();
    ClickFromOn(ModeClick(Initial).0);
    ClickFromOff(ModeClick(ModeClick(Initial).0).0);
  }

  lemma WhiteLabel()
    ensures Capitalize("white") == "White"
  {
    assert Capitalize("white") == ['W'] + Lower("hite");
    LowerNoUpper("hite");
  }

  /** From Auto a click turns the LED on in white. */
  lemma ClickFromAuto()
    ensures ModeClick(Initial) ==
      (Control(0, "white", "White", Some("white")), [ColorCallback("white"), ModeCallback("On")])
  {
    LabelValues();
    WhiteLabel();
    var r := RefreshMode(Initial.(modeIndex := 0));
    assert r.1 == [ColorCallback("white")];
    assert r.1 + [ModeCallback("On")] == [ColorCallback("white"), ModeCallback("On")];
  }

  /** From On a click turns the LED off. */
  lemma ClickFromOn(c: Control)
    requires c.modeIndex == 0
    ensures ModeClick(c) == (Control(1, "Off", "Off", None), [ModeCallback("Off")])
  {
    assert ModeLabels[1] == "Off";
    var r := RefreshMode(c.(modeIndex := 1));
    assert r == (Control(1, c.ledState, "Off", None), []);
    assert r.1 + [ModeCallback("Off")] == [ModeCallback("Off")];
  }

  /** From Off a click returns to Auto, the state the box starts in. */
  lemma ClickFromOff(c: Control)
    requires c.modeIndex == 1
    ensures ModeClick(c) == (Initial, [ModeCallback("Auto")])
  {
    assert ModeLabels[2] == "Auto";
    var r := RefreshMode(c.(modeIndex := 2));
    assert r == (Control(2, c.ledState, "Auto", None), []);
    assert r.1 + [ModeCallback("Auto")] == [ModeCallback("Auto")];
  }

  /** In Off or Auto the state label is the mode's label and no colour
      button is highlighted. */
  lemma OffModesShowLabel(c: Control)
    requires Good(c) && c.modeIndex != 0
    ensures ModeClick(c).0.modeIndex != 0 ==>
      ModeClick(c).0.stateLabel == ModeLabels[ModeClick(c).0.modeIndex] && ModeClick(c).0.selected == None
  {
  }

  // ================================================================ default handlers

  /** The `ectool` command of a value. */
  function LedCommand(led: string, value: string): seq<string> {
    ["pkexec", "/usr/bin/ectool", "led", led, value]
  }

  /** The commands the default handlers run for one callback: the mode
      handler sends the lower-cased button label; the colour handler sends
      the colour only when it is non-empty. */
  function DefaultCommands(led: string, cb: Callback): (r: seq<seq<string>>)
    ensures cb.ModeCallback? ==> r == [LedCommand(led, Lower(cb.buttonLabel))]
    ensures cb.ColorCallback? ==> (r == [] <==> cb.color == "")
  {
    match cb
    case ModeCallback(l) => [LedCommand(led, Lower(l))]
    case ColorCallback(color) => if color != "" then [LedCommand(led, color)] else []
  }

  /** The commands a trace of callbacks runs with the default handlers. */
  function TraceCommands(led: string, trace: seq<Callback>): (r: seq<seq<string>>)
    ensures |r| <= |trace|
  {
    if |trace| == 0 then [] else TraceCommands(led, trace[..|trace| - 1]) + DefaultCommands(led, trace[|trace| - 1])
  }

  /** Turning a box on from Auto with the default handlers sends white and
      then "on". */
  lemma TurnOnCommands(led: string)
    ensures TraceCommands(led, ModeClick(Initial).1) == [LedCommand(led, "white"), LedCommand(led, "on")]
  {
    ModeCycleFromInitial();
    LabelValues();
    var t := [ColorCallback("white"), ModeCallback("On")];
    assert t[..1] == [ColorCallback("white")];
    assert t[..1][..0] == [];
  }
}

=== FILE: led_widget.dfy ===
/** The LED widget: a mode button cycling On, Auto, Off and a grid of
    colour buttons for each of the left, power and right LEDs, the
    `ectool` value each click sends, and the tinted overlays the widget
    publishes for the laptop image. */
module LedWidget {
  import opened Wrappers
  import opened Text
  import opened Overlays

  /** The mode button's labels, in cycling order. */
  const ModeLabels: seq<string> := ["On", "Auto", "Off"]

  /** The LEDs, in the order the widget creates them. */
  const LedNames: seq<string> := ["left", "power", "right"]

  /** Button label and value of every colour, in grid order. */
  const AllColors: seq<(string, string)> := [
    ("Red", "red"), ("Amber", "amber"), ("Yellow", "yellow"),
    ("White", "white"), ("Green", "green"), ("Blue", "blue")
  ]

  /** The colours offered for one LED: the power LED cannot be blue. */
  function Palette(led: string): (r: seq<(string, string)>)
    ensures led == "power" ==> |r| == 5 && forall i :: 0 <= i < |r| ==> r[i].1 != "blue"
    ensures led != "power" ==> r == AllColors
    ensures forall i :: 0 <= i < |r| ==> r[i] in AllColors
  {
    if led == "power" then AllColors[..5] else AllColors
  }

  /** The state one LED keeps: the mode button's index and label, the
      stored colour (also "auto" or "off") and the highlighted colour
      button, if any. */
  datatype Led = Led(modeIndex: nat, mode: string, color: string, selected: Option<string>)

  /** Every LED starts in Auto with the colour white stored and no colour
      button highlighted. */
  const InitialLed: Led := Led(1, "Auto", "white", None)

  /** The command a click runs. */
  function LedCommand(led: string, value: string): (r: seq<string>)
    ensures |r| == 5 && r[3..] == [led, value]
    ensures r[0] == "pkexec" && r[1] == "/usr/bin/ectool"
  {
    ["pkexec", "/usr/bin/ectool", "led", led, value]
  }

  /** `_on_mode_btn_clicked`: the next mode, and the value sent to
      `ectool`. Entering On restores the stored colour, or white when the
      stored one is "auto" or "off"; entering Auto or Off stores and sends
      the lower-cased label. */
  function ModeClick(led: Led): (r: (Led, string))
    ensures r.0.modeIndex == (led.modeIndex + 1) % 3 && r.0.mode == ModeLabels[r.0.modeIndex]
    ensures r.1 == r.0.color
    ensures r.0.mode == "On" ==> r.0.color != "auto" && r.0.color != "off" && r.0.selected == Some(r.0.color)
    ensures r.0.mode == "On" && led.color != "auto" && led.color != "off" ==> r.0.color == led.color
    ensures r.0.mode != "On" ==> r.0.selected == None && r.0.color == Lower(r.0.mode)
  {
    var i := (led.modeIndex + 1) % 3;
    var mode := ModeLabels[i];
    if mode == "On" then
      var color := if led.color in {"auto", "off"} then "white" else led.color;
      (Led(i, mode, color, Some(color)), color)
    else
      (Led(i, mode, Lower(mode), None), Lower(mode))
  }

  /** `_on_color_btn_clicked`: a colour click switches the LED on and
      stores, highlights and sends that colour. */
  function ColorClick(led: Led, color: string): (r: (Led, string))
    ensures r.0.modeIndex == 0 && r.0.mode == ModeLabels[0]
    ensures r.0.color == color && r.0.selected == Some(color) && r.1 == color
  {
    (Led(0, "On", color, Some(color)), color)
  }

  /** The values Auto and Off send. */
  lemma ModeValues()
    ensures Lower("Auto") == "auto" && Lower("Off") == "off"
  {
    assert Lower("Auto") == ['a', 'u', 't', 'o'];
    assert Lower("Off") == ['o', 'f', 'f'];
  }

  /** Three mode clicks return to the starting mode. */
  lemma ModeCycle(led: Led)
    requires led.modeIndex < 3
    ensures ModeClick(ModeClick(ModeClick(led).0).0).0.modeIndex == led.modeIndex
  {
    var a := ModeClick(led).0;
    var b := ModeClick(a).0;
    assert a.modeIndex == (led.modeIndex + 1) % 3;
    assert b.modeIndex == (led.modeIndex + 2) % 3;
  }

  /** From the initial Auto the button shows Off, then On, then Auto
      again, and turning on after Off sends white. */
  lemma ModeSequence()
    ensures var a := ModeClick(InitialLed);
      var b := ModeClick(a.0);
      var c := ModeClick(b.0);
      a.0.mode == "Off" && a.1 == "off"
      && b == (Led(0, "On", "white", Some("white")), "white")
      && c.0.mode == "Auto" && c.1 == "auto"
  {
    ModeValues();
  }

  /** From Off the next click turns the LED on in white. */
  lemma OffThenOnIsWhite(led: Led)
    requires led.modeIndex == 2 && led.color == "off"
    ensures ModeClick(led) == (Led(0, "On", "white", Some("white")), "white")
  {
  }

  // ================================================================ overlays

  /** The overlay image of each LED. */
  function OverlayPath(led: string): (r: Option<string>)
    ensures r.Some? <==> led in LedNames
  {
    if led == "left" then Some("overlays/framework-left-led-{overlay_id}.png")
    else if led == "power" then Some("overlays/framework-power-led-{overlay_id}.png")
    else if led == "right" then Some("overlays/framework-right-led-{overlay_id}.png")
    else None
  }

  /** The tint of a stored colour; any colour not in the table tints
      opaque white. */
  function ColorRgba(color: string): (c: Rgba)
    ensures color == "auto" || color == "off" ==> c == Rgba(0, 0, 0, 0)
    ensures color !in {"red", "amber", "yellow", "white", "green", "blue", "auto", "off"} ==> c == Rgba(255, 255, 255, 255)
    ensures c.a == 0 <==> color == "auto" || color == "off"
  {
    match color
    case "red" => Rgba(255, 0, 0, 255)
    case "amber" => Rgba(255, 191, 0, 255)
    case "yellow" => Rgba(255, 255, 0, 255)
    case "white" => Rgba(255, 255, 255, 255)
    case "green" => Rgba(0, 255, 0, 255)
    case "blue" => Rgba(0, 0, 255, 255)
    case "auto" => Rgba(0, 0, 0, 0)
    case "off" => Rgba(0, 0, 0, 0)
    case _ => Rgba(255, 255, 255, 255)
  }

  /** The widget's LEDs by name. */
  type Leds = map<string, Led>

  /** `get_overlay`: nothing for an unknown LED or one whose lower-cased
      colour is "off"; otherwise its image tinted with its colour. */
  function GetOverlay(leds: Leds, name: string): (r: Option<Overlay>)
    ensures r.Some? <==> name in leds && OverlayPath(name).Some? && Lower(leds[name].color) != "off"
    ensures r.Some? ==> r.value == Overlay(name, OverlayPath(name).value, Some(ColorRgba(Lower(leds[name].color))))
  {
    if name !in leds then None
    else
      var color := Lower(leds[name].color);
      if color == "off" then None
      else
        match OverlayPath(name)
        case None => None
        case Some(path) => Some(Overlay(name, path, Some(ColorRgba(color))))
  }

  /** The present values, in order. */
  function Somes(os: seq<Option<Overlay>>): (r: seq<Overlay>)
    ensures |r| <= |os|
    ensures r == [] <==> forall i :: 0 <= i < |os| ==> os[i].None?
  {
    if |os| == 0 then []
    else
      var r := Somes(os[..|os| - 1]);
      assert forall i :: 0 <= i < |os| - 1 ==> os[..|os| - 1][i] == os[i];
      if os[|os| - 1].Some? then r + [os[|os| - 1].value] else r
  }

  /** Exactly the present values are kept. */
  lemma {:induction false} SomesMembers(os: seq<Option<Overlay>>)
    ensures forall x :: x in Somes(os) <==> Some(x) in os
  {
    if |os| > 0 {
      var init := os[..|os| - 1];
      SomesMembers(init);
      assert os == init + [os[|os| - 1]];
    }
  }

  /** Where an LED comes in creation order; any other name comes after. */
  function LedRank(name: string): (k: nat)
    ensures k < |LedNames| ==> LedNames[k] == name
    ensures name in LedNames ==> k < |LedNames|
  {
    if name == "left" then 0 else if name == "power" then 1 else if name == "right" then 2 else 3
  }

  /** When each present value sits at its own rank, the kept values come
      in strictly increasing rank, each below the number of slots. */
  lemma {:induction false} SomesRanked(os: seq<Option<Overlay>>)
    requires forall i :: 0 <= i < |os| && os[i].Some? ==> LedRank(os[i].value.name) == i
    ensures forall k :: 0 <= k < |Somes(os)| ==> LedRank(Somes(os)[k].name) < |os|
    ensures forall k, l :: 0 <= k < l < |Somes(os)| ==> LedRank(Somes(os)[k].name) < LedRank(Somes(os)[l].name)
  {
    if |os| > 0 {
      var init := os[..|os| - 1];
      assert forall i :: 0 <= i < |init| ==> init[i] == os[i];
      SomesRanked(init);
    }
  }

  /** Each LED's overlay, or its absence, at the LED's position. */
  function Slots(leds: Leds): (os: seq<Option<Overlay>>)
    ensures |os| == |LedNames|
    ensures forall i :: 0 <= i < |os| ==> os[i] == GetOverlay(leds, LedNames[i])
  {
    seq(|LedNames|, i requires 0 <= i < |LedNames| => GetOverlay(leds, LedNames[i]))
  }

  /** The kept overlays are exactly the present ones of the LEDs. */
  lemma SlotsMembers(leds: Leds)
    ensures forall o :: o in Somes(Slots(leds)) ==> o.name in LedNames && GetOverlay(leds, o.name) == Some(o)
    ensures forall n :: n in LedNames && GetOverlay(leds, n).Some? ==> GetOverlay(leds, n).value in Somes(Slots(leds))
  {
    var os := Slots(leds);
    assert forall o :: Some(o) in os ==> exists i :: 0 <= i < |LedNames| && os[i] == Some(o);
    forall n | n in LedNames
      ensures GetOverlay(leds, n) in os
    {
      var i :| 0 <= i < |LedNames| && LedNames[i] == n;
      assert os[i] == GetOverlay(leds, n);
    }
    SomesMembers(os);
  }

  /** The kept overlays come in creation order. */
  lemma SlotsRanked(leds: Leds)
    ensures forall i, j :: 0 <= i < j < |Somes(Slots(leds))| ==>
      LedRank(Somes(Slots(leds))[i].name) < LedRank(Somes(Slots(leds))[j].name)
  {
    var os := Slots(leds);
    forall i | 0 <= i < |os| && os[i].Some?
      ensures LedRank(os[i].value.name) == i
    {
      assert os[i].value.name == LedNames[i];
    }
    SomesRanked(os);
  }

  /** `get_overlays`: the overlays of the LEDs that have one, in the order
      left, power, right. */
  function GetOverlays(leds: Leds): (r: seq<Overlay>)
    ensures |r| <= |LedNames|
    ensures forall i, j :: 0 <= i < j < |r| ==> LedRank(r[i].name) < LedRank(r[j].name)
    ensures forall o :: o in r ==> o.name in LedNames && GetOverlay(leds, o.name) == Some(o)
    ensures forall n :: n in LedNames && GetOverlay(leds, n).Some? ==> GetOverlay(leds, n).value in r
    ensures r == [] <==> forall i :: 0 <= i < |LedNames| ==> GetOverlay(leds, LedNames[i]).None?
  {
    var os := Slots(leds);
    SlotsMembers(leds);
    SlotsRanked(leds);
    Somes(os)
  }

  /** The LEDs as the widget creates them. */
  const InitialLeds: Leds := map["left" := InitialLed, "power" := InitialLed, "right" := InitialLed]

  /** The present values of a sequence with no gaps are all of them. */
  lemma {:induction false} SomesAll(os: seq<Option<Overlay>>)
    requires forall i :: 0 <= i < |os| ==> os[i].Some?
    ensures Somes(os) == seq(|os|, i requires 0 <= i < |os| => os[i].value)
  {
    if |os| > 0 {
      var n := |os| - 1;
      var init := os[..n];
      SomesAll(init);
      assert Somes(os) == Somes(init) + [os[n].value];
    }
  }

  /** When every LED has an overlay, all of them are shown, in creation
      order. */
  lemma NoneOffAllShown(leds: Leds)
    requires forall i :: 0 <= i < |LedNames| ==> GetOverlay(leds, LedNames[i]).Some?
    ensures GetOverlays(leds) == seq(|LedNames|, i requires 0 <= i < |LedNames| => GetOverlay(leds, LedNames[i]).value)
  {
    var os := seq(|LedNames|, i requires 0 <= i < |LedNames| => GetOverlay(leds, LedNames[i]));
    SomesAll(os);
  }

  /** A freshly built widget shows all three LEDs tinted white, although
      they are in Auto mode: the stored colour starts as "white". */
  lemma InitialOverlaysWhite()
    ensures forall i :: 0 <= i < |LedNames| ==>
      GetOverlay(InitialLeds, LedNames[i]) == Some(Overlay(LedNames[i], OverlayPath(LedNames[i]).value, Some(Rgba(255, 255, 255, 255))))
    ensures |GetOverlays(InitialLeds)| == 3
  {
    forall i | 0 <= i < |LedNames|
      ensures GetOverlay(InitialLeds, LedNames[i]) ==
        Some(Overlay(LedNames[i], OverlayPath(LedNames[i]).value, Some(Rgba(255, 255, 255, 255))))
    {
      InitialOverlay(LedNames[i]);
    }
    NoneOffAllShown(InitialLeds);
  }

  /** Each LED as created shows its overlay tinted white. */
  lemma InitialOverlay(n: string)
    requires n in LedNames
    ensures GetOverlay(InitialLeds, n) == Some(Overlay(n, OverlayPath(n).value, Some(Rgba(255, 255, 255, 255))))
  {
    assert n in InitialLeds && InitialLeds[n].color == "white";
    PaletteColor("white");
  }

  /** A palette colour is stored lower-case and is not "off". */
  lemma PaletteColor(color: string)
    requires color in ["red", "amber", "yellow", "white", "green", "blue"]
    ensures Lower(color) == color && color != "off"
  {
    LowerNoUpper(color);
  }

  /** Switching an LED to Off removes its overlay; switching it to Auto
      leaves it with a transparent tint. */
  lemma ModeClickOverlay(leds: Leds, name: string)
    requires name in leds && OverlayPath(name).Some?
    ensures var led := ModeClick(leds[name]).0;
      var after := leds[name := led];
      (led.mode == "Off" ==> GetOverlay(after, name).None?)
      && (led.mode == "Auto" ==> GetOverlay(after, name) == Some(Overlay(name, OverlayPath(name).value, Some(Rgba(0, 0, 0, 0)))))
  {
    ModeValues();
    LowerNoUpper("off");
    LowerNoUpper("auto");
  }

  /** A colour click on a palette colour shows the LED in that colour. */
  lemma ColorClickOverlay(leds: Leds, name: string, color: string)
    requires name in leds && OverlayPath(name).Some? && color in ["red", "amber", "yellow", "white", "green", "blue"]
    ensures GetOverlay(leds[name := ColorClick(leds[name], color).0], name)
      == Some(Overlay(name, OverlayPath(name).value, Some(ColorRgba(color))))
  {
    PaletteColor(color);
    var after := leds[name := ColorClick(leds[name], color).0];
    assert name in after && after[name].color == color;
  }

  /** `update`: the overlays become the widget's data when there are any;
      otherwise the previous data stays. */
  function Update(data: Option<seq<Overlay>>, leds: Leds): (r: Option<seq<Overlay>>)
    ensures GetOverlays(leds) == [] ==> r == data
    ensures GetOverlays(leds) != [] ==> r == Some(GetOverlays(leds))
  {
    var overlays := GetOverlays(leds);
    if |overlays| > 0 then Some(overlays) else data
  }

  /** With every LED off the widget keeps showing its previous overlays. */
  lemma AllOffKeepsData(data: Option<seq<Overlay>>, leds: Leds)
    requires forall n :: n in LedNames ==> n in leds && leds[n].color == "off"
    ensures Update(data, leds) == data
  {
    LowerNoUpper("off");
  }
}

=== FILE: overlays.dfy ===
/** The overlay records widgets publish for the laptop image: a name, an
    image path template and an optional RGBA tint. */
module Overlays {
  import opened Wrappers

  datatype Rgba = Rgba(r: int, g: int, b: int, a: int)

  datatype Overlay = Overlay(name: string, path: string, color: Option<Rgba>)
}

=== FILE: power_profiles.dfy ===
/** Power profiles through `tuned-adm`: parsing the active profile and the
    profile listing, the toggle-button panel of the widget and the combo box
    of the older controller. */
module PowerProfiles {
  import opened Wrappers
  import opened Text

  /** Exit status and standard output of a finished command. */
  datatype CommandResult = CommandResult(code: int, stdout: string)

  const ActiveMarker: string := "Current active profile:"

  /** The profiles the application offers, with their display names. */
  const Allowed: map<string, string> := map[
    "powersave" := "Powersave",
    "balanced-battery" := "Balanced",
    "throughput-performance" := "Performance"
  ]

  /** The profiles that get a toggle button, in button order. */
  const ButtonProfiles: seq<string> := ["powersave", "balanced-battery", "throughput-performance"]

  // ================================================================ parsing

  /** The value of a line of `tuned-adm active` that mentions the marker:
      the text after the line's first ':' (which need not be the marker's),
      stripped; the widget then renames "balanced" to "balanced-battery". */
  function ActiveValue(line: string, remap: bool): (r: Option<string>)
    ensures r.Some? <==> Contains(line, ActiveMarker)
    ensures r.Some? ==> Trimmed(r.value) || r.value == "balanced-battery"
  {
    if Contains(line, ActiveMarker) then
      assert ActiveMarker == "Current active profile" + ":";
      ContainsSuffix(line, "Current active profile", ":");
      var v := Strip(SplitOnce(line, ":").value.1);
      Some(if remap && v == "balanced" then "balanced-battery" else v)
    else None
  }

  /** The position of the last present value. */
  function LastIndex(vs: seq<Option<string>>): (r: Option<nat>)
    ensures r.None? ==> forall j :: 0 <= j < |vs| ==> vs[j].None?
    ensures r.Some? ==> r.value < |vs| && vs[r.value].Some?
    ensures r.Some? ==> forall j :: r.value < j < |vs| ==> vs[j].None?
  {
    if |vs| == 0 then None
    else if vs[|vs| - 1].Some? then Some(|vs| - 1)
    else
      var r := LastIndex(vs[..|vs| - 1]);
      assert forall j :: 0 <= j < |vs| - 1 ==> vs[..|vs| - 1][j] == vs[j];
      r
  }

  /** The value of the last marker line among `lines`: each one overwrites
      the previous. */
  function LastActive(lines: seq<string>, remap: bool): (r: Option<string>)
    ensures r.None? <==> forall j :: 0 <= j < |lines| ==> ActiveValue(lines[j], remap).None?
    ensures r.Some? ==> exists i :: (0 <= i < |lines| && r == ActiveValue(lines[i], remap)
      && forall j :: i < j < |lines| ==> ActiveValue(lines[j], remap).None?)
  {
    var vs := seq(|lines|, i requires 0 <= i < |lines| => ActiveValue(lines[i], remap));
    assert forall j :: 0 <= j < |lines| ==> vs[j] == ActiveValue(lines[j], remap);
    match LastIndex(vs)
    case None => None
    case Some(i) =>
      assert vs[i] == ActiveValue(lines[i], remap);
      vs[i]
  }

  /** Some line carries the active-profile marker. */
  predicate AnyMarked(lines: seq<string>) {
    exists i :: 0 <= i < |lines| && Contains(lines[i], ActiveMarker)
  }

  /** The active profile: read only when `tuned-adm active` exits with 0,
      and then found exactly when some output line carries the marker. */
  function ParseActive(active: CommandResult, remap: bool): (r: Option<string>)
    ensures active.code != 0 ==> r.None?
    ensures active.code == 0 ==> (r.Some? <==> AnyMarked(SplitLines(active.stdout)))
  {
    if active.code == 0 then LastActive(SplitLines(active.stdout), remap) else None
  }

  /** A marker line is read back to the profile it names, whatever colon-free
      text precedes the marker; "balanced" becomes "balanced-battery" when
      remapping. */
  lemma ActiveLineValue(pre: string, v: string, remap: bool)
    requires ':' !in pre && Trimmed(v) && v != ""
    ensures ActiveValue(pre + ActiveMarker + " " + v, remap)
      == Some(if remap && v == "balanced" then "balanced-battery" else v)
  {
    var line := pre + ActiveMarker + " " + v;
    assert line == pre + ActiveMarker + (" " + v);
    MarkerInLine(pre, " " + v);
    MarkerSplit(pre, " " + v);
    SpaceBefore(v);
    assert Strip(SplitOnce(line, ":").value.1) == v;
  }

  /** The marker, wherever it stands, makes a marker line. */
  lemma MarkerInLine(pre: string, rest: string)
    ensures Contains(pre + ActiveMarker + rest, ActiveMarker)
  {
    var line := pre + ActiveMarker + rest;
    assert line[|pre|..|pre| + |ActiveMarker|] == ActiveMarker;
    OccursContains(line, ActiveMarker, |pre|);
  }

  /** The marker's colon is the first one after colon-free text. */
  lemma MarkerSplit(pre: string, rest: string)
    requires ':' !in pre
    ensures SplitOnce(pre + ActiveMarker + rest, ":") == Some((pre + "Current active profile", rest))
  {
    var a := pre + "Current active profile";
    assert pre + ActiveMarker + rest == a + [':'] + rest;
    assert ':' !in a by {
      assert forall k :: 0 <= k < |a| ==> a[k] != ':';
    }
    SplitOnceChar(a, ':', rest);
  }

  /** The one space after the marker is stripped away. */
  lemma SpaceBefore(v: string)
    requires Trimmed(v) && v != ""
    ensures Strip(" " + v) == v
  {
    assert AllSpace(" ") && AllSpace("");
    StripSurrounded(" ", v, "");
    assert " " + v + "" == " " + v;
  }

  /** The line `tuned-adm active` prints for profile `v`. */
  function ActiveLine(v: string): string {
    ActiveMarker + " " + v
  }

  /** The marker line of profile `v` is one line, read back to `v`. */
  lemma ActiveLineRead(v: string, remap: bool)
    requires Trimmed(v) && v != "" && NoneIn(v, LineBreaks)
    ensures NoneIn(ActiveLine(v), LineBreaks)
    ensures ActiveValue(ActiveLine(v), remap) == Some(if remap && v == "balanced" then "balanced-battery" else v)
  {
    ActiveLineUnbroken(v);
    ActiveLineEmptyPrefix(v);
    ActiveLineValue("", v, remap);
  }

  /** An unbroken value makes an unbroken active line. */
  lemma ActiveLineUnbroken(v: string)
    requires NoneIn(v, LineBreaks)
    ensures NoneIn(ActiveLine(v), LineBreaks)
  {
    MarkerUnbroken();
    NoneInConcat(ActiveMarker + " ", v, LineBreaks);
  }

  /** The active line is the marker line with nothing before the marker. */
  lemma ActiveLineEmptyPrefix(v: string)
    ensures ActiveLine(v) == "" + ActiveMarker + " " + v
  {
  }

  /** The marker and its space hold no line break. */
  lemma MarkerUnbroken()
    ensures NoneIn(ActiveMarker + " ", LineBreaks)
  {
    var t := "Current active profile: ";
    assert ActiveMarker + " " == t;
    assert forall k :: 0 <= k < |t| ==> ' ' <= t[k] <= 'z';
    PrintableUnbroken(t);
  }

  /** The last marker line decides, whatever lines come before it. */
  lemma LastActiveAt(pre: seq<string>, line: string, post: seq<string>, remap: bool)
    requires ActiveValue(line, remap).Some?
    requires forall j :: 0 <= j < |post| ==> !Contains(post[j], ActiveMarker)
    ensures LastActive(pre + [line] + post, remap) == ActiveValue(line, remap)
  {
    var ls := pre + [line] + post;
    assert ls[|pre|] == line;
    assert ls[|pre| + 1..] == post;
    forall j | |pre| < j < |ls|
      ensures ActiveValue(ls[j], remap).None?
    {
      assert ls[j] == ls[|pre| + 1..][j - |pre| - 1];
    }
    LastActiveIs(ls, |pre|, remap);
  }

  /** A marker line followed only by unmarked ones is the last one. */
  lemma LastActiveIs(lines: seq<string>, k: nat, remap: bool)
    requires k < |lines| && ActiveValue(lines[k], remap).Some?
    requires forall j :: k < j < |lines| ==> ActiveValue(lines[j], remap).None?
    ensures LastActive(lines, remap) == ActiveValue(lines[k], remap)
  {
    var r := LastActive(lines, remap);
    var i :| 0 <= i < |lines| && r == ActiveValue(lines[i], remap)
      && forall j :: i < j < |lines| ==> ActiveValue(lines[j], remap).None?;
    assert i == k;
  }

  /** Lines free of line breaks are split back out of their output. */
  lemma SplitPrinted(pre: seq<string>, line: string, post: seq<string>)
    requires NoneIn(line, LineBreaks)
    requires forall j :: 0 <= j < |pre| ==> NoneIn(pre[j], LineBreaks)
    requires forall j :: 0 <= j < |post| ==> NoneIn(post[j], LineBreaks)
    ensures SplitLines(Unlines(pre + [line] + post)) == pre + [line] + post
  {
    var ls := pre + [line] + post;
    forall j | 0 <= j < |ls|
      ensures NoneIn(ls[j], LineBreaks)
    {
      if j < |pre| {
        assert ls[j] == pre[j];
      } else if j > |pre| {
        assert ls[j] == post[j - |pre| - 1];
      }
    }
    LinesUnlines(ls, LineBreaks);
  }

  /** A successful `tuned-adm active` output is read back to the profile on
      its last marker line, whatever lines come before it and however many
      marker-free lines follow. */
  lemma ReadActive(pre: seq<string>, v: string, post: seq<string>, remap: bool)
    requires Trimmed(v) && v != "" && NoneIn(v, LineBreaks)
    requires forall j :: 0 <= j < |pre| ==> NoneIn(pre[j], LineBreaks)
    requires forall j :: 0 <= j < |post| ==> NoneIn(post[j], LineBreaks) && !Contains(post[j], ActiveMarker)
    ensures ParseActive(CommandResult(0, Unlines(pre + [ActiveLine(v)] + post)), remap)
      == Some(if remap && v == "balanced" then "balanced-battery" else v)
  {
    ActiveLineRead(v, remap);
    SplitPrinted(pre, ActiveLine(v), post);
    LastActiveAt(pre, ActiveLine(v), post, remap);
  }

  /** A listing line: it starts with "- " or, for the active profile, "* ". */
  predicate IsListLine(line: string)
    ensures IsListLine(line) <==> |line| >= 2 && line[1] == ' ' && (line[0] == '-' || line[0] == '*')
  {
    StartsWith(line, "- ") || StartsWith(line, "* ")
  }

  /** The message of the IndexError a blank listing line raises. */
  const IndexErrorText: string := "list index out of range"

  /** The profile name on a listing line: the text before the first " - "
      (stripped) if there is one, else the first word. A line with nothing
      after its marker has no first word: the program raises IndexError. */
  function ListName(line: string): (r: Result<string, string>)
    requires IsListLine(line)
    ensures r.Failure? ==> r.error == IndexErrorText
  {
    var prof := Strip(line[2..]);
    if Contains(prof, " - ") then Success(Strip(SplitOnce(prof, " - ").value.0))
    else
      var words := Split(prof);
      if |words| == 0 then Failure(IndexErrorText) else Success(words[0])
  }

  /** What the listing loop collects: the allowed profiles in listing order
      and the last allowed profile marked with "* ". */
  datatype Listing = Listing(profiles: seq<string>, starred: Option<string>)

  /** Every collected profile is allowed and the starred one is listed. */
  predicate GoodListing(l: Listing) {
    && (forall i :: 0 <= i < |l.profiles| ==> l.profiles[i] in Allowed)
    && (l.starred.Some? ==> l.starred.value in l.profiles)
  }

  /** One pass of the listing loop: an allowed name is appended, and
      becomes the starred one on a "* " line. An IndexError ends the loop. */
  function ListStep(acc: Result<Listing, string>, line: string): (r: Result<Listing, string>)
    ensures acc.Failure? ==> r == acc
    ensures acc.Success? && GoodListing(acc.value) && r.Success? ==> GoodListing(r.value)
    ensures acc.Success? && r.Success? ==> |r.value.profiles| <= |acc.value.profiles| + 1
  {
    match acc
    case Failure(e) => Failure(e)
    case Success(l) =>
      if !IsListLine(line) then acc
      else
        match ListName(line)
        case Failure(e) => Failure(e)
        case Success(name) =>
          if name in Allowed then
            Success(Listing(l.profiles + [name], if StartsWith(line, "* ") then Some(name) else l.starred))
          else acc
  }

  /** The listing loop over the lines of `tuned-adm list`. Its exit code is
      not looked at. */
  function ParseList(lines: seq<string>): (r: Result<Listing, string>)
    ensures r.Success? ==> GoodListing(r.value) && |r.value.profiles| <= |lines|
  {
    if |lines| == 0 then Success(Listing([], None))
    else ListStep(ParseList(lines[..|lines| - 1]), lines[|lines| - 1])
  }

  // ================================================================ listing round trip

  /** One entry of a `tuned-adm list` output: a name, whether it is the
      active one, and an optional description. */
  datatype ListedProfile = ListedProfile(name: string, active: bool, desc: Option<string>)

  predicate Word(t: string) {
    t != "" && NoSpace(t)
  }

  predicate WellFormed(p: ListedProfile) {
    Word(p.name) && (p.desc.Some? ==> p.desc.value != "" && Trimmed(p.desc.value))
  }

  /** How `tuned-adm list` prints an entry. */
  function RenderLine(p: ListedProfile): string {
    (if p.active then "* " else "- ") + p.name + (if p.desc.Some? then " - " + p.desc.value else "")
  }

  function RenderList(ps: seq<ListedProfile>): (r: seq<string>)
    ensures |r| == |ps| && forall i :: 0 <= i < |ps| ==> r[i] == RenderLine(ps[i])
  {
    seq(|ps|, i requires 0 <= i < |ps| => RenderLine(ps[i]))
  }

  /** The allowed names, in order. */
  function KeptNames(ps: seq<ListedProfile>): seq<string> {
    if |ps| == 0 then []
    else KeptNames(ps[..|ps| - 1]) + (if ps[|ps| - 1].name in Allowed then [ps[|ps| - 1].name] else [])
  }

  /** The last allowed name marked active. */
  function LastActiveName(ps: seq<ListedProfile>): Option<string> {
    if |ps| == 0 then None
    else if ps[|ps| - 1].active && ps[|ps| - 1].name in Allowed then Some(ps[|ps| - 1].name)
    else LastActiveName(ps[..|ps| - 1])
  }

  lemma NoSpaceNoSeparator(t: string)
    requires NoSpace(t)
    ensures !Contains(t, " - ")
  {
    forall i: nat | i <= |t|
      ensures !OccursAt(t, " - ", i)
    {
      if i + 3 <= |t| {
        assert t[i..i + 3][0] == t[i];
      }
    }
  }

  /** The name parser reads back the name of every printed entry. */
  lemma ListNameOfRendered(p: ListedProfile)
    requires WellFormed(p)
    ensures IsListLine(RenderLine(p))
    ensures ListName(RenderLine(p)) == Success(p.name)
  {
    if p.desc.Some? {
      RenderedWithDesc(p);
    } else {
      RenderedBare(p);
    }
  }

  lemma RenderedWithDesc(p: ListedProfile)
    requires WellFormed(p) && p.desc.Some?
    ensures IsListLine(RenderLine(p))
    ensures ListName(RenderLine(p)) == Success(p.name)
  {
    var marker := if p.active then "* " else "- ";
    var prof := p.name + " - " + p.desc.value;
    var line := RenderLine(p);
    assert line == marker + prof;
    assert line[..2] == marker;
    assert line[2..] == prof;
    NameBeforeSeparator(p.name, p.desc.value);
    ListNameWith(line, prof);
  }

  lemma RenderedBare(p: ListedProfile)
    requires WellFormed(p) && p.desc.None?
    ensures IsListLine(RenderLine(p))
    ensures ListName(RenderLine(p)) == Success(p.name)
  {
    var marker := if p.active then "* " else "- ";
    var line := RenderLine(p);
    assert line == marker + p.name;
    assert line[..2] == marker;
    assert line[2..] == p.name;
    BareName(p.name);
    ListNameWith(line, p.name);
  }

  lemma ListNameWith(line: string, prof: string)
    requires IsListLine(line) && line[2..] == prof && Strip(prof) == prof
    ensures Contains(prof, " - ") ==> ListName(line) == Success(Strip(SplitOnce(prof, " - ").value.0))
    ensures !Contains(prof, " - ") && Split(prof) != [] ==> ListName(line) == Success(Split(prof)[0])
  {
  }

  lemma BareName(name: string)
    requires Word(name)
    ensures Strip(name) == name && !Contains(name, " - ") && Split(name) == [name]
  {
    StripTrimmed(name);
    NoSpaceNoSeparator(name);
    SplitJoin([name]);
    assert Join([name], " ") == name;
  }

  lemma NameBeforeSeparator(name: string, desc: string)
    requires Word(name) && desc != "" && Trimmed(desc)
    ensures var prof := name + " - " + desc;
      Strip(prof) == prof && Contains(prof, " - ") && Strip(SplitOnce(prof, " - ").value.0) == name
  {
    var prof := name + " - " + desc;
    assert Trimmed(prof) by {
      assert prof[0] == name[0];
      assert prof[|prof| - 1] == desc[|desc| - 1];
    }
    StripTrimmed(prof);
    var n := |name|;
    assert OccursAt(prof, " - ", n) by {
      assert prof[n..n + 3] == " - ";
    }
    OccursContains(prof, " - ", n);
    forall j: nat | j < n
      ensures !OccursAt(prof, " - ", j)
    {
      if j + 3 <= |prof| {
        assert prof[j..j + 3][0] == prof[j] == name[j];
      }
    }
    var i := IndexOf(prof, " - ").value;
    assert i == n;
    assert prof[..n] == name;
    StripTrimmed(name);
  }

  /** One printed entry is read back by one step of the loop. */
  lemma ListStepRendered(acc: Listing, p: ListedProfile)
    requires WellFormed(p)
    ensures ListStep(Success(acc), RenderLine(p)) ==
      if p.name in Allowed then
        Success(Listing(acc.profiles + [p.name], if p.active then Some(p.name) else acc.starred))
      else Success(acc)
  {
    ListNameOfRendered(p);
    var line := RenderLine(p);
    assert line[..2] == (if p.active then "* " else "- ");
  }

  /** Parsing a printed listing of well-formed entries keeps exactly the
      allowed names in order, and the last allowed entry marked active. */
  lemma {:induction false} ParseRenderedList(ps: seq<ListedProfile>)
    requires forall i :: 0 <= i < |ps| ==> WellFormed(ps[i])
    ensures ParseList(RenderList(ps)) == Success(Listing(KeptNames(ps), LastActiveName(ps)))
    decreases |ps|
  {
    if |ps| > 0 {
      var n := |ps| - 1;
      var init := ps[..n];
      assert forall i :: 0 <= i < |init| ==> init[i] == ps[i];
      ParseRenderedList(init);
      var lines := RenderList(ps);
      assert lines[..n] == RenderList(init);
      var acc := Listing(KeptNames(init), LastActiveName(init));
      assert ParseList(lines) == ListStep(Success(acc), RenderLine(ps[n]));
      ListStepRendered(acc, ps[n]);
      var p := ps[n];
      if p.name in Allowed {
        assert KeptNames(ps) == acc.profiles + [p.name];
        assert LastActiveName(ps) == if p.active then Some(p.name) else acc.starred;
      } else {
        assert KeptNames(ps) == acc.profiles;
        assert LastActiveName(ps) == acc.starred;
      }
    }
  }

  // ================================================================ widget

  /** The widget's `data`: listed profiles and the current one. */
  datatype ProfilesData = ProfilesData(profiles: seq<string>, current: Option<string>)

  /** The tuned branch of `PowerProfilesWidget.update`. `None` stands for a
      `tuned-adm` run that raised OSError, which leaves both fields empty;
      a blank listing line raises IndexError, which escapes. */
  function WidgetUpdate(active: Option<CommandResult>, list: Option<CommandResult>): (r: Result<ProfilesData, string>)
    ensures active.None? || list.None? ==> r == Success(ProfilesData([], None))
    ensures r.Success? && r.value.current.Some? && active.Some? && list.Some? ==>
      r.value.current.value in r.value.profiles || r.value.current == ParseActive(active.value, true)
  {
    if active.None? || list.None? then Success(ProfilesData([], None))
    else
      match ParseList(SplitLines(list.value.stdout))
      case Failure(e) => Failure(e)
      case Success(l) =>
        Success(ProfilesData(l.profiles, if l.starred.Some? then l.starred else ParseActive(active.value, true)))
  }

  /** A listing with an active entry decides the current profile; the
      active command is consulted only when no listed entry is starred. */
  lemma CurrentFromListing(active: CommandResult, list: CommandResult, ps: seq<ListedProfile>)
    requires forall i :: 0 <= i < |ps| ==> WellFormed(ps[i])
    requires SplitLines(list.stdout) == RenderList(ps)
    ensures WidgetUpdate(Some(active), Some(list)) ==
      Success(ProfilesData(KeptNames(ps),
        if LastActiveName(ps).Some? then LastActiveName(ps) else ParseActive(active, true)))
  {
    ParseRenderedList(ps);
    WidgetUpdateOfListing(active, list, Listing(KeptNames(ps), LastActiveName(ps)));
  }

  /** The widget's data once the listing has parsed. */
  lemma WidgetUpdateOfListing(active: CommandResult, list: CommandResult, l: Listing)
    requires ParseList(SplitLines(list.stdout)) == Success(l)
    ensures WidgetUpdate(Some(active), Some(list)) ==
      Success(ProfilesData(l.profiles, if l.starred.Some? then l.starred else ParseActive(active, true)))
  {
  }

  /** The widget with no usable backend. */
  const NoBackendData: ProfilesData := ProfilesData([], None)

  /** A toggle button's state. */
  datatype Button = Button(sensitive: bool, active: bool)

  /** `update_visual`: without data or profiles every button is disabled
      and released; otherwise a button is enabled when its profile is
      listed and pressed when it is the current one. */
  function ButtonStates(data: Option<ProfilesData>): (r: seq<Button>)
    ensures |r| == |ButtonProfiles|
    ensures data.None? || data.value.profiles == [] ==>
      forall i :: 0 <= i < |r| ==> !r[i].sensitive && !r[i].active
    ensures data.Some? && data.value.profiles != [] ==> forall i :: 0 <= i < |r| ==>
      ((r[i].sensitive <==> ButtonProfiles[i] in data.value.profiles)
       && (r[i].active <==> data.value.current == Some(ButtonProfiles[i])))
  {
    seq(|ButtonProfiles|, i requires 0 <= i < |ButtonProfiles| =>
      if data.None? || data.value.profiles == [] then Button(false, false)
      else Button(ButtonProfiles[i] in data.value.profiles, data.value.current == Some(ButtonProfiles[i])))
  }

  /** At most one button is ever shown pressed. */
  lemma AtMostOnePressed(data: Option<ProfilesData>, i: int, j: int)
    requires 0 <= i < |ButtonProfiles| && 0 <= j < |ButtonProfiles|
    requires ButtonStates(data)[i].active && ButtonStates(data)[j].active
    ensures i == j
  {
  }

  /** The panel: the widget's data and whether each button is pressed. */
  datatype Panel = Panel(data: Option<ProfilesData>, pressed: seq<bool>)

  /** `on_profile_button_toggled` after GTK has set button `i` to
      `nowActive`: returns the new panel and the command to run. Without
      data, or for an unlisted profile, the toggle is left as it is;
      releasing a listed profile's button presses it again; pressing it
      makes it current and releases every other button. */
  function Toggle(p: Panel, i: nat, nowActive: bool): (r: (Panel, Option<seq<string>>))
    requires |p.pressed| == |ButtonProfiles| && i < |ButtonProfiles|
    ensures |r.0.pressed| == |ButtonProfiles|
    ensures r.1.Some? <==> p.data.Some? && ButtonProfiles[i] in p.data.value.profiles && nowActive
    ensures r.1.Some? ==> (r.1.value == ["tuned-adm", "profile", ButtonProfiles[i]]
      && r.0.data == Some(p.data.value.(current := Some(ButtonProfiles[i])))
      && forall j :: 0 <= j < |ButtonProfiles| ==> (r.0.pressed[j] <==> j == i))
    ensures r.1.None? ==> (r.0.data == p.data
      && forall j :: 0 <= j < |ButtonProfiles| && j != i ==> r.0.pressed[j] == p.pressed[j])
  {
    var profile := ButtonProfiles[i];
    if p.data.None? || p.data.value.profiles == [] || profile !in p.data.value.profiles then
      (p.(pressed := p.pressed[i := nowActive]), None)
    else if !nowActive then
      (p.(pressed := p.pressed[i := true]), None)
    else
      var data := p.data.value.(current := Some(profile));
      (Panel(Some(data), seq(|ButtonProfiles|, j requires 0 <= j < |ButtonProfiles| => j == i)),
       Some(["tuned-adm", "profile", profile]))
  }

  /** A finished `tuned-adm profile` run: exit status and both streams. */
  datatype ProfileRun = ProfileRun(code: int, stdout: string, stderr: string)

  /** The error text of a failed run: stripped standard error, or the
      stripped standard output when standard error is blank. */
  function ErrorOutput(run: ProfileRun): (e: string)
    ensures Trimmed(e)
    ensures Strip(run.stderr) != "" ==> e == Strip(run.stderr)
    ensures e == "" <==> Strip(run.stderr) == "" && Strip(run.stdout) == ""
  {
    if Strip(run.stderr) != "" then Strip(run.stderr) else Strip(run.stdout)
  }

  const NoSuchProfile: string := "Requested profile does not exist: "
  const SetFailed: string := "Failed to set tuned profile"

  /** The label text after running `tuned-adm profile` for `profile`, or
      `None` when the label is left alone. `None` for the run stands for
      one that raised OSError. A run that exits with 0 says nothing; a
      failed one names the profile when its error says "does not exist",
      and otherwise repeats the error. */
  function SetProfileLabel(profile: string, run: Option<ProfileRun>): (r: Option<string>)
    ensures r.None? <==> run.Some? && run.value.code == 0
    ensures run.None? ==> r == Some(SetFailed + ".")
    ensures run.Some? && r.Some? && Contains(ErrorOutput(run.value), "does not exist") ==>
      r.value == NoSuchProfile + profile
    ensures run.Some? && r.Some? && !Contains(ErrorOutput(run.value), "does not exist") ==>
      r.value == SetFailed + ": " + ErrorOutput(run.value)
  {
    match run
    case None => Some(SetFailed + ".")
    case Some(res) =>
      if res.code == 0 then None
      else
        var err := ErrorOutput(res);
        if Contains(err, "does not exist") then Some(NoSuchProfile + profile)
        else Some(SetFailed + ": " + err)
  }

  /** The failure label carries the error text back: what follows its
      prefix is exactly the stripped standard error, so two runs failing
      with different errors are told apart. */
  lemma SetLabelCarriesError(profile: string, a: ProfileRun, b: ProfileRun)
    requires a.code != 0 && b.code != 0
    requires Strip(a.stderr) != "" && Strip(b.stderr) != ""
    requires !Contains(Strip(a.stderr), "does not exist") && !Contains(Strip(b.stderr), "does not exist")
    ensures SetProfileLabel(profile, Some(a)) == SetProfileLabel(profile, Some(b)) <==> Strip(a.stderr) == Strip(b.stderr)
  {
    var la := SetProfileLabel(profile, Some(a)).value;
    var lb := SetProfileLabel(profile, Some(b)).value;
    var pre := SetFailed + ": ";
    if la == lb {
      assert la[|pre|..] == Strip(a.stderr);
      assert lb[|pre|..] == Strip(b.stderr);
    }
  }

  /** After a toggle of a listed profile, the pressed buttons are exactly
      those `update_visual` would show for the new data. */
  lemma ToggleAgreesWithDisplay(p: Panel, i: nat, nowActive: bool)
    requires |p.pressed| == |ButtonProfiles| && i < |ButtonProfiles|
    requires p.data.Some? && ButtonProfiles[i] in p.data.value.profiles
    requires nowActive || p.pressed[i] == ButtonStates(p.data)[i].active
    ensures var r := Toggle(p, i, nowActive).0;
      nowActive ==> forall j :: 0 <= j < |ButtonProfiles| ==> r.pressed[j] == ButtonStates(r.data)[j].active
    ensures !nowActive ==> Toggle(p, i, nowActive).0.pressed[i]
  {
  }

  // ================================================================ controller

  /** The combo box of `PowerProfilesController`: its entries and the
      selected row, if any. */
  datatype Combo = Combo(profiles: seq<string>, entries: seq<string>, selected: Option<nat>)

  /** `_update_profiles_ui`: the display map is the given one, or the
      identity when it is empty; the row of the current profile is selected
      when it is non-empty and listed. */
  function UpdateCombo(profiles: seq<string>, current: Option<string>, profileMap: map<string, string>): (c: Combo)
    requires profileMap != map[] ==> forall i :: 0 <= i < |profiles| ==> profiles[i] in profileMap
    ensures |c.entries| == |profiles|
    ensures forall i :: 0 <= i < |profiles| ==>
      c.entries[i] == if profileMap == map[] then profiles[i] else profileMap[profiles[i]]
    ensures c.selected.Some? <==> current.Some? && current.value != "" && current.value in profiles
    ensures c.selected.Some? ==> c.selected.value < |profiles| && profiles[c.selected.value] == current.value
  {
    var entries := seq(|profiles|, i requires 0 <= i < |profiles| =>
      if profileMap == map[] then profiles[i] else profileMap[profiles[i]]);
    var selected := if current.Some? && current.value != "" then FirstIndex(profiles, current.value) else None;
    Combo(profiles, entries, selected)
  }

  /** The display map the tuned query hands over: each listed profile's
      display name. */
  function DisplayMap(profiles: seq<string>): (m: map<string, string>)
    requires forall i :: 0 <= i < |profiles| ==> profiles[i] in Allowed
    ensures forall i :: 0 <= i < |profiles| ==> profiles[i] in m && m[profiles[i]] == Allowed[profiles[i]]
  {
    map p | p in profiles :: Allowed[p]
  }

  /** `_update_profiles_thread`, tuned branch: the combo after a query, or
      None when a run raised OSError (the combo is not touched). Unlike the
      widget it does not rename "balanced". */
  function ControllerUpdate(active: Option<CommandResult>, list: Option<CommandResult>): (r: Result<Option<Combo>, string>)
    ensures active.None? || list.None? ==> r == Success(None)
  {
    if active.None? || list.None? then Success(None)
    else
      match ParseList(SplitLines(list.value.stdout))
      case Failure(e) => Failure(e)
      case Success(l) =>
        var current := if l.starred.Some? then l.starred else ParseActive(active.value, false);
        Success(Some(UpdateCombo(l.profiles, current, DisplayMap(l.profiles))))
  }

  /** `on_profile_changed`: an index outside the list is ignored, any
      other one asks tuned to switch to that profile. */
  function ComboChanged(c: Combo, idx: int): (cmd: Option<seq<string>>)
    ensures cmd.Some? <==> 0 <= idx < |c.profiles|
    ensures cmd.Some? ==> cmd.value == ["tuned-adm", "profile", c.profiles[idx]]
  {
    if idx < 0 || idx >= |c.profiles| then None
    else Some(["tuned-adm", "profile", c.profiles[idx]])
  }

  /** Choosing the row the combo shows selected asks for the current
      profile again. */
  lemma SelectedRowIsCurrent(profiles: seq<string>, current: Option<string>, profileMap: map<string, string>)
    requires profileMap != map[] ==> forall i :: 0 <= i < |profiles| ==> profiles[i] in profileMap
    requires current.Some? && current.value != "" && current.value in profiles
    ensures var c := UpdateCombo(profiles, current, profileMap);
      ComboChanged(c, c.selected.value) == Some(["tuned-adm", "profile", current.value])
  {
  }

  /** The controller's combo shows the display names of the allowed
      profiles, in listing order. */
  lemma ControllerShowsDisplayNames(active: CommandResult, list: CommandResult)
    requires ParseList(SplitLines(list.stdout)).Success?
    ensures var l := ParseList(SplitLines(list.stdout)).value;
      var c := ControllerUpdate(Some(active), Some(list)).value.value;
      c.profiles == l.profiles
      && forall i :: 0 <= i < |l.profiles| ==> c.entries[i] == Allowed[l.profiles[i]]
  {
    var l := ParseList(SplitLines(list.stdout)).value;
    var m := DisplayMap(l.profiles);
    if |l.profiles| > 0 {
      assert l.profiles[0] in m;
    }
  }
}

=== FILE: power_status.dfy ===
/** Battery status, in both variants (the older status box and the tab
    widget): the percentage and status read verbatim from sysfs, the health
    computed as `charge_full * 100 // charge_full_design`, the displayed
    lines, and the charging overlay. */
module PowerStatus {
  import opened Wrappers
  import opened Text
  import opened PyInt
  import opened Overlays

  const SupplyDir := "/sys/class/power_supply/"

  /** `get_power_path`: the file name joined onto the battery's sysfs
      directory with `os.path.join`. */
  function PowerPath(filename: string, battery: string): (r: string)
    ensures IsAbsolute(filename) ==> r == filename
    ensures !IsAbsolute(filename) ==> StartsWith(r, SupplyDir + battery)
    ensures !IsAbsolute(filename) ==> |filename| <= |r| && r[|r| - |filename|..] == filename
    ensures !IsAbsolute(filename) && battery != "" && battery[|battery| - 1] != '/' ==>
      |r| == |SupplyDir| + |battery| + 1 + |filename| && r[|SupplyDir| + |battery|] == '/'
    ensures !IsAbsolute(filename) && (battery == "" || battery[|battery| - 1] == '/') ==>
      |r| == |SupplyDir| + |battery| + |filename|
  {
    var dir := SupplyDir + battery;
    assert battery != "" ==> dir[|dir| - 1] == battery[|battery| - 1];
    PathJoin(dir, filename)
  }

  /** A plain file name is the last component of its path, whatever the
      battery name. */
  lemma PowerPathFile(filename: string, battery: string)
    requires filename != "" && '/' !in filename
    ensures AfterLast(PowerPath(filename, battery), '/') == filename
  {
    JoinedBaseName(SupplyDir + battery, filename);
  }

  /** With an empty battery name no second "/" is inserted. */
  lemma EmptyBatteryPath()
    ensures PowerPath("capacity", "") == "/sys/class/power_supply/capacity"
  {
    assert (SupplyDir + "")[|SupplyDir| - 1] == '/';
  }

  /** `read_file`: the stripped content, or None when the file cannot be
      read. `None` as input stands for the read failure. */
  function ReadFile(content: Option<string>): (r: Option<string>)
    ensures r.Some? <==> content.Some?
    ensures r.Some? ==> r.value == Strip(content.value) && Trimmed(r.value)
  {
    if content.None? then None else Some(Strip(content.value))
  }

  /** The four sysfs files of a battery, as read (None: unreadable). */
  datatype BatteryFiles = BatteryFiles(capacity: Option<string>, status: Option<string>,
                                       chargeFull: Option<string>, chargeFullDesign: Option<string>)

  /** The battery health in percent: both charge files must be non-empty
      and hold integers, and the design capacity must not be zero
      (ValueError and ZeroDivisionError give None). */
  function Health(full: Option<string>, design: Option<string>): (r: Option<int>)
    ensures r.Some? ==> full.Some? && full.value != "" && design.Some? && design.value != ""
    ensures r.Some? ==> ParseInt(full.value).Some? && ParseInt(design.value).Some? && ParseInt(design.value).value != 0
    ensures r.Some? ==> r == FloorDiv(ParseInt(full.value).value * 100, ParseInt(design.value).value)
    ensures (full.Some? && full.value != "" && design.Some? && design.value != ""
      && ParseInt(full.value).Some? && ParseInt(design.value).Some? && ParseInt(design.value).value != 0) ==> r.Some?
  {
    if full.Some? && full.value != "" && design.Some? && design.value != "" then
      match (ParseInt(full.value), ParseInt(design.value))
      case (Some(f), Some(d)) => FloorDiv(f * 100, d)
      case _ => None
    else None
  }

  /** What `get_battery_stats` returns. */
  datatype Stats = Stats(percentage: Option<string>, status: Option<string>, health: Option<int>)

  /** `get_battery_stats` (both variants): the percentage and status are
      the stripped file contents, never parsed. */
  function GetBatteryStats(files: BatteryFiles): (s: Stats)
    ensures s.percentage == ReadFile(files.capacity) && s.status == ReadFile(files.status)
    ensures s.health == Health(ReadFile(files.chargeFull), ReadFile(files.chargeFullDesign))
  {
    Stats(ReadFile(files.capacity), ReadFile(files.status),
          Health(ReadFile(files.chargeFull), ReadFile(files.chargeFullDesign)))
  }

  /** Health as the kernel reports it: printed capacities give the floor of
      the percentage. */
  lemma HealthOfPrinted(full: nat, design: nat)
    requires design > 0
    ensures Health(Some(IntToString(full)), Some(IntToString(design))) == Some(full * 100 / design)
  {
    ParseIntToString(full);
    ParseIntToString(design);
    var h := Health(Some(IntToString(full)), Some(IntToString(design)));
    assert h == FloorDiv(full * 100, design);
  }

  /** The health stays within 0..100 while the battery holds no more than
      its design capacity. */
  lemma HealthBounded(full: nat, design: nat)
    requires 0 < design && full <= design
    ensures var h := Health(Some(IntToString(full)), Some(IntToString(design)));
      h.Some? && 0 <= h.value <= 100
  {
    HealthOfPrinted(full, design);
    PercentBounded(full, design);
  }

  lemma PercentBounded(full: nat, design: nat)
    requires 0 < design && full <= design
    ensures 0 <= full * 100 / design <= 100
  {
    var n := full * 100;
    var q := n / design;
    assert q * design <= n <= design * 100;
    assert (q - 100) * design <= 0;
  }

  /** A design capacity of zero gives no health instead of an error. */
  lemma ZeroDesign(full: string)
    requires full != "" && ParseInt(full).Some?
    ensures Health(Some(full), Some("0")) == None
  {
    assert ParseInt("0") == Some(0) by {
      ParseIntToString(0);
      assert IntToString(0) == "0";
    }
  }

  // ================================================================ the status box

  /** The box's three lines; a missing value reads "Unknown". */
  function BoxLines(s: Stats): (ls: seq<string>)
    ensures |ls| == 3
    ensures s.percentage.None? <==> ls[0] == "Battery Percentage: Unknown"
    ensures s.status.None? ==> ls[1] == "Charging Status: Unknown"
    ensures s.health.None? <==> ls[2] == "Battery Health: Unknown"
    ensures s.percentage.Some? ==> ls[0] == "Battery Percentage: " + s.percentage.value + "%"
    ensures s.status.Some? ==> ls[1] == "Charging Status: " + s.status.value
    ensures s.health.Some? ==> ls[2] == "Battery Health: " + IntToString(s.health.value) + "%"
  {
    var p := if s.percentage.Some? then "Battery Percentage: " + s.percentage.value + "%" else "Battery Percentage: Unknown";
    var st := if s.status.Some? then "Charging Status: " + s.status.value else "Charging Status: Unknown";
    var h := if s.health.Some? then "Battery Health: " + IntToString(s.health.value) + "%" else "Battery Health: Unknown";
    assert s.percentage.Some? ==> p[|p| - 1] == '%';
    assert s.health.Some? ==> h[|h| - 1] == '%';
    [p, st, h]
  }

  /** Three parts joined: each separator between two of them. */
  lemma JoinThree(ls: seq<string>, sep: string)
    requires |ls| == 3
    ensures Join(ls, sep) == ls[0] + sep + ls[1] + sep + ls[2]
  {
    var rest := ls[1..];
    assert rest[1..] == [ls[2]];
    assert Join(rest, sep) == ls[1] + sep + ls[2];
    assert ls[0] + sep + (ls[1] + sep + ls[2]) == ls[0] + sep + ls[1] + sep + ls[2];
  }

  /** `PowerStatusBox.update`: the label's text. */
  function BoxText(files: BatteryFiles): (r: string)
    ensures var ls := BoxLines(GetBatteryStats(files)); r == ls[0] + "\n" + ls[1] + "\n" + ls[2]
  {
    var ls := BoxLines(GetBatteryStats(files));
    JoinThree(ls, "\n");
    Join(BoxLines(GetBatteryStats(files)), "\n")
  }

  // ================================================================ the widget

  /** The charging overlay. */
  const ChargingOverlay: Overlay :=
    Overlay("charging_icon", "overlays/framework-charging-{overlay_id}.png", Some(Rgba(0, 255, 0, 255)))

  /** The widget's `data`. */
  datatype PowerData = PowerData(percentage: Option<string>, status: Option<string>, health: Option<int>,
                                 overlays: seq<Overlay>)

  /** `PowerStatusWidget.update`: the stats and, when the lower-cased
      status is "charging", the charging overlay. A missing status counts
      as "Unknown". */
  function Update(files: BatteryFiles): (d: PowerData)
    ensures var s := GetBatteryStats(files);
      d.percentage == s.percentage && d.status == s.status && d.health == s.health
    ensures d.overlays == [] || d.overlays == [ChargingOverlay]
    ensures d.overlays == [ChargingOverlay] <==> GetBatteryStats(files).status.Some? && Lower(GetBatteryStats(files).status.value) == "charging"
  {
    var s := GetBatteryStats(files);
    var status := if s.status.Some? then s.status.value else "Unknown";
    LowerUnknown();
    var overlays := if Lower(status) == "charging" then [ChargingOverlay] else [];
    PowerData(s.percentage, s.status, s.health, overlays)
  }

  lemma LowerUnknown()
    ensures Lower("Unknown") != "charging"
  {
    assert |Lower("Unknown")| == 7;
  }

  /** Any capitalisation of "charging" shows the overlay. */
  lemma ChargingAnyCase(files: BatteryFiles)
    requires ReadFile(files.status) == Some("Charging")
    ensures Update(files).overlays == [ChargingOverlay]
  {
    LowerCharging();
    assert GetBatteryStats(files).status == Some("Charging");
  }

  /** The status the kernel reports while charging lower-cases to the
      text the overlay test looks for. */
  lemma LowerCharging()
    ensures Lower("Charging") == "charging"
  {
    assert Lower("Charging") == ['c', 'h', 'a', 'r', 'g', 'i', 'n', 'g'];
  }

  /** `update_visual`: three lines, "Unknown" for a missing value; the
      percentage is followed by "%" even when it is unknown. */
  function VisualText(data: Option<PowerData>): (t: string)
    ensures data.None? ==> t == "Power Status\nNo data yet."
    ensures data.Some? ==> StartsWith(t, "Battery: ")
  {
    match data
    case None => "Power Status\nNo data yet."
    case Some(d) =>
      var percent := if d.percentage.Some? then d.percentage.value else "Unknown";
      var status := if d.status.Some? then d.status.value else "Unknown";
      var health := if d.health.Some? then IntToString(d.health.value) + "%" else "Unknown";
      ("Battery: " + percent + "%") + ("\nStatus: " + status + "\nHealth: " + health)
  }

  /** The widget puts "%" after the percentage even when it is unknown,
      where the box does not. */
  lemma UnknownPercent(d: PowerData)
    requires d.percentage.None?
    ensures StartsWith(VisualText(Some(d)), "Battery: Unknown%")
    ensures BoxLines(Stats(d.percentage, d.status, d.health))[0] == "Battery Percentage: Unknown"
  {
    var status := if d.status.Some? then d.status.value else "Unknown";
    var health := if d.health.Some? then IntToString(d.health.value) + "%" else "Unknown";
    var rest := "\nStatus: " + status + "\nHealth: " + health;
    assert VisualText(Some(d)) == ("Battery: " + "Unknown" + "%") + rest;
    assert "Battery: " + "Unknown" + "%" == "Battery: Unknown%";
    StartsWithPrefix("Battery: Unknown%", rest);
  }

  /** The box and the widget show the same health figure. */
  lemma SameHealth(files: BatteryFiles)
    ensures Update(files).health == GetBatteryStats(files).health
    ensures GetBatteryStats(files).health.Some? ==>
      BoxLines(GetBatteryStats(files))[2] == "Battery Health: " + IntToString(Update(files).health.value) + "%"
  {
  }
}

=== FILE: pyint.dfy ===
/** Python integer semantics the application depends on: `int(text)` and
    `int(text, 16)` parsing, `str(n)` formatting, floor division `//` and
    the truncation of `int(x / y)`. Only ASCII digits are modelled. */
module PyInt {
  import opened Wrappers
  import opened Text

  predicate IsRadixDigit(c: char, radix: nat) {
    if radix == 16 then IsDigit(c) || 'a' <= c <= 'f' || 'A' <= c <= 'F'
    else IsDigit(c)
  }

  function RadixValue(c: char): (v: nat)
    ensures v < 16
  {
    if IsDigit(c) then c as int - '0' as int
    else if 'a' <= c <= 'f' then c as int - 'a' as int + 10
    else if 'A' <= c <= 'F' then c as int - 'A' as int + 10
    else 0
  }

  /** Digits of `radix`, possibly separated by single underscores, beginning
      and ending with a digit: the digit part Python's `int()` accepts. */
  predicate GroupedDigits(s: string, radix: nat) {
    && |s| > 0
    && IsRadixDigit(s[0], radix)
    && IsRadixDigit(s[|s| - 1], radix)
    && forall k :: 0 <= k < |s| ==>
         IsRadixDigit(s[k], radix) || (s[k] == '_' && k + 1 < |s| && s[k + 1] != '_')
  }

  /** The value of a digit string, underscores ignored. */
  function GroupedValue(s: string, radix: nat): nat {
    if s == [] then 0
    else if s[|s| - 1] == '_' then GroupedValue(s[..|s| - 1], radix)
    else GroupedValue(s[..|s| - 1], radix) * radix + RadixValue(s[|s| - 1])
  }

  /** The ASCII information separators U+001C..U+001F: `str.isspace()`
      holds for them, but `int()` does not skip them. */
  predicate IsSeparator(c: char) {
    '\U{1C}' <= c <= '\U{1F}'
  }

  predicate SeparatorIn(s: string) {
    exists k :: 0 <= k < |s| && IsSeparator(s[k])
  }

  /** Python's `int(s, radix)` for radix 10 or 16: surrounding whitespace,
      an optional sign and grouped digits; None where Python raises
      ValueError. `int()` skips the `isspace()` characters except the
      information separators: a separator at the edge stops the skipping
      and is then no digit, and one inside is no digit either, so any
      separator makes the parse fail. (The `0x` prefix `int(s, 16)` also
      accepts needs three characters, more than the two-character chunks
      it is applied to.) */
  function ParseRadix(s: string, radix: nat): (r: Option<int>)
    ensures r.Some? ==> !AllSpace(s)
    ensures SeparatorIn(s) ==> r.None?
  {
    if SeparatorIn(s) then None else ParseStripped(Strip(s), radix)
  }

  /** `int()` on text already stripped of surrounding whitespace. */
  function ParseStripped(t: string, radix: nat): (r: Option<int>)
    ensures r.Some? ==> t != ""
  {
    if t == "" then None
    else
      var negative := t[0] == '-';
      var body := if t[0] == '-' || t[0] == '+' then t[1..] else t;
      if GroupedDigits(body, radix) then
        var v: int := GroupedValue(body, radix);
        Some(if negative then -v else v)
      else None
  }

  /** Python's `int(s)` on a string. */
  function ParseInt(s: string): Option<int> {
    ParseRadix(s, 10)
  }

  // ------------------------------------------------------------ formatting

  function DigitChar(d: nat): (c: char)
    requires d < 10
    ensures IsDigit(c) && RadixValue(c) == d
  {
    ('0' as int + d) as char
  }

  /** Python's `str(n)` for a natural number. */
  function NatToString(n: nat): (r: string)
    ensures |r| > 0 && AllDigits(r)
  {
    if n < 10 then [DigitChar(n)] else NatToString(n / 10) + [DigitChar(n % 10)]
  }

  /** Python's `str(n)` (and the `{n}` of an f-string) for an int. */
  function IntToString(n: int): (r: string)
    ensures |r| > 0
  {
    if n < 0 then "-" + NatToString(-n) else NatToString(n)
  }

  lemma AllDigitsGrouped(s: string)
    requires |s| > 0 && AllDigits(s)
    ensures GroupedDigits(s, 10)
  {
    forall k | 0 <= k < |s|
      ensures IsRadixDigit(s[k], 10)
    {
      assert IsDigit(s[k]);
    }
  }

  lemma {:induction false} NatToStringValue(n: nat)
    ensures GroupedValue(NatToString(n), 10) == n
  {
    var s := NatToString(n);
    if n >= 10 {
      var p := NatToString(n / 10);
      NatToStringValue(n / 10);
      assert s == p + [DigitChar(n % 10)];
      assert s[..|s| - 1] == p;
      assert s[|s| - 1] == DigitChar(n % 10);
      assert GroupedValue(s, 10) == GroupedValue(p, 10) * 10 + n % 10;
    } else {
      assert s[..0] == [];
    }
  }

  /** One digit is worth its digit value. */
  lemma GroupedDigit(c: char, radix: nat)
    ensures GroupedValue([c], radix) == if c == '_' then 0 else RadixValue(c)
  {
    assert [c][..0] == [];
  }

  /** Digits, optionally after a minus sign, parse as their value. */
  lemma ParseSignedDigits(s: string, negative: bool, d: string)
    requires s == (if negative then "-" else "") + d
    requires |d| > 0 && AllDigits(d)
    ensures ParseInt(s) == Some(if negative then -(GroupedValue(d, 10) as int) else GroupedValue(d, 10))
  {
    SignedDigitsPlain(s, negative, d);
    StripTrimmed(s);
    StrippedSignedDigits(s, negative, d);
    assert ParseInt(s) == ParseStripped(Strip(s), 10);
  }

  /** A sign and digits carry no whitespace and no separator. */
  lemma SignedDigitsPlain(s: string, negative: bool, d: string)
    requires s == (if negative then "-" else "") + d
    requires |d| > 0 && AllDigits(d)
    ensures Trimmed(s) && !SeparatorIn(s)
  {
    assert IsDigit(s[|s| - 1]) by { assert s[|s| - 1] == d[|d| - 1]; }
    assert s[0] == '-' || IsDigit(s[0]);
    forall k | 0 <= k < |s|
      ensures !IsSeparator(s[k])
    {
      assert s[k] == '-' || s[k] == d[k - (|s| - |d|)];
    }
  }

  /** The digit part after the sign is read as grouped digits. */
  lemma StrippedSignedDigits(s: string, negative: bool, d: string)
    requires s == (if negative then "-" else "") + d
    requires |d| > 0 && AllDigits(d)
    ensures ParseStripped(s, 10) == Some(if negative then -(GroupedValue(d, 10) as int) else GroupedValue(d, 10))
  {
    AllDigitsGrouped(d);
    assert s[0] == '-' <==> negative;
    assert (if s[0] == '-' || s[0] == '+' then s[1..] else s) == d;
  }

  /** Parsing what `str(n)` prints gives `n` back. */
  lemma ParseIntToString(n: int)
    ensures ParseInt(IntToString(n)) == Some(n)
  {
    var m: nat := if n < 0 then -n else n;
    NatToStringValue(m);
    if n < 0 {
      ParseSignedDigits(IntToString(n), true, NatToString(m));
    } else {
      assert IntToString(n) == "" + NatToString(m);
      ParseSignedDigits(IntToString(n), false, NatToString(m));
    }
  }

  /** `int()` strips its argument first: whitespace other than the
      information separators around the number does not change it. */
  lemma ParseIntSurrounded(pre: string, core: string, post: string)
    requires AllSpace(pre) && AllSpace(post) && Trimmed(core) && core != ""
    requires !SeparatorIn(pre) && !SeparatorIn(post)
    ensures ParseInt(pre + core + post) == ParseInt(core)
  {
    SeparatorInConcat(pre, core);
    SeparatorInConcat(pre + core, post);
    StripSurrounded(pre, core, post);
    StripTrimmed(core);
  }

  /** A concatenation holds a separator exactly when one of its parts does. */
  lemma SeparatorInConcat(a: string, b: string)
    ensures SeparatorIn(a + b) <==> SeparatorIn(a) || SeparatorIn(b)
  {
    if SeparatorIn(a) {
      var k :| 0 <= k < |a| && IsSeparator(a[k]);
      assert (a + b)[k] == a[k];
    }
    if SeparatorIn(b) {
      var k :| 0 <= k < |b| && IsSeparator(b[k]);
      assert (a + b)[|a| + k] == b[k];
    }
    if SeparatorIn(a + b) {
      var k :| 0 <= k < |a + b| && IsSeparator((a + b)[k]);
      if k < |a| {
        assert (a + b)[k] == a[k];
      } else {
        assert (a + b)[k] == b[k - |a|];
      }
    }
  }

  /** A separator before the number makes `int()` fail, although
      `isspace()` holds for it: `int("\x1c5")` raises ValueError. */
  lemma SeparatorNotSkipped(core: string)
    ensures ParseInt("\U{1C}" + core) == None
  {
    assert IsSeparator(("\U{1C}" + core)[0]);
  }

  /** `str(n)` is a sign and digits. */
  lemma IntToStringChars(n: int)
    ensures forall k :: 0 <= k < |IntToString(n)| ==> IntToString(n)[k] == '-' || IsDigit(IntToString(n)[k])
    ensures Trimmed(IntToString(n))
  {
  }

  /** A digit string keeps its value when zero-padded with `zfill`. */
  lemma {:induction false} ZFillValue(s: string, w: nat)
    requires AllDigits(s)
    ensures GroupedValue(ZFill(s, w), 10) == GroupedValue(s, 10)
  {
    if |s| < w {
      ZerosValue(seq(w - |s|, _ => '0'), s);
    }
  }

  lemma {:induction false} ZerosValue(z: string, s: string)
    requires forall k :: 0 <= k < |z| ==> z[k] == '0'
    requires AllDigits(s)
    ensures GroupedValue(z + s, 10) == GroupedValue(s, 10)
    decreases |s|
  {
    if |s| == 0 {
      assert z + s == z;
      ZerosOnly(z);
    } else {
      assert (z + s)[..|z + s| - 1] == z + s[..|s| - 1];
      ZerosValue(z, s[..|s| - 1]);
    }
  }

  lemma {:induction false} ZerosOnly(z: string)
    requires forall k :: 0 <= k < |z| ==> z[k] == '0'
    ensures GroupedValue(z, 10) == 0
    decreases |z|
  {
    if |z| > 0 {
      ZerosOnly(z[..|z| - 1]);
    }
  }

  // ------------------------------------------------------------ division

  /** Python's `a // b`: the floor of the quotient; None where Python
      raises ZeroDivisionError. Dafny's `/` rounds towards minus infinity
      only for a positive divisor, so a negative one is handled by negating
      both operands. */
  function FloorDiv(a: int, b: int): (r: Option<int>)
    ensures r.None? <==> b == 0
    ensures b > 0 && r.Some? ==> r.value * b <= a < r.value * b + b
    ensures b < 0 && r.Some? ==> r.value * b >= a > r.value * b + b
  {
    if b == 0 then None
    else if b > 0 then Some(a / b)
    else
      var q := (-a) / (-b);
      assert q * (-b) <= -a < q * (-b) + (-b);
      Some(q)
  }

  /** Python's `int(n / d)` for a positive `d`: the true quotient truncated
      towards zero. Exact as long as the float quotient is, which holds for
      the byte-sized operands it is applied to. */
  function TruncDiv(n: int, d: int): (r: int)
    requires d > 0
    ensures n >= 0 ==> r * d <= n < r * d + d
    ensures n < 0 ==> r * d >= n > r * d - d
  {
    if n >= 0 then n / d
    else
      var q := (-n) / d;
      assert q * d <= -n < q * d + d;
      -q
  }
}

=== FILE: sleep_mode.dfy ===
/** The sleep-mode widget: reading the kernel's current suspend mode from
    the text of `/sys/power/mem_sleep`, where the active mode is shown in
    brackets ("s2idle [deep]"), and setting a new one. */
module SleepMode {
  import opened Wrappers
  import opened Text

  /** The modes the widget offers, in combo order. */
  const SleepModes: seq<string> := ["s2idle", "deep"]

  /** A mode as the kernel marks the active one. */
  function Bracketed(mode: string): string {
    "[" + mode + "]"
  }

  /** The first listed mode that appears bracketed in `text`. */
  function FirstBracketed(text: string, modes: seq<string>): (r: Option<string>)
    ensures r.Some? ==> r.value in modes && Contains(text, Bracketed(r.value))
    ensures r.None? <==> forall i :: 0 <= i < |modes| ==> !Contains(text, Bracketed(modes[i]))
    ensures r.Some? ==> exists i :: (0 <= i < |modes| && modes[i] == r.value
      && forall j :: 0 <= j < i ==> !Contains(text, Bracketed(modes[j])))
  {
    if |modes| == 0 then None
    else if Contains(text, Bracketed(modes[0])) then Some(modes[0])
    else
      var r := FirstBracketed(text, modes[1..]);
      assert forall i :: 1 <= i < |modes| ==> modes[i] == modes[1..][i - 1];
      if r.Some? then
        ghost var k :| 0 <= k < |modes[1..]| && modes[1..][k] == r.value
          && forall j :: 0 <= j < k ==> !Contains(text, Bracketed(modes[1..][j]));
        assert modes[k + 1] == r.value;
        r
      else r
  }

  /** `get_current_sleep_mode`: the file's stripped text is searched for
      each offered mode in brackets; `None` for a file that cannot be read
      or that marks no offered mode. */
  function CurrentMode(file: Option<string>): (r: Option<string>)
    ensures r.Some? ==> file.Some? && r.value in SleepModes && Contains(Strip(file.value), Bracketed(r.value))
    ensures file.Some? && Contains(Strip(file.value), Bracketed("s2idle")) ==> r == Some("s2idle")
    ensures (file.Some? && !Contains(Strip(file.value), Bracketed("s2idle"))
      && Contains(Strip(file.value), Bracketed("deep"))) ==> r == Some("deep")
  {
    if file.None? then None
    else
      var r := FirstBracketed(Strip(file.value), SleepModes);
      assert SleepModes[0] == "s2idle" && SleepModes[1] == "deep";
      r
  }

  /** The bracketed mode of a file that marks exactly one offered mode is
      the current one. */
  lemma MarkedMode(file: string, m: string)
    requires m in SleepModes && Contains(Strip(file), Bracketed(m))
    requires forall n :: n in SleepModes && n != m ==> !Contains(Strip(file), Bracketed(n))
    ensures CurrentMode(Some(file)) == Some(m)
  {
  }

  /** The kernel's format: the active mode in brackets among the others. */
  lemma KernelFormat()
    ensures CurrentMode(Some("s2idle [deep]\n")) == Some("deep")
  {
    KernelText();
    KernelBrackets();
  }

  lemma KernelText()
    ensures Strip("s2idle [deep]\n") == "s2idle [deep]"
  {
    var text := "s2idle [deep]";
    StripSurrounded("", text, "\n");
    assert "" + text + "\n" == "s2idle [deep]\n";
  }

  lemma KernelBrackets()
    ensures Contains("s2idle [deep]", Bracketed("deep"))
    ensures !Contains("s2idle [deep]", Bracketed("s2idle"))
  {
    var text := "s2idle [deep]";
    assert OccursAt(text, Bracketed("deep"), 7);
    OccursContains(text, Bracketed("deep"), 7);
    forall i: nat | i <= |text|
      ensures !OccursAt(text, Bracketed("s2idle"), i)
    {
      if i + 8 <= |text| {
        assert text[i..i + 8][0] == text[i] != '[';
      }
    }
  }

  /** The command that writes a mode. */
  function SetCommand(mode: string): (r: seq<string>)
    ensures |r| == 4 && r[..3] == ["pkexec", "sh", "-c"]
    ensures |r[3]| > 5 + |mode| && r[3][..5] == "echo " && r[3][5..5 + |mode|] == mode
  {
    ["pkexec", "sh", "-c", "echo " + mode + " > /sys/power/mem_sleep"]
  }

  /** `set_sleep_mode`: a mode that is not offered raises ValueError (a
      `Failure` here); otherwise the result of the command: `None` stands
      for a run that raised, and a non-zero exit status raises as well
      because the command is run with `check=True`. */
  function SetSleepMode(mode: string, exit: Option<int>): (r: Result<bool, string>)
    ensures r.Failure? <==> mode !in SleepModes
    ensures r.Failure? ==> r.error == "Invalid sleep mode: " + mode
    ensures r.Success? ==> (r.value <==> exit == Some(0))
  {
    if mode !in SleepModes then Failure("Invalid sleep mode: " + mode)
    else Success(exit == Some(0))
  }

  /** `on_set_mode_clicked`: the label's new text and the command run, if
      any. A selection that is not offered (or none at all) runs
      nothing. */
  function SetClicked(selected: Option<string>, exit: Option<int>): (r: (string, Option<seq<string>>))
    ensures r.1.Some? <==> selected.Some? && selected.value in SleepModes
    ensures r.1.Some? ==> r.1.value == SetCommand(selected.value)
    ensures r.1.None? ==> r.0 == "Invalid mode."
    ensures r.1.Some? && exit == Some(0) ==> r.0 == "Current sleep mode: " + selected.value
    ensures r.1.Some? && exit != Some(0) ==> r.0 == "Failed to change sleep mode. Try running as root."
  {
    if selected.Some? && selected.value in SleepModes then
      var ok := SetSleepMode(selected.value, exit);
      assert ok.Success?;
      if ok.value then ("Current sleep mode: " + selected.value, Some(SetCommand(selected.value)))
      else ("Failed to change sleep mode. Try running as root.", Some(SetCommand(selected.value)))
    else ("Invalid mode.", None)
  }

  /** The widget's `data`. */
  datatype SleepData = SleepData(currentMode: Option<string>, availableModes: seq<string>)

  /** `update`. */
  function Update(file: Option<string>): (d: SleepData)
    ensures d.availableModes == SleepModes
    ensures d.currentMode.Some? ==> d.currentMode.value in d.availableModes
  {
    SleepData(CurrentMode(file), SleepModes)
  }

  /** `update_visual`: the label's text and the combo row to select, if
      any. Without a current mode the label says "Unknown" and the combo
      is left alone. */
  function UpdateVisual(file: Option<string>): (r: (string, Option<nat>))
    ensures CurrentMode(file).None? ==> r == ("Current sleep mode: Unknown", None)
    ensures CurrentMode(file).Some? ==> r.0 == "Current sleep mode: " + CurrentMode(file).value
    ensures r.1.Some? ==> r.1.value < |SleepModes| && Some(SleepModes[r.1.value]) == CurrentMode(file)
  {
    var current := CurrentMode(file);
    if current.Some? && current.value != "" then
      var idx := FirstIndex(SleepModes, current.value).GetOr(0);
      ("Current sleep mode: " + current.value, Some(idx))
    else ("Current sleep mode: Unknown", None)
  }

  /** Choosing the row the widget selected writes the current mode
      again. */
  lemma SelectedRowWritesCurrent(file: Option<string>)
    requires UpdateVisual(file).1.Some?
    ensures SetClicked(Some(SleepModes[UpdateVisual(file).1.value]), Some(0)) ==
      ("Current sleep mode: " + CurrentMode(file).value, Some(SetCommand(CurrentMode(file).value)))
  {
  }
}

=== FILE: system_stats.dfy ===
/** The system-stats widget: which operating-system overlay it shows, read
    from the platform name and `/etc/os-release`, and the graphics name it
    cuts out of `lspci` output (the text of the first `[...]`). The memory
    and storage figures are floating-point formatting and enter as
    strings. */
module SystemStats {
  import opened Wrappers
  import opened Text
  import opened Overlays

  // ================================================================ the distribution

  /** An os-release line that names the distribution. */
  predicate NamesDistro(line: string)
    ensures NamesDistro(line) ==> |line| >= 3 && '=' in line && line[0] in "IN"
  {
    assert StartsWith(line, "ID=") ==> line[2] == line[..3][2] == '=';
    assert StartsWith(line, "NAME=") ==> line[4] == line[..5][4] == '=';
    StartsWith(line, "ID=") || StartsWith(line, "NAME=")
  }

  /** The first line that names the distribution. */
  function FirstNaming(lines: seq<string>): (r: Option<nat>)
    ensures r.None? <==> forall j :: 0 <= j < |lines| ==> !NamesDistro(lines[j])
    ensures r.Some? ==> r.value < |lines| && NamesDistro(lines[r.value])
    ensures r.Some? ==> forall j :: 0 <= j < r.value ==> !NamesDistro(lines[j])
  {
    if |lines| == 0 then None
    else if NamesDistro(lines[0]) then Some(0)
    else
      match FirstNaming(lines[1..])
      case None => None
      case Some(k) => Some(k + 1)
  }

  /** The value of a naming line: the stripped line after its first '=',
      without double quotes, lower-cased. A line without '=' after
      stripping would raise IndexError, which the caller turns into
      "linux" (None here). */
  function NamingValue(line: string): (r: Option<string>)
    ensures r.Some? ==> NoUpper(r.value) && '"' !in r.value
  {
    match SplitOnce(Strip(line), "=")
    case None => None
    case Some(parts) =>
      var v := RemoveChar(parts.1, '"');
      assert forall k :: 0 <= k < |v| ==> Lower(v)[k] != '"';
      Some(Lower(v))
  }

  /** `get_linux_distro`: the value of the first line of `/etc/os-release`
      that starts with "ID=" or "NAME=", whichever comes first; "linux"
      when the file cannot be read (`None`) or has no such line. Python
      iterates the file with its line terminators, which the line's
      `strip()` removes; the lines here come without them. */
  function LinuxDistro(osRelease: Option<string>): (r: string)
    ensures NoUpper(r) && '"' !in r
    ensures osRelease.None? ==> r == "linux"
    ensures osRelease.Some? && FirstNaming(FileLines(osRelease.value)).None? ==> r == "linux"
  {
    LinuxNoUpper();
    if osRelease.None? then "linux"
    else
      var lines := FileLines(osRelease.value);
      match FirstNaming(lines)
      case None => "linux"
      case Some(i) => NamingValue(lines[i]).GetOr("linux")
  }

  lemma LinuxNoUpper()
    ensures NoUpper("linux") && '"' !in "linux"
  {
  }

  /** A file whose first naming line is `key=v` names the distribution
      `v`, unquoted and lower-cased; the lines before it are skipped and
      the lines after it are never read. */
  lemma DistroOfRelease(pre: seq<string>, key: string, v: string, post: seq<string>)
    requires key == "ID" || key == "NAME"
    requires Trimmed(v) && NoneIn(v, FileBreaks)
    requires forall j :: 0 <= j < |pre| ==> !NamesDistro(pre[j]) && NoneIn(pre[j], FileBreaks)
    requires forall j :: 0 <= j < |post| ==> NoneIn(post[j], FileBreaks)
    ensures LinuxDistro(Some(Unlines(pre + [key + "=" + v] + post))) == Lower(RemoveChar(v, '"'))
  {
    var line := key + "=" + v;
    NoneInConcat(key + "=", v, FileBreaks);
    ReleaseLines(pre, line, post);
    DistroAt(Unlines(pre + [line] + post), pre, key, v, post);
  }

  /** Lines that name nothing, then the naming line `key=v`: `v` names the
      distribution. */
  lemma DistroAt(text: string, pre: seq<string>, key: string, v: string, post: seq<string>)
    requires key == "ID" || key == "NAME"
    requires Trimmed(v)
    requires FileLines(text) == pre + [key + "=" + v] + post
    requires forall j :: 0 <= j < |pre| ==> !NamesDistro(pre[j])
    ensures LinuxDistro(Some(text)) == Lower(RemoveChar(v, '"'))
  {
    var line := key + "=" + v;
    NamingLine(key, v);
    FirstNamingAt(pre, line, post);
    assert (pre + [line] + post)[|pre|] == line;
    DistroOfLines(text, |pre|);
  }

  /** The distribution is the value of the first naming line. */
  lemma DistroOfLines(text: string, i: nat)
    requires FirstNaming(FileLines(text)) == Some(i)
    ensures LinuxDistro(Some(text)) == NamingValue(FileLines(text)[i]).GetOr("linux")
  {
  }

  /** The lines of a file are read back as written. */
  lemma ReleaseLines(pre: seq<string>, line: string, post: seq<string>)
    requires NoneIn(line, FileBreaks)
    requires forall j :: 0 <= j < |pre| ==> NoneIn(pre[j], FileBreaks)
    requires forall j :: 0 <= j < |post| ==> NoneIn(post[j], FileBreaks)
    ensures FileLines(Unlines(pre + [line] + post)) == pre + [line] + post
  {
    var ls := pre + [line] + post;
    forall j | 0 <= j < |ls|
      ensures NoneIn(ls[j], FileBreaks)
    {
      if j < |pre| {
        assert ls[j] == pre[j];
      } else if j > |pre| {
        assert ls[j] == post[j - |pre| - 1];
      }
    }
    LinesUnlines(ls, FileBreaks);
  }

  /** The first naming line after lines that name nothing is found. */
  lemma FirstNamingAt(pre: seq<string>, line: string, post: seq<string>)
    requires NamesDistro(line)
    requires forall j :: 0 <= j < |pre| ==> !NamesDistro(pre[j])
    ensures FirstNaming(pre + [line] + post) == Some(|pre|)
  {
    var ls := pre + [line] + post;
    assert ls[|pre|] == line;
    assert forall j :: 0 <= j < |pre| ==> ls[j] == pre[j];
  }

  /** A naming line `key=v` with a trimmed `v` gives `v`'s value. */
  lemma NamingLine(key: string, v: string)
    requires key == "ID" || key == "NAME"
    requires Trimmed(v)
    ensures NamesDistro(key + "=" + v)
    ensures NamingValue(key + "=" + v) == Some(Lower(RemoveChar(v, '"')))
  {
    NamingKeyLine(key, v);
    assert '=' !in key;
    NamingSplit(key, v);
    NamingValueOf(key + "=" + v, key, v);
  }

  /** A trimmed `key=v` splits at the '=' after the key. */
  lemma NamingSplit(key: string, v: string)
    requires '=' !in key && Trimmed(key + "=" + v)
    ensures SplitOnce(Strip(key + "=" + v), "=") == Some((key, v))
  {
    StripTrimmed(key + "=" + v);
    SplitOnceChar(key, '=', v);
    assert key + ['='] + v == key + "=" + v;
  }

  /** The value is what follows the first '='. */
  lemma NamingValueOf(line: string, key: string, v: string)
    requires SplitOnce(Strip(line), "=") == Some((key, v))
    ensures NamingValue(line) == Some(Lower(RemoveChar(v, '"')))
  {
  }

  /** `key=v` starts with its key and is as trimmed as `v`. */
  lemma NamingKeyLine(key: string, v: string)
    requires key == "ID" || key == "NAME"
    requires Trimmed(v)
    ensures NamesDistro(key + "=" + v)
    ensures Trimmed(key + "=" + v)
  {
    StartsWithPrefix(key + "=", v);
    var line := key + "=" + v;
    assert line[0] == key[0];
    assert line[|line| - 1] == if v == "" then '=' else v[|v| - 1];
  }

  // ================================================================ the overlay

  /** The distribution keys and their logo files, in the order they are
      tried. */
  const DistroMap: seq<(string, string)> := [
    ("fedora", "os-fedora.png"), ("arch", "os-arch.png"), ("ubuntu", "os-ubuntu.png"),
    ("debian", "os-debian.png"), ("manjaro", "os-manjaro.png"), ("pop", "os-pop.png"),
    ("opensuse", "os-opensuse.png"), ("elementary", "os-elementary.png"), ("mint", "os-mint.png")]

  /** The logo for a distribution without a key of its own. */
  const GenericLinux: string := "os-linux.png"

  /** The first key, from position `k` on, that occurs in `distro`. */
  function FirstKeyFrom(distro: string, k: nat): (r: Option<nat>)
    requires k <= |DistroMap|
    ensures r.None? <==> forall j :: k <= j < |DistroMap| ==> !Contains(distro, DistroMap[j].0)
    ensures r.Some? ==> k <= r.value < |DistroMap| && Contains(distro, DistroMap[r.value].0)
    ensures r.Some? ==> forall j :: k <= j < r.value ==> !Contains(distro, DistroMap[j].0)
    decreases |DistroMap| - k
  {
    if k == |DistroMap| then None
    else if Contains(distro, DistroMap[k].0) then Some(k)
    else FirstKeyFrom(distro, k + 1)
  }

  /** The logo of a Linux distribution: the file of the first key that is a
      substring of the distribution's name, or the generic one. */
  function DistroFile(distro: string): (r: string)
    ensures r == GenericLinux <==> forall j :: 0 <= j < |DistroMap| ==> !Contains(distro, DistroMap[j].0)
    ensures r != GenericLinux ==> exists i :: (0 <= i < |DistroMap| && DistroMap[i].1 == r
      && Contains(distro, DistroMap[i].0) && forall j :: 0 <= j < i ==> !Contains(distro, DistroMap[j].0))
  {
    match FirstKeyFrom(distro, 0)
    case None => GenericLinux
    case Some(i) => DistroMap[i].1
  }

  /** The matching key listed first decides, whatever later keys the name
      also contains. */
  lemma FirstListedKeyWins(distro: string, i: nat)
    requires i < |DistroMap| && Contains(distro, DistroMap[i].0)
    requires forall j :: 0 <= j < i ==> !Contains(distro, DistroMap[j].0)
    ensures DistroFile(distro) == DistroMap[i].1
  {
    var r := FirstKeyFrom(distro, 0);
    assert r.Some?;
    assert r.value == i;
  }

  /** The logo's file name, from the lower-cased platform name. */
  function OsFile(platformName: string, osRelease: Option<string>): (r: string)
    ensures Lower(platformName) == "linux" ==> r == DistroFile(LinuxDistro(osRelease))
    ensures Lower(platformName) == "windows" ==> r == "os-windows.png"
    ensures Lower(platformName) == "darwin" ==> r == "os-macos.png"
    ensures Lower(platformName) !in {"linux", "windows", "darwin"} ==> r == "os-unknown.png"
  {
    var system := Lower(platformName);
    if system == "linux" then DistroFile(LinuxDistro(osRelease))
    else if system == "windows" then "os-windows.png"
    else if system == "darwin" then "os-macos.png"
    else "os-unknown.png"
  }

  /** `get_os_overlay_path`: the generated overlay's path relative to the
      assets directory. */
  function OsOverlayPath(platformName: string, osRelease: Option<string>): (r: string)
    ensures StartsWith(r, "overlays/os-overlay-")
    ensures r[|"overlays/os-overlay-"|..] == OsFile(platformName, osRelease)
  {
    var p := "overlays/os-overlay-" + OsFile(platformName, osRelease);
    assert p[..|"overlays/os-overlay-"|] == "overlays/os-overlay-";
    p
  }

  /** Two platforms share an overlay path exactly when they share a logo. */
  lemma OverlayPathsDistinguishLogos(p1: string, r1: Option<string>, p2: string, r2: Option<string>)
    ensures OsOverlayPath(p1, r1) == OsOverlayPath(p2, r2) <==> OsFile(p1, r1) == OsFile(p2, r2)
  {
    var a := OsOverlayPath(p1, r1);
    var b := OsOverlayPath(p2, r2);
    if a == b {
      assert a[|"overlays/os-overlay-"|..] == b[|"overlays/os-overlay-"|..];
    }
  }

  /** A Linux system with an unreadable os-release gets the generic logo. */
  lemma UnreadableReleaseIsGeneric()
    ensures DistroFile(LinuxDistro(None)) == GenericLinux
  {
    var d := "linux";
    assert 'u' in d && forall c :: c in "famdpoe" ==> c !in d;
    forall j | 0 <= j < |DistroMap|
      ensures !Contains(d, DistroMap[j].0)
    {
      KeyStart(j);
      NotContained(d, DistroMap[j].0);
    }
  }

  /** Every key but "ubuntu" starts with one of "famdpoe"; "ubuntu" is
      longer than "linux". */
  lemma KeyStart(j: nat)
    requires j < |DistroMap|
    ensures |DistroMap[j].0| > 0
    ensures DistroMap[j].0[0] in "famdpoe" || |DistroMap[j].0| > 5
  {
  }

  // ================================================================ the graphics name

  /** `\]` after `.*?` from position `k`: `s[j]` is the first ']' at or after
      `k` and no newline comes before it (`.` matches any character but a
      newline). */
  predicate ClosesAt(s: string, k: nat, j: nat) {
    k <= j < |s| && s[j] == ']' && forall m :: k <= m < j ==> s[m] != ']' && s[m] != '\n'
  }

  /** The pattern `\[(.*?)\]` matches at `i`, closing at `j`. */
  predicate MatchesAt(s: string, i: nat, j: nat) {
    i < |s| && s[i] == '[' && ClosesAt(s, i + 1, j)
  }

  /** No match of the pattern starts at `i`. */
  ghost predicate NoMatchAt(s: string, i: nat) {
    forall j: nat :: !MatchesAt(s, i, j)
  }

  /** Where the lazy group closes, if it does. */
  function CloseFrom(s: string, k: nat): (r: Option<nat>)
    requires k <= |s|
    ensures r.Some? ==> ClosesAt(s, k, r.value)
    ensures r.None? ==> forall j: nat :: !ClosesAt(s, k, j)
    decreases |s| - k
  {
    if k == |s| then None
    else if s[k] == ']' then Some(k)
    else if s[k] == '\n' then None
    else
      var r := CloseFrom(s, k + 1);
      assert forall j: nat :: ClosesAt(s, k, j) ==> ClosesAt(s, k + 1, j);
      r
  }

  /** `re.search` of `\[(.*?)\]` from position `i`: the leftmost match. */
  function SearchFrom(s: string, i: nat): (r: Option<(nat, nat)>)
    requires i <= |s|
    ensures r.Some? ==> i <= r.value.0 && MatchesAt(s, r.value.0, r.value.1)
    ensures r.Some? ==> forall a: nat :: i <= a < r.value.0 ==> NoMatchAt(s, a)
    ensures r.None? ==> forall a: nat :: i <= a ==> NoMatchAt(s, a)
    decreases |s| - i
  {
    if i == |s| then None
    else if s[i] == '[' then
      match CloseFrom(s, i + 1)
      case Some(j) => Some((i, j))
      case None => SearchFrom(s, i + 1)
    else SearchFrom(s, i + 1)
  }

  /** The graphics name from the output of `lspci | grep ...`: the
      stripped text inside the first bracket pair of the stripped output;
      "Unknown" when the command fails (`None`), prints nothing, or shows
      no brackets. */
  function Graphics(out: Option<string>): (r: string)
    ensures out.None? ==> r == "Unknown"
    ensures out.Some? && Strip(out.value) == "" ==> r == "Unknown"
    ensures out.Some? && Strip(out.value) != "" && SearchFrom(Strip(out.value), 0).None? ==> r == "Unknown"
    ensures r != "Unknown" ==> Trimmed(r)
  {
    if out.None? then "Unknown"
    else
      var text := Strip(out.value);
      if text == "" then "Unknown"
      else
        match SearchFrom(text, 0)
        case None => "Unknown"
        case Some(m) => Strip(text[m.0 + 1..m.1])
  }

  /** A match with none to its left is the one the search finds. */
  lemma LeftmostMatch(s: string, i: nat, j: nat)
    requires MatchesAt(s, i, j)
    requires forall a: nat :: a < i ==> NoMatchAt(s, a)
    ensures SearchFrom(s, 0) == Some((i, j))
  {
    assert !NoMatchAt(s, i);
    var r := SearchFrom(s, 0);
    assert !NoMatchAt(s, r.value.0);
    assert r.value.0 == i;
    CloseUnique(s, i + 1, j, r.value.1);
  }

  /** The lazy group closes at one place only. */
  lemma CloseUnique(s: string, k: nat, j1: nat, j2: nat)
    requires ClosesAt(s, k, j1) && ClosesAt(s, k, j2)
    ensures j1 == j2
  {
  }

  /** The graphics name of a trimmed output whose leftmost match spans
      `g`. */
  lemma GraphicsAt(s: string, i: nat, g: string)
    requires Trimmed(s) && s != ""
    requires i + |g| + 2 <= |s| && s[i + 1..i + 1 + |g|] == g
    requires MatchesAt(s, i, i + 1 + |g|)
    requires forall a: nat :: a < i ==> NoMatchAt(s, a)
    ensures Graphics(Some(s)) == Strip(g)
  {
    LeftmostMatch(s, i, i + 1 + |g|);
    GraphicsOfMatch(s, i, i + 1 + |g|, g);
  }

  /** The name is the stripped text `g` between the brackets the search
      finds. */
  lemma GraphicsOfMatch(s: string, i: nat, j: nat, g: string)
    requires Trimmed(s) && s != ""
    requires SearchFrom(s, 0) == Some((i, j)) && i + 1 <= j <= |s| && s[i + 1..j] == g
    ensures Graphics(Some(s)) == Strip(g)
  {
    StripTrimmed(s);
    var text := Strip(Some(s).value);
    assert text == s && text != "";
    var m := SearchFrom(text, 0).value;
    assert m.0 + 1 == i + 1 && m.1 == j;
    assert text[m.0 + 1..m.1] == g;
    assert Graphics(Some(s)) == Strip(text[m.0 + 1..m.1]);
  }

  /** The first bracket pair of a line gives the name, whatever follows:
      an AMD card listed as "... [AMD/ATI] Rembrandt [Radeon 680M]" shows
      the vendor bracket. */
  lemma GraphicsOf(pre: string, g: string, post: string)
    requires '[' !in pre && ']' !in g && '\n' !in g
    requires Trimmed(pre + "[" + g + "]" + post)
    ensures Graphics(Some(pre + "[" + g + "]" + post)) == Strip(g)
  {
    var s := pre + "[" + g + "]" + post;
    var i := |pre|;
    var j := |pre| + 1 + |g|;
    assert s[i] == '[' && s[j] == ']';
    assert forall m :: i + 1 <= m < j ==> s[m] == g[m - i - 1];
    assert s[i + 1..j] == g;
    assert forall a: nat :: a < i ==> s[a] == pre[a];
    GraphicsAt(s, i, g);
  }

  /** Output without an opening bracket names no graphics. */
  lemma NoBracketUnknown(out: string)
    requires '[' !in Strip(out)
    ensures Graphics(Some(out)) == "Unknown"
  {
    var text := Strip(out);
    if text != "" {
      assert forall a: nat :: a < |text| ==> text[a] != '[';
      assert SearchFrom(text, 0).None?;
    }
  }

  /** An opening bracket whose line ends before any closing one starts no
      match. */
  lemma {:induction false} BrokenBracket(s: string, a: string)
    requires ']' !in a && '\n' !in a
    requires 1 + |a| < |s| && s[..1 + |a|] == "[" + a && s[1 + |a|] == '\n'
    ensures NoMatchAt(s, 0)
  {
    forall j: nat | 1 <= j < |s| && s[j] == ']'
      ensures !ClosesAt(s, 1, j)
    {
      assert forall m :: 1 <= m < 1 + |a| ==> s[m] == s[..1 + |a|][m] == a[m - 1];
    }
  }

  /** A bracket that a newline interrupts does not match: the name comes
      from the next line's brackets. */
  lemma BracketAcrossLines(a: string, b: string, g: string, post: string)
    requires '[' !in a && ']' !in a && '\n' !in a && ']' !in b && '[' !in b && ']' !in g && '\n' !in g
    requires Trimmed("[" + a + "\n" + b + "[" + g + "]" + post)
    ensures Graphics(Some("[" + a + "\n" + b + "[" + g + "]" + post)) == Strip(g)
  {
    var pre := "[" + a + "\n" + b;
    var s := pre + "[" + g + "]" + post;
    assert s == "[" + a + "\n" + b + "[" + g + "]" + post;
    var i := |pre|;
    var j := |pre| + 1 + |g|;
    assert s[i] == '[' && s[j] == ']';
    assert forall m :: i + 1 <= m < j ==> s[m] == g[m - i - 1];
    assert s[i + 1..j] == g;
    assert s[..1 + |a|] == "[" + a;
    BrokenBracket(s, a);
    assert forall q: nat :: 0 < q < i ==> s[q] == pre[q] != '[';
    GraphicsAt(s, i, g);
  }

  // ================================================================ the widget

  /** The widget's `data`: its stats and its one overlay. */
  datatype SystemData = SystemData(graphics: string, memory: string, storage: string, overlays: seq<Overlay>)

  /** The constructor's data: the stats and the OS overlay, uncoloured. */
  function Build(platformName: string, osRelease: Option<string>, lspci: Option<string>,
                 memory: string, storage: string): (d: SystemData)
    ensures d.graphics == Graphics(lspci) && d.memory == memory && d.storage == storage
    ensures |d.overlays| == 1 && d.overlays[0].name == "os" && d.overlays[0].color.None?
    ensures d.overlays[0].path == OsOverlayPath(platformName, osRelease)
  {
    SystemData(Graphics(lspci), memory, storage, [Overlay("os", OsOverlayPath(platformName, osRelease), None)])
  }

  /** The label's four lines; the CPU comes from the laptop model, if
      there is one. */
  function LabelLines(cpu: Option<string>, d: SystemData): (ls: seq<string>)
    ensures |ls| == 4
    ensures ls[0] == "CPU: " + cpu.GetOr("Unknown") && ls[1] == "Graphics: " + d.graphics
    ensures ls[2] == "Memory: " + d.memory && ls[3] == "Storage: " + d.storage
  {
    ["CPU: " + cpu.GetOr("Unknown"), "Graphics: " + d.graphics, "Memory: " + d.memory, "Storage: " + d.storage]
  }

  /** The label's text: every line ends in a newline. */
  function LabelText(cpu: Option<string>, d: SystemData): (r: string)
    ensures |r| > 5 && r[..5] == "CPU: " && r[|r| - 1] == '\n'
  {
    var ls := LabelLines(cpu, d);
    UnlinesShape(ls);
    assert Unlines(ls)[..5] == Unlines(ls)[..|ls[0]|][..5];
    Unlines(ls)
  }

  /** Reading the label back line by line gives the four lines, as long as
      no value holds a line break. */
  lemma LabelReadsBack(cpu: Option<string>, d: SystemData)
    requires NoneIn(cpu.GetOr("Unknown"), FileBreaks) && NoneIn(d.graphics, FileBreaks)
    requires NoneIn(d.memory, FileBreaks) && NoneIn(d.storage, FileBreaks)
    ensures FileLines(LabelText(cpu, d)) == LabelLines(cpu, d)
  {
    var ls := LabelLines(cpu, d);
    NoneInConcat("CPU: ", cpu.GetOr("Unknown"), FileBreaks);
    NoneInConcat("Graphics: ", d.graphics, FileBreaks);
    NoneInConcat("Memory: ", d.memory, FileBreaks);
    NoneInConcat("Storage: ", d.storage, FileBreaks);
    LinesUnlines(ls, FileBreaks);
  }
}

=== FILE: text.dfy ===
/** Python `str` operations the application relies on, on `seq<char>`.
    Whitespace is Python's `str.isspace()` set and line boundaries are the
    `str.splitlines()` set; `upper()`/`lower()` act on ASCII letters only. */
module Text {
  import opened Wrappers

  /** Python's `str.isspace()` for one character (the same set `\s`,
      `split()` and `strip()` use). */
  predicate IsSpace(c: char) {
    || ('\t' <= c <= '\r')
    || ('\U{1C}' <= c <= '\U{1F}')
    || c == ' ' || c == '\U{85}' || c == '\U{A0}' || c == '\U{1680}'
    || ('\U{2000}' <= c <= '\U{200A}')
    || c == '\U{2028}' || c == '\U{2029}' || c == '\U{202F}' || c == '\U{205F}'
    || c == '\U{3000}'
  }

  /** The line boundaries of Python's `str.splitlines()`. */
  const LineBreaks: set<char> :=
    {'\n', '\r', '\U{0B}', '\U{0C}', '\U{1C}', '\U{1D}', '\U{1E}', '\U{85}', '\U{2028}', '\U{2029}'}

  /** The line boundaries of a file read in text mode (universal newlines). */
  const FileBreaks: set<char> := {'\n', '\r'}

  predicate NoSpace(t: string) {
    forall k :: 0 <= k < |t| ==> !IsSpace(t[k])
  }

  predicate AllSpace(t: string) {
    forall k :: 0 <= k < |t| ==> IsSpace(t[k])
  }

  predicate NoneIn(t: string, cs: set<char>) {
    forall k :: 0 <= k < |t| ==> t[k] !in cs
  }

  predicate IsDigit(c: char) {
    '0' <= c <= '9'
  }

  predicate AllDigits(t: string) {
    forall k :: 0 <= k < |t| ==> IsDigit(t[k])
  }

  // ---------------------------------------------------------------- strip

  /** Number of leading whitespace characters. */
  function LeadingSpace(s: string): (n: nat)
    ensures n <= |s|
    ensures AllSpace(s[..n])
    ensures n < |s| ==> !IsSpace(s[n])
  {
    if |s| > 0 && IsSpace(s[0]) then
      var m := LeadingSpace(s[1..]);
      assert s[..1 + m] == [s[0]] + s[1..][..m];
      1 + m
    else 0
  }

  /** Number of trailing whitespace characters. */
  function TrailingSpace(s: string): (n: nat)
    ensures n <= |s|
    ensures AllSpace(s[|s| - n..])
    ensures forall k :: |s| - n <= k < |s| ==> IsSpace(s[k])
    ensures n < |s| ==> !IsSpace(s[|s| - 1 - n])
  {
    if |s| > 0 && IsSpace(s[|s| - 1]) then
      var t := s[..|s| - 1];
      var m := TrailingSpace(t);
      SpaceSuffix(s, t, m);
      1 + m
    else 0
  }

  /** A whitespace character after a whitespace suffix extends it. */
  lemma SpaceSuffix(s: string, t: string, m: nat)
    requires |s| > 0 && t == s[..|s| - 1] && IsSpace(s[|s| - 1])
    requires m <= |t| && forall k :: |t| - m <= k < |t| ==> IsSpace(t[k])
    ensures forall k :: |s| - (1 + m) <= k < |s| ==> IsSpace(s[k])
    ensures AllSpace(s[|s| - (1 + m)..])
  {
    forall k | |s| - (1 + m) <= k < |s|
      ensures IsSpace(s[k])
    {
      if k < |s| - 1 {
        assert s[k] == t[k];
      }
    }
    var u := s[|s| - (1 + m)..];
    forall k | 0 <= k < |u|
      ensures IsSpace(u[k])
    {
      assert u[k] == s[|s| - (1 + m) + k];
    }
  }

  /** A string with no whitespace at either end. */
  predicate Trimmed(t: string) {
    |t| > 0 ==> !IsSpace(t[0]) && !IsSpace(t[|t| - 1])
  }

  /** Python's `s.strip()`. */
  function Strip(s: string): (r: string)
    ensures Trimmed(r)
    ensures |r| <= |s|
    ensures r == "" <==> AllSpace(s)
  {
    var a := LeadingSpace(s);
    if a == |s| then
      assert s[..a] == s;
      ""
    else
      var b := TrailingSpace(s);
      var r := s[a..|s| - b];
      assert !AllSpace(s) by { assert !IsSpace(s[a]); }
      r
  }

  /** `strip()` removes exactly the whitespace around a trimmed core: the
      decomposition of a string into space, core and space is unique. */
  lemma {:induction false} StripSurrounded(pre: string, core: string, post: string)
    requires AllSpace(pre) && AllSpace(post) && Trimmed(core) && core != ""
    ensures Strip(pre + core + post) == core
  {
    var s := pre + core + post;
    LeadingSpaceOf(pre, core + post);
    assert s == pre + (core + post);
    var a := LeadingSpace(s);
    assert a == |pre|;
    TrailingSpaceOf(pre + core, post);
    var b := TrailingSpace(s);
    assert b == |post|;
    assert s[a..|s| - b] == core;
  }

  lemma {:induction false} LeadingSpaceOf(pre: string, rest: string)
    requires AllSpace(pre)
    requires |rest| > 0 && !IsSpace(rest[0])
    ensures LeadingSpace(pre + rest) == |pre|
    decreases |pre|
  {
    if |pre| > 0 {
      assert (pre + rest)[1..] == pre[1..] + rest;
      LeadingSpaceOf(pre[1..], rest);
    } else {
      assert pre + rest == rest;
    }
  }

  lemma {:induction false} TrailingSpaceOf(body: string, post: string)
    requires AllSpace(post)
    requires |body| > 0 && !IsSpace(body[|body| - 1])
    ensures TrailingSpace(body + post) == |post|
    decreases |post|
  {
    if |post| > 0 {
      var s := body + post;
      assert s[..|s| - 1] == body + post[..|post| - 1];
      TrailingSpaceOf(body, post[..|post| - 1]);
    } else {
      assert body + post == body;
    }
  }

  /** A trimmed string is its own strip. */
  lemma StripTrimmed(s: string)
    requires Trimmed(s)
    ensures Strip(s) == s
  {
    if s != "" {
      StripSurrounded("", s, "");
      assert "" + s + "" == s;
    }
  }

  /** Stripping twice is stripping once. */
  lemma StripIdempotent(s: string)
    ensures Strip(Strip(s)) == Strip(s)
  {
    var r := Strip(s);
    if r != "" {
      StripSurrounded("", r, "");
      assert "" + r + "" == r;
    }
  }

  // ---------------------------------------------------------------- split

  /** Length of the leading run of non-whitespace characters. */
  function TokenLength(s: string): (n: nat)
    ensures n <= |s|
    ensures NoSpace(s[..n])
    ensures n < |s| ==> IsSpace(s[n])
  {
    if |s| > 0 && !IsSpace(s[0]) then
      var m := TokenLength(s[1..]);
      assert s[..1 + m] == [s[0]] + s[1..][..m];
      1 + m
    else 0
  }

  /** Python's `s.split()` with no argument: the maximal runs of
      non-whitespace characters, in order. */
  function Split(s: string): (r: seq<string>)
    ensures forall i :: 0 <= i < |r| ==> r[i] != "" && NoSpace(r[i])
    decreases |s|
  {
    var a := LeadingSpace(s);
    if a == |s| then []
    else
      var rest := s[a..];
      var n := TokenLength(rest);
      [rest[..n]] + Split(rest[n..])
  }

  /** Python's `sep.join(parts)`. */
  function Join(parts: seq<string>, sep: string): string {
    if |parts| == 0 then ""
    else if |parts| == 1 then parts[0]
    else parts[0] + sep + Join(parts[1..], sep)
  }

  /** Splitting words joined by single spaces gives the words back. */
  lemma {:induction false} SplitJoin(ts: seq<string>)
    requires forall i :: 0 <= i < |ts| ==> ts[i] != "" && NoSpace(ts[i])
    ensures Split(Join(ts, " ")) == ts
    decreases |ts|
  {
    if |ts| == 1 {
      SplitToken(ts[0], "");
      assert ts[0] + "" == ts[0];
      assert Split("") == [];
    } else if |ts| > 1 {
      var rest := " " + Join(ts[1..], " ");
      assert Join(ts, " ") == ts[0] + rest;
      SplitToken(ts[0], rest);
      SplitSpacePrefix(Join(ts[1..], " "));
      SplitJoin(ts[1..]);
      assert ts == [ts[0]] + ts[1..];
    }
  }

  /** A word followed by space or nothing is the first word of the split. */
  lemma SplitToken(t: string, rest: string)
    requires t != "" && NoSpace(t)
    requires |rest| > 0 ==> IsSpace(rest[0])
    ensures Split(t + rest) == [t] + Split(rest)
  {
    var s := t + rest;
    LeadingSpaceOf("", s);
    assert "" + s == s;
    assert s[0..] == s;
    TokenLengthOf(t, rest);
    assert s[..|t|] == t;
    assert s[|t|..] == rest;
  }

  /** Non-empty words joined by single spaces have no space at either end. */
  lemma {:induction false} JoinTrimmed(ts: seq<string>)
    requires |ts| > 0
    requires forall i :: 0 <= i < |ts| ==> ts[i] != "" && NoSpace(ts[i])
    ensures Join(ts, " ") != "" && Trimmed(Join(ts, " "))
    decreases |ts|
  {
    var t := ts[0];
    assert t != "" && NoSpace(t);
    if |ts| > 1 {
      var j := Join(ts[1..], " ");
      JoinTrimmed(ts[1..]);
      var s := t + " " + j;
      assert Join(ts, " ") == s;
      assert s[0] == t[0];
      assert s[|s| - 1] == j[|j| - 1];
    }
  }

  lemma {:induction false} TokenLengthOf(t: string, rest: string)
    requires NoSpace(t)
    requires |rest| > 0 ==> IsSpace(rest[0])
    ensures TokenLength(t + rest) == |t|
    decreases |t|
  {
    if |t| > 0 {
      assert (t + rest)[1..] == t[1..] + rest;
      TokenLengthOf(t[1..], rest);
    } else {
      assert t + rest == rest;
    }
  }

  /** A leading space does not change the result of `split()`. */
  lemma SplitSpacePrefix(x: string)
    ensures Split(" " + x) == Split(x)
  {
    var s := " " + x;
    assert s[1..] == x;
    var a := LeadingSpace(x);
    assert LeadingSpace(s) == 1 + a;
    assert s[1 + a..] == x[a..];
  }

  // ---------------------------------------------------------------- lines

  /** Index of the first character of `s` that belongs to `breaks`. */
  function FirstIn(s: string, breaks: set<char>): (n: nat)
    ensures n <= |s|
    ensures NoneIn(s[..n], breaks)
    ensures n < |s| ==> s[n] in breaks
  {
    if |s| > 0 && s[0] !in breaks then
      var m := FirstIn(s[1..], breaks);
      assert s[..1 + m] == [s[0]] + s[1..][..m];
      1 + m
    else 0
  }

  /** Cuts `s` into lines at the characters in `breaks`, treating "\r\n"
      as one boundary and producing no empty line after a final boundary. */
  function LinesWith(s: string, breaks: set<char>): (r: seq<string>)
    ensures forall i :: 0 <= i < |r| ==> NoneIn(r[i], breaks)
    decreases |s|
  {
    if s == [] then []
    else
      var n := FirstIn(s, breaks);
      if n == |s| then
        assert s[..n] == s;
        [s]
      else
        var skip := if s[n] == '\r' && n + 1 < |s| && s[n + 1] == '\n' then 2 else 1;
        [s[..n]] + LinesWith(s[n + skip..], breaks)
  }

  /** Python's `s.splitlines()`. */
  function SplitLines(s: string): seq<string> {
    LinesWith(s, LineBreaks)
  }

  /** The lines of a file read in text mode, terminators removed. */
  function FileLines(s: string): seq<string> {
    LinesWith(s, FileBreaks)
  }

  /** Every line followed by "\n", as command output is written. */
  function Unlines(ls: seq<string>): string {
    if |ls| == 0 then "" else ls[0] + "\n" + Unlines(ls[1..])
  }

  /** Output of at least one line starts with its first line and ends in
      a newline. */
  lemma {:induction false} UnlinesShape(ls: seq<string>)
    requires |ls| > 0
    ensures |Unlines(ls)| > |ls[0]| && Unlines(ls)[..|ls[0]|] == ls[0]
    ensures Unlines(ls)[|Unlines(ls)| - 1] == '\n'
    decreases |ls|
  {
    var rest := Unlines(ls[1..]);
    assert Unlines(ls) == ls[0] + "\n" + rest;
    if |ls| > 1 {
      UnlinesShape(ls[1..]);
    } else {
      assert rest == "";
    }
  }

  /** Text of printable ASCII characters holds no line break. */
  lemma PrintableUnbroken(t: string)
    requires forall k :: 0 <= k < |t| ==> ' ' <= t[k] <= '~'
    ensures NoneIn(t, LineBreaks)
  {
  }

  /** Two strings free of `cs` concatenate to one. */
  lemma NoneInConcat(a: string, b: string, cs: set<char>)
    requires NoneIn(a, cs) && NoneIn(b, cs)
    ensures NoneIn(a + b, cs)
  {
    forall k | 0 <= k < |a + b|
      ensures (a + b)[k] !in cs
    {
      if k < |a| {
        assert (a + b)[k] == a[k];
      } else {
        assert (a + b)[k] == b[k - |a|];
      }
    }
  }

  /** Splitting newline-terminated lines gives the lines back. */
  lemma {:induction false} LinesUnlines(ls: seq<string>, breaks: set<char>)
    requires '\n' in breaks
    requires forall i :: 0 <= i < |ls| ==> NoneIn(ls[i], breaks)
    ensures LinesWith(Unlines(ls), breaks) == ls
    decreases |ls|
  {
    if |ls| > 0 {
      var l := ls[0];
      var rest := Unlines(ls[1..]);
      var s := Unlines(ls);
      assert s == l + ("\n" + rest);
      FirstInOf(l, "\n" + rest, breaks);
      assert s[|l|] == '\n';
      assert s[..|l|] == l;
      assert s[|l| + 1..] == rest;
      LinesUnlines(ls[1..], breaks);
    }
  }

  lemma {:induction false} FirstInOf(t: string, rest: string, breaks: set<char>)
    requires NoneIn(t, breaks)
    requires |rest| > 0 && rest[0] in breaks
    ensures FirstIn(t + rest, breaks) == |t|
    decreases |t|
  {
    if |t| > 0 {
      assert (t + rest)[1..] == t[1..] + rest;
      FirstInOf(t[1..], rest, breaks);
    } else {
      assert t + rest == rest;
    }
  }

  // ---------------------------------------------------------------- search

  /** `sub` occurs in `s` starting at position `i`. */
  predicate OccursAt(s: string, sub: string, i: nat) {
    i + |sub| <= |s| && s[i..i + |sub|] == sub
  }

  /** Python's `sub in s`. */
  predicate Contains(s: string, sub: string) {
    exists i: nat :: i <= |s| && OccursAt(s, sub, i)
  }

  /** A text without `sub`'s first character, or shorter than `sub`, does
      not contain it. */
  lemma NotContained(s: string, sub: string)
    requires |sub| > 0 && (sub[0] !in s || |sub| > |s|)
    ensures !Contains(s, sub)
  {
    forall i: nat | i <= |s|
      ensures !OccursAt(s, sub, i)
    {
      if sub[0] !in s && i + |sub| <= |s| {
        assert s[i..i + |sub|][0] == s[i];
      }
    }
  }

  /** A witness position proves `sub in s`. */
  lemma OccursContains(s: string, sub: string, i: nat)
    requires OccursAt(s, sub, i)
    ensures Contains(s, sub)
  {
  }

  /** Whatever contains `a + b` contains `b`. */
  lemma ContainsSuffix(s: string, a: string, b: string)
    requires Contains(s, a + b)
    ensures Contains(s, b)
  {
    var i: nat :| i <= |s| && OccursAt(s, a + b, i);
    assert s[i + |a|..i + |a| + |b|] == (a + b)[|a|..];
    assert OccursAt(s, b, i + |a|);
  }

  /** The first position of `x` in `xs`: Python's `list.index`. */
  function FirstIndex(xs: seq<string>, x: string): (r: Option<nat>)
    ensures r.Some? <==> x in xs
    ensures r.Some? ==> r.value < |xs| && xs[r.value] == x && forall j :: 0 <= j < r.value ==> xs[j] != x
  {
    if |xs| == 0 then None
    else if xs[0] == x then Some(0)
    else
      match FirstIndex(xs[1..], x)
      case None => None
      case Some(k) => Some(k + 1)
  }

  /** Python's `s.startswith(p)`. */
  predicate StartsWith(s: string, p: string) {
    |p| <= |s| && s[..|p|] == p
  }

  /** A text starts with whatever it was built from. */
  lemma StartsWithPrefix(p: string, rest: string)
    ensures StartsWith(p + rest, p)
  {
    assert (p + rest)[..|p|] == p;
  }

  /** First position at or after `from` where `sub` occurs. */
  function IndexFrom(s: string, sub: string, from: nat): (r: Option<nat>)
    requires from <= |s|
    ensures r.Some? ==> from <= r.value && OccursAt(s, sub, r.value)
    ensures r.Some? ==> forall j: nat :: from <= j < r.value ==> !OccursAt(s, sub, j)
    ensures r.None? ==> forall j: nat :: from <= j ==> !OccursAt(s, sub, j)
    decreases |s| - from
  {
    if from + |sub| > |s| then None
    else if s[from..from + |sub|] == sub then Some(from)
    else IndexFrom(s, sub, from + 1)
  }

  /** Python's `s.find(sub)`, with None for -1. */
  function IndexOf(s: string, sub: string): (r: Option<nat>)
    ensures r.Some? ==> OccursAt(s, sub, r.value)
    ensures r.Some? ==> forall j: nat :: j < r.value ==> !OccursAt(s, sub, j)
    ensures r.Some? <==> Contains(s, sub)
  {
    IndexFrom(s, sub, 0)
  }

  /** The parts of Python's `s.split(sep, 1)` when `sep` occurs in `s`. */
  function SplitOnce(s: string, sep: string): (r: Option<(string, string)>)
    requires sep != ""  // Python raises ValueError for an empty separator
    ensures r.Some? <==> Contains(s, sep)
    ensures r.Some? ==> r.value.0 + sep + r.value.1 == s && !Contains(r.value.0, sep)
  {
    match IndexOf(s, sep)
    case None => None
    case Some(i) =>
      var before := s[..i];
      var after := s[i + |sep|..];
      assert before + sep + after == s;
      assert !Contains(before, sep) by {
        forall j: nat | j <= |before|
          ensures !OccursAt(before, sep, j)
        {
          if j + |sep| <= |before| {
            assert before[j..j + |sep|] == s[j..j + |sep|];
            assert j < i;
            assert !OccursAt(s, sep, j);
          }
        }
      }
      Some((before, after))
  }

  /** Splitting once on a one-character separator cuts at its first
      occurrence. */
  lemma SplitOnceChar(a: string, c: char, b: string)
    requires c !in a
    ensures SplitOnce(a + [c] + b, [c]) == Some((a, b))
  {
    var s := a + [c] + b;
    assert s[|a|..|a| + 1] == [c];
    assert forall j: nat :: j < |a| ==> !OccursAt(s, [c], j) by {
      forall j: nat | j < |a|
        ensures !OccursAt(s, [c], j)
      {
        assert s[j..j + 1][0] == s[j] == a[j];
      }
    }
    IndexOfFirst(s, [c], |a|);
    assert s[..|a|] == a;
    assert s[|a| + 1..] == b;
  }

  /** `find` gives the first occurrence. */
  lemma IndexOfFirst(s: string, sub: string, i: nat)
    requires OccursAt(s, sub, i)
    requires forall j: nat :: j < i ==> !OccursAt(s, sub, j)
    ensures IndexOf(s, sub) == Some(i)
  {
    OccursContains(s, sub, i);
    var r := IndexOf(s, sub).value;
    assert OccursAt(s, sub, r);
    assert !(i < r);
  }

  /** The text after the last occurrence of `c`, or all of `s` when `c`
      does not occur: Python's `s.split(c)[-1]`. */
  function AfterLast(s: string, c: char): (r: string)
    ensures |r| <= |s| && r == s[|s| - |r|..]
    ensures c !in r
    ensures |r| < |s| ==> s[|s| - |r| - 1] == c
  {
    if |s| == 0 then ""
    else if s[|s| - 1] == c then ""
    else
      var r := AfterLast(s[..|s| - 1], c);
      assert s[..|s| - 1][|s| - 1 - |r|..] + [s[|s| - 1]] == s[|s| - 1 - |r|..];
      r + [s[|s| - 1]]
  }

  /** Whatever follows the last `c` is the text after it. */
  lemma AfterLastOf(a: string, c: char, b: string)
    requires c !in b
    ensures AfterLast(a + [c] + b, c) == b
  {
    var s := a + [c] + b;
    assert s[|s| - 1 - |b|] == c;
    assert forall k :: |s| - |b| <= k < |s| ==> s[k] == b[k - (|s| - |b|)];
    AfterLastSuffix(s, c, |b|);
    assert s[|s| - |b|..] == b;
  }

  /** A POSIX path that starts at the root. */
  predicate IsAbsolute(p: string) {
    |p| > 0 && p[0] == '/'
  }

  /** Python's `os.path.join(a, b)` on POSIX: an absolute `b` discards
      `a`; a relative one follows `a`, after a "/" that is added only when
      `a` is non-empty and does not already end in one. */
  function PathJoin(a: string, b: string): (r: string)
    ensures IsAbsolute(b) ==> r == b
    ensures !IsAbsolute(b) ==> |a| + |b| <= |r| <= |a| + |b| + 1
    ensures !IsAbsolute(b) ==> StartsWith(r, a) && r[|r| - |b|..] == b
    ensures !IsAbsolute(b) && |r| > |a| + |b| ==> r[|a|] == '/'
    ensures !IsAbsolute(b) && a != "" ==> r[|r| - |b| - 1] == '/'
    ensures !IsAbsolute(b) && (a == "" || a[|a| - 1] == '/') ==> |r| == |a| + |b|
  {
    if IsAbsolute(b) then b
    else if a == "" || a[|a| - 1] == '/' then a + b
    else a + "/" + b
  }

  /** The last component of a joined path is the relative name joined on. */
  lemma JoinedBaseName(a: string, b: string)
    requires b != "" && '/' !in b
    ensures AfterLast(PathJoin(a, b), '/') == b
  {
    if a == "" {
      assert PathJoin(a, b) == b;
    } else if a[|a| - 1] == '/' {
      AfterLastOf(a[..|a| - 1], '/', b);
      assert a[..|a| - 1] + ['/'] == a;
    } else {
      AfterLastOf(a, '/', b);
    }
  }

  /** When the `n` last characters are not `c` and the one before them is,
      they are the text after the last `c`. */
  lemma {:induction false} AfterLastSuffix(s: string, c: char, n: nat)
    requires n < |s| && s[|s| - 1 - n] == c
    requires forall k :: |s| - n <= k < |s| ==> s[k] != c
    ensures AfterLast(s, c) == s[|s| - n..]
    decreases n
  {
    if n > 0 {
      var t := s[..|s| - 1];
      assert t[|t| - 1 - (n - 1)] == c;
      assert forall k :: |t| - (n - 1) <= k < |t| ==> t[k] == s[k];
      AfterLastSuffix(t, c, n - 1);
      assert t[|t| - (n - 1)..] + [s[|s| - 1]] == s[|s| - n..];
    }
  }

  // ---------------------------------------------------------------- case

  function UpperChar(c: char): char {
    if 'a' <= c <= 'z' then (c as int - 32) as char else c
  }

  function LowerChar(c: char): char {
    if 'A' <= c <= 'Z' then (c as int + 32) as char else c
  }

  /** Python's `s.upper()` on ASCII letters. */
  function Upper(s: string): (r: string)
    ensures |r| == |s|
  {
    seq(|s|, i requires 0 <= i < |s| => UpperChar(s[i]))
  }

  /** No ASCII upper-case letter. */
  predicate NoUpper(s: string) {
    forall i :: 0 <= i < |s| ==> !('A' <= s[i] <= 'Z')
  }

  /** Python's `s.lower()` on ASCII letters. */
  function Lower(s: string): (r: string)
    ensures |r| == |s| && NoUpper(r)
  {
    seq(|s|, i requires 0 <= i < |s| => LowerChar(s[i]))
  }

  /** Lower-casing leaves a string without capitals as it is, so it is
      idempotent. */
  lemma LowerNoUpper(s: string)
    requires NoUpper(s)
    ensures Lower(s) == s
  {
  }

  /** Python's `s.capitalize()` on ASCII letters. */
  function Capitalize(s: string): string {
    if s == "" then "" else [UpperChar(s[0])] + Lower(s[1..])
  }

  // ---------------------------------------------------------------- misc

  /** Python's `s.zfill(w)`, applied in the program only to digit runs, so
      the sign handling of `zfill` never arises. */
  function ZFill(s: string, w: nat): (r: string)
    ensures |r| == if |s| >= w then |s| else w
    ensures r[|r| - |s|..] == s
    ensures forall k :: 0 <= k < |r| - |s| ==> r[k] == '0'
  {
    if |s| >= w then s else seq(w - |s|, _ => '0') + s
  }

  /** Python's `s.replace(c, '')` for a one-character `c`. */
  function RemoveChar(s: string, c: char): (r: string)
    ensures c !in r
    ensures |r| <= |s|
  {
    if |s| == 0 then ""
    else (if s[0] == c then "" else [s[0]]) + RemoveChar(s[1..], c)
  }
}

=== FILE: ui.dfy ===
/** The main window's bookkeeping: the widgets' data keyed by tab name,
    the background refresh that isolates a failing widget, the overlays
    gathered from every widget for the laptop image, the cache that decides
    when that image is rebuilt, and the sidebar's tab buttons. */
module Ui {
  import opened Wrappers
  import opened Overlays
  import opened Text

  /** The tabs, in sidebar order. */
  const TabNames: seq<string> := ["Stats", "Power", "Battery", "Expansion", "LEDs", "Keyboard", "Sample"]

  /** A widget's `data` as the window sees it: nothing (or an empty,
      falsy dict), a value that is not a dict, or a dict whose "overlays"
      entry is absent or None (`None`) or a list. */
  datatype WidgetData = NoData | NotDict | Dict(overlays: Option<seq<Overlay>>)

  /** The widgets' data, one entry per tab, in tab order. */
  type DataTable = seq<(string, WidgetData)>

  /** The table the window starts from: every tab, no data. */
  function InitialTable(): (t: DataTable)
    ensures |t| == |TabNames|
    ensures forall i :: 0 <= i < |t| ==> t[i] == (TabNames[i], NoData)
  {
    seq(|TabNames|, i requires 0 <= i < |TabNames| => (TabNames[i], NoData))
  }

  // ================================================================ overlays

  /** What one widget adds: the list under "overlays" of a dict, when it
      is present and non-empty. */
  function Contribution(d: WidgetData): (r: seq<Overlay>)
    ensures r != [] ==> d.Dict? && d.overlays == Some(r)
    ensures d.Dict? && d.overlays.Some? ==> r == d.overlays.value
  {
    if d.Dict? && d.overlays.Some? && d.overlays.value != [] then d.overlays.value else []
  }

  /** `get_all_widget_overlays`: every widget's overlays, in widget
      order. */
  function AllOverlays(t: DataTable): seq<Overlay> {
    if |t| == 0 then [] else Contribution(t[0].1) + AllOverlays(t[1..])
  }

  /** When no widget contributes, there are no overlays. */
  lemma {:induction false} AllOverlaysEmpty(t: DataTable)
    requires forall i :: 0 <= i < |t| ==> Contribution(t[i].1) == []
    ensures AllOverlays(t) == []
    decreases |t|
  {
    if |t| > 0 {
      assert Contribution(t[0].1) == [];
      AllOverlaysEmpty(t[1..]);
    }
  }

  /** Gathering is compositional: the overlays of two runs of tabs are
      those of the first followed by those of the second. */
  lemma {:induction false} AllOverlaysConcat(a: DataTable, b: DataTable)
    ensures AllOverlays(a + b) == AllOverlays(a) + AllOverlays(b)
    decreases |a|
  {
    if |a| > 0 {
      assert (a + b)[1..] == a[1..] + b;
      AllOverlaysConcat(a[1..], b);
    } else {
      assert a + b == b;
    }
  }

  /** An overlay is shown exactly when some widget's data lists it. */
  lemma {:induction false} AllOverlaysMembers(t: DataTable, o: Overlay)
    ensures o in AllOverlays(t) <==> exists i :: 0 <= i < |t| && o in Contribution(t[i].1)
    decreases |t|
  {
    if |t| > 0 {
      AllOverlaysMembers(t[1..], o);
      if exists i :: 0 <= i < |t[1..]| && o in Contribution(t[1..][i].1) {
        var i :| 0 <= i < |t[1..]| && o in Contribution(t[1..][i].1);
        assert t[1..][i] == t[i + 1];
      }
      if exists i :: 0 <= i < |t| && o in Contribution(t[i].1) {
        var i :| 0 <= i < |t| && o in Contribution(t[i].1);
        if i > 0 {
          assert t[1..][i - 1] == t[i];
        }
      }
    }
  }

  /** The overlays of a table split around any one position. */
  lemma {:induction false} SplitAround(t: DataTable, i: nat)
    requires i < |t|
    ensures AllOverlays(t) == AllOverlays(t[..i]) + Contribution(t[i].1) + AllOverlays(t[i + 1..])
    decreases i
  {
    if i == 0 {
      assert t[..0] == [];
    } else {
      var tl := t[1..];
      var head := Contribution(t[0].1);
      var mid := AllOverlays(t[..i][1..]);
      assert AllOverlays(tl) == mid + Contribution(t[i].1) + AllOverlays(t[i + 1..]) by {
        SplitAround(tl, i - 1);
        assert tl[..i - 1] == t[..i][1..];
        assert tl[i - 1] == t[i] && tl[i..] == t[i + 1..];
      }
      assert AllOverlays(t[..i]) == head + mid;
      assert AllOverlays(t) == head + AllOverlays(tl);
    }
  }

  /** Replacing one widget's data changes only its own share of the
      overlays. */
  lemma OneWidgetChanges(t: DataTable, i: nat, d: WidgetData)
    requires i < |t|
    ensures AllOverlays(t[i := (t[i].0, d)]) ==
      AllOverlays(t[..i]) + Contribution(d) + AllOverlays(t[i + 1..])
    ensures AllOverlays(t) == AllOverlays(t[..i]) + Contribution(t[i].1) + AllOverlays(t[i + 1..])
  {
    var u := t[i := (t[i].0, d)];
    SplitAround(u, i);
    assert u[..i] == t[..i] && u[i + 1..] == t[i + 1..];
    SplitAround(t, i);
  }

  // ================================================================ the background refresh

  /** How a widget's `update` ended: with its data, with one of the three
      exceptions the loop catches, or with any other exception, which
      escapes the loop. */
  datatype ErrorKind = NotImplemented | Attribute | Runtime | Uncaught
  datatype Outcome = Updated(data: WidgetData) | Raised(kind: ErrorKind, message: string)

  /** The error text recorded for a caught exception. */
  function ErrorText(kind: ErrorKind, message: string): (r: string)
    ensures kind == NotImplemented <==> StartsWith(r, "NotImplementedError: ")
    ensures |r| >= |message| && r[|r| - |message|..] == message
  {
    if kind == NotImplemented then
      StartsWithPrefix("NotImplementedError: ", message);
      "NotImplementedError: " + message
    else
      var r := "Error: " + message;
      assert r[0] == 'E';
      r
  }

  /** `_background_update_loop`: each widget is updated in tab order; a
      widget raising one of the caught exceptions gets no data and an
      error entry, and the others carry on. An uncaught exception ends the
      worker before the window is told anything (`None`). */
  function Refresh(names: seq<string>, outcomes: seq<Outcome>): (r: Option<(DataTable, map<string, string>)>)
    requires |names| == |outcomes|
    ensures r.None? <==> exists i :: 0 <= i < |outcomes| && outcomes[i].Raised? && outcomes[i].kind == Uncaught
    ensures r.Some? ==> |r.value.0| == |names|
    ensures r.Some? ==> forall i :: 0 <= i < |names| ==> r.value.0[i].0 == names[i]
    ensures r.Some? ==> forall i :: 0 <= i < |names| ==>
      r.value.0[i].1 == (if outcomes[i].Updated? then outcomes[i].data else NoData)
    ensures r.Some? ==> forall n :: n in r.value.1 ==> exists i :: 0 <= i < |names| && names[i] == n && outcomes[i].Raised?
  {
    if |names| == 0 then Some(([], map[]))
    else
      var k := |names| - 1;
      match Refresh(names[..k], outcomes[..k])
      case None =>
        assert exists i :: 0 <= i < |outcomes[..k]| && outcomes[..k][i].Raised? && outcomes[..k][i].kind == Uncaught;
        None
      case Some(prev) =>
        assert forall i :: 0 <= i < k ==> outcomes[..k][i] == outcomes[i];
        match outcomes[k]
        case Updated(d) => Some((prev.0 + [(names[k], d)], prev.1))
        case Raised(kind, msg) =>
          if kind == Uncaught then None
          else Some((prev.0 + [(names[k], NoData)], prev.1[names[k] := ErrorText(kind, msg)]))
  }

  /** A failing widget does not disturb the others: changing one widget's
      outcome to a caught failure changes only that widget's entry. */
  lemma FailureIsolated(names: seq<string>, outcomes: seq<Outcome>, i: nat, kind: ErrorKind, msg: string)
    requires |names| == |outcomes| && i < |names| && kind != Uncaught
    requires Refresh(names, outcomes).Some?
    ensures var r := Refresh(names, outcomes[i := Raised(kind, msg)]);
      r.Some? && r.value.0 == Refresh(names, outcomes).value.0[i := (names[i], NoData)]
  {
    var o := outcomes[i := Raised(kind, msg)];
    assert forall j :: 0 <= j < |o| && o[j].Raised? && o[j].kind == Uncaught ==> j != i && outcomes[j] == o[j];
    var r := Refresh(names, o);
    var t := Refresh(names, outcomes).value.0[i := (names[i], NoData)];
    assert |r.value.0| == |t|;
    assert forall j :: 0 <= j < |t| ==> r.value.0[j] == t[j];
  }

  /** The table's keys are the tab names, before and after a refresh. */
  lemma KeysAreTabNames(outcomes: seq<Outcome>)
    requires |outcomes| == |TabNames|
    ensures forall i :: 0 <= i < |TabNames| ==> InitialTable()[i].0 == TabNames[i]
    ensures Refresh(TabNames, outcomes).Some? ==>
      forall i :: 0 <= i < |TabNames| ==> Refresh(TabNames, outcomes).value.0[i].0 == TabNames[i]
  {
  }

  // ================================================================ the laptop image

  /** The window's cache of the last overlays, and the overlays the laptop
      image was last rebuilt with, if any. */
  datatype Window = Window(lastOverlays: Option<seq<Overlay>>, image: Option<seq<Overlay>>)

  /** The window before the first refresh: no cache, no overlays drawn. */
  const Start: Window := Window(None, None)

  /** `_finish_update_loop`'s overlay step: the image is rebuilt, with a
      copy stored in the cache, exactly when the gathered overlays differ
      from the cache, and only for a model that has an image. The result's
      second part says whether a rebuild happened. */
  function Finish(w: Window, t: DataTable, hasImage: bool): (r: (Window, bool))
    ensures r.0.lastOverlays == Some(AllOverlays(t))
    ensures r.1 <==> hasImage && w.lastOverlays != Some(AllOverlays(t))
    ensures r.1 ==> r.0.image == Some(AllOverlays(t))
    ensures !r.1 ==> r.0.image == w.image
  {
    var overlays := AllOverlays(t);
    if w.lastOverlays != Some(overlays) then
      if hasImage then (Window(Some(overlays), Some(overlays)), true)
      else (w.(lastOverlays := Some(overlays)), false)
    else (w, false)
  }

  /** A second refresh with the same overlays rebuilds nothing. */
  lemma FinishIdempotent(w: Window, t: DataTable, u: DataTable, hasImage: bool)
    requires AllOverlays(u) == AllOverlays(t)
    ensures Finish(Finish(w, t, hasImage).0, u, hasImage) == (Finish(w, t, hasImage).0, false)
  {
  }

  /** The first refresh always rebuilds a model's image, even with no
      overlays at all, since the empty cache differs from every list. */
  lemma FirstFinishRebuilds(t: DataTable)
    ensures Finish(Start, t, true).1
  {
  }

  /** Once a model with an image has been refreshed, its image shows the
      cached overlays, and every later refresh keeps it so. */
  predicate ImageMatchesCache(w: Window) {
    w.lastOverlays.Some? ==> w.image == w.lastOverlays
  }

  lemma FinishKeepsImageInStep(w: Window, t: DataTable)
    requires ImageMatchesCache(w)
    ensures ImageMatchesCache(Finish(w, t, true).0)
    ensures Finish(w, t, true).0.image == Some(AllOverlays(t))
  {
  }

  // ================================================================ the sidebar

  /** The toggle buttons as built: only the first is active. */
  function InitialButtons(n: nat): (b: seq<bool>)
    ensures |b| == n && forall i :: 0 <= i < n ==> (b[i] <==> i == 0)
  {
    seq(n, i => i == 0)
  }

  /** `on_tab_clicked`: every button is set to whether it is the clicked
      one (with its handler blocked, so no further clicks follow), and the
      clicked tab becomes the visible one. */
  function TabClicked(buttons: seq<bool>, idx: nat, name: string): (r: (seq<bool>, string))
    ensures |r.0| == |buttons|
    ensures forall i :: 0 <= i < |r.0| ==> (r.0[i] <==> i == idx)
    ensures r.1 == name
  {
    (seq(|buttons|, i => i == idx), name)
  }

  /** After a click on a tab, exactly the clicked button is active,
      whatever was active before. */
  lemma ExactlyClickedActive(buttons: seq<bool>, idx: nat, name: string)
    requires idx < |buttons|
    ensures var b := TabClicked(buttons, idx, name).0;
      b[idx] && forall i, j :: 0 <= i < |b| && 0 <= j < |b| && b[i] && b[j] ==> i == j
  {
  }

  /** Clicking the tab that is already shown changes nothing. */
  lemma ClickShownTab(n: nat, name: string)
    requires n > 0
    ensures TabClicked(InitialButtons(n), 0, name).0 == InitialButtons(n)
  {
  }
}

=== FILE: usb_topology.dfy ===
/** Expansion-card resolution: the `lsusb -t` tree becomes a map from
    (bus, device number) to port, every `lsusb` line is split into tokens
    and classified by an ordered chain of substring tests, and each
    classified device is written into a fixed-length array of card images
    through a port-to-slot table, with an overflow rule for indices past
    the end of the array. */
module UsbTopology {
  import opened Wrappers
  import opened Text
  import opened Overlays

  // ================================================================ tree

  /** Length of the run of ASCII digits at the front of `s` (the greedy
      `\d+` of the patterns; no backtracking is ever needed because every
      digit run in them is followed by a non-digit literal). */
  function DigitRun(s: string): (n: nat)
    ensures n <= |s|
    ensures AllDigits(s[..n])
    ensures n < |s| ==> !IsDigit(s[n])
  {
    if |s| > 0 && IsDigit(s[0]) then
      var m := DigitRun(s[1..]);
      assert s[..1 + m] == [s[0]] + s[1..][..m];
      1 + m
    else 0
  }

  /** Matches `lit` followed by `\d+` at the front of `s`, returning the
      digits and the remaining text. */
  function LiteralDigits(s: string, lit: string): (r: Option<(string, string)>)
    ensures r.Some? ==> r.value.0 != "" && AllDigits(r.value.0)
    ensures r.Some? ==> s == lit + r.value.0 + r.value.1
  {
    if StartsWith(s, lit) then
      var rest := s[|lit|..];
      var n := DigitRun(rest);
      if n == 0 then None
      else
        assert s == lit + rest[..n] + rest[n..];
        Some((rest[..n], rest[n..]))
    else None
  }

  /** `re.match(r"/:  Bus (\d+)\.Port (\d+): Dev (\d+),", line)`: the bus
      digits of a root-hub line, exactly as written (not padded). */
  function MatchRoot(line: string): (bus: Option<string>)
    ensures bus.Some? ==> bus.value != "" && AllDigits(bus.value)
  {
    match LiteralDigits(line, "/:  Bus ")
    case None => None
    case Some((bus, r1)) =>
      match LiteralDigits(r1, ".Port ")
      case None => None
      case Some((_, r2)) =>
        match LiteralDigits(r2, ": Dev ")
        case None => None
        case Some((_, r3)) => if StartsWith(r3, ",") then Some(bus) else None
  }

  /** `re.match(r"\s*\|__ Port (\d+): Dev (\d+),", line)`: the port and
      device digits of a child line, at any indentation. */
  function MatchChild(line: string): (r: Option<(string, string)>)
    ensures r.Some? ==> r.value.0 != "" && AllDigits(r.value.0)
    ensures r.Some? ==> r.value.1 != "" && AllDigits(r.value.1)
  {
    var rest := line[LeadingSpace(line)..];
    match LiteralDigits(rest, "|__ Port ")
    case None => None
    case Some((port, r1)) =>
      match LiteralDigits(r1, ": Dev ")
      case None => None
      case Some((dev, r2)) => if StartsWith(r2, ",") then Some((port, dev)) else None
  }

  /** A root-hub line as `lsusb -t` prints it. */
  function RootLine(bus: string, port: string, dev: string, tail: string): string {
    "/:  Bus " + (bus + (".Port " + (port + (": Dev " + (dev + ("," + tail))))))
  }

  /** A child line as `lsusb -t` prints it, behind some indentation. */
  function ChildLine(indent: string, port: string, dev: string, tail: string): string {
    indent + ("|__ Port " + (port + (": Dev " + (dev + ("," + tail)))))
  }

  lemma {:induction false} DigitRunOf(d: string, rest: string)
    requires AllDigits(d)
    requires |rest| > 0 && !IsDigit(rest[0])
    ensures DigitRun(d + rest) == |d|
    decreases |d|
  {
    if |d| > 0 {
      assert (d + rest)[1..] == d[1..] + rest;
      DigitRunOf(d[1..], rest);
    } else {
      assert d + rest == rest;
    }
  }

  lemma LiteralDigitsOf(lit: string, d: string, rest: string)
    requires d != "" && AllDigits(d)
    requires |rest| > 0 && !IsDigit(rest[0])
    ensures LiteralDigits(lit + (d + rest), lit) == Some((d, rest))
  {
    var s := lit + (d + rest);
    assert s[..|lit|] == lit;
    assert s[|lit|..] == d + rest;
    DigitRunOf(d, rest);
    assert (d + rest)[..|d|] == d;
    assert (d + rest)[|d|..] == rest;
  }

  /** The root pattern reads back the bus of any root line it is shown. */
  lemma MatchRootLine(bus: string, port: string, dev: string, tail: string)
    requires bus != "" && AllDigits(bus)
    requires port != "" && AllDigits(port)
    requires dev != "" && AllDigits(dev)
    ensures MatchRoot(RootLine(bus, port, dev, tail)) == Some(bus)
  {
    var r3 := "," + tail;
    var r2 := ": Dev " + (dev + r3);
    var r1 := ".Port " + (port + r2);
    assert r1[0] == '.' && r2[0] == ':' && r3[0] == ',';
    LiteralDigitsOf("/:  Bus ", bus, r1);
    LiteralDigitsOf(".Port ", port, r2);
    LiteralDigitsOf(": Dev ", dev, r3);
    StartsWithPrefix(",", tail);
    MatchRootSteps(RootLine(bus, port, dev, tail), bus, r1, port, r2, dev, r3);
  }

  /** The three captures of the root pattern, then the comma. */
  lemma MatchRootSteps(line: string, bus: string, r1: string, port: string, r2: string, dev: string, r3: string)
    requires LiteralDigits(line, "/:  Bus ") == Some((bus, r1))
    requires LiteralDigits(r1, ".Port ") == Some((port, r2))
    requires LiteralDigits(r2, ": Dev ") == Some((dev, r3))
    requires StartsWith(r3, ",")
    ensures MatchRoot(line) == Some(bus)
  {
  }

  /** The child pattern reads back port and device of a child line at any
      indentation depth. */
  lemma MatchChildLine(indent: string, port: string, dev: string, tail: string)
    requires AllSpace(indent)
    requires port != "" && AllDigits(port)
    requires dev != "" && AllDigits(dev)
    ensures MatchChild(ChildLine(indent, port, dev, tail)) == Some((port, dev))
  {
    var r2 := "," + tail;
    var r1 := ": Dev " + (dev + r2);
    var body := "|__ Port " + (port + r1);
    var line := ChildLine(indent, port, dev, tail);
    assert line[LeadingSpace(line)..] == body by {
      assert body[0] == '|';
      LeadingSpaceOf(indent, body);
      assert line[|indent|..] == body;
    }
    assert r1[0] == ':' && r2[0] == ',';
    LiteralDigitsOf("|__ Port ", port, r1);
    LiteralDigitsOf(": Dev ", dev, r2);
    StartsWithPrefix(",", tail);
    MatchChildSteps(line, body, port, r1, dev, r2);
  }

  /** The child pattern after the indentation: both captures, then the
      comma. */
  lemma MatchChildSteps(line: string, body: string, port: string, r1: string, dev: string, r2: string)
    requires line[LeadingSpace(line)..] == body
    requires LiteralDigits(body, "|__ Port ") == Some((port, r1))
    requires LiteralDigits(r1, ": Dev ") == Some((dev, r2))
    requires StartsWith(r2, ",")
    ensures MatchChild(line) == Some((port, dev))
  {
  }

  /** Key of the correlation map: bus text as captured, device number
      zero-padded to three digits. */
  type Key = (string, string)

  datatype TreeState = TreeState(currentBus: Option<string>, devToPort: map<Key, string>)

  /** What the tree loop keeps: a bus, when known, is a digit run, and
      every key and port is a digit run of at least three characters. */
  predicate GoodTree(st: TreeState) {
    && (st.currentBus.Some? ==> st.currentBus.value != "" && AllDigits(st.currentBus.value))
    && GoodMap(st.devToPort)
  }

  predicate GoodMap(m: map<Key, string>) {
    forall k :: k in m ==> GoodEntry(k, m[k])
  }

  predicate GoodEntry(k: Key, port: string) {
    k.0 != "" && AllDigits(k.0) && |k.1| >= 3 && AllDigits(k.1) && |port| >= 3 && AllDigits(port)
  }

  /** One line of the tree loop: a root line sets the current bus; a child
      line, once a bus is known, records its zero-padded port under the
      key (bus text, zero-padded device). A later key overwrites. */
  function TreeStep(st: TreeState, line: string): TreeState {
    StepWith(st, MatchRoot(line), MatchChild(line))
  }

  /** The tree step given the line's two match results. */
  function StepWith(st: TreeState, root: Option<string>, child: Option<(string, string)>): TreeState {
    var bus := if root.Some? then root else st.currentBus;
    match child
    case Some((port, dev)) =>
      if bus.Some? then
        TreeState(bus, st.devToPort[(bus.value, ZFill(dev, 3)) := ZFill(port, 3)])
      else TreeState(bus, st.devToPort)
    case None => TreeState(bus, st.devToPort)
  }

  /** The tree loop run over `lines` from the start. */
  function TreeRun(lines: seq<string>): TreeState {
    if |lines| == 0 then TreeState(None, map[])
    else TreeStep(TreeRun(lines[..|lines| - 1]), lines[|lines| - 1])
  }

  /** Writing a well-formed entry keeps a map well formed. */
  lemma GoodMapUpdate(m: map<Key, string>, key: Key, port: string)
    requires GoodMap(m) && GoodEntry(key, port)
    ensures GoodMap(m[key := port])
  {
    var u := m[key := port];
    forall k | k in u
      ensures GoodEntry(k, u[k])
    {
      if k != key {
        assert k in m && u[k] == m[k];
      }
    }
  }

  /** A step on digit-run matches keeps the tree state well formed; only
      a root match moves the bus, and only a child match under a known bus
      touches the map. */
  lemma StepWithGood(st: TreeState, root: Option<string>, child: Option<(string, string)>)
    requires GoodTree(st)
    requires root.Some? ==> root.value != "" && AllDigits(root.value)
    requires child.Some? ==> AllDigits(child.value.0) && AllDigits(child.value.1)
    ensures GoodTree(StepWith(st, root, child))
    ensures StepWith(st, root, child).currentBus == if root.Some? then root else st.currentBus
    ensures child.None? || StepWith(st, root, child).currentBus.None? ==>
      StepWith(st, root, child).devToPort == st.devToPort
  {
    var bus := if root.Some? then root else st.currentBus;
    if child.Some? && bus.Some? {
      var (port, dev) := child.value;
      ZFillDigits(dev, 3);
      ZFillDigits(port, 3);
      GoodMapUpdate(st.devToPort, (bus.value, ZFill(dev, 3)), ZFill(port, 3));
    }
  }

  /** One tree line keeps the tree state well formed; only a root line
      moves the bus, and only a child line under a known bus touches the
      map. */
  lemma TreeStepGood(st: TreeState, line: string)
    requires GoodTree(st)
    ensures GoodTree(TreeStep(st, line))
    ensures TreeStep(st, line).currentBus == if MatchRoot(line).Some? then MatchRoot(line) else st.currentBus
    ensures MatchChild(line).None? || TreeStep(st, line).currentBus.None? ==> TreeStep(st, line).devToPort == st.devToPort
  {
    StepWithGood(st, MatchRoot(line), MatchChild(line));
  }

  /** The tree loop only ever holds a digit bus and padded digit entries. */
  lemma {:induction false} TreeRunGood(lines: seq<string>)
    ensures GoodTree(TreeRun(lines))
    decreases |lines|
  {
    if |lines| > 0 {
      TreeRunGood(lines[..|lines| - 1]);
      TreeStepGood(TreeRun(lines[..|lines| - 1]), lines[|lines| - 1]);
    }
  }

  /** The `dev_to_port` map built from the `lsusb -t` lines: every key is
      a bus digit run and a device padded to at least three digits, and
      every port is padded to at least three digits. */
  function ParseTree(lines: seq<string>): (m: map<Key, string>)
    ensures GoodMap(m)
  {
    TreeRunGood(lines);
    TreeRun(lines).devToPort
  }

  /** The bus of the last root line among `lines`. */
  function LastRootBus(lines: seq<string>): Option<string> {
    if |lines| == 0 then None
    else if MatchRoot(lines[|lines| - 1]).Some? then MatchRoot(lines[|lines| - 1])
    else LastRootBus(lines[..|lines| - 1])
  }

  /** The entry line `i` contributes, if any: its key under the bus of the
      last root line at or before it, and its padded port. */
  function Emitted(lines: seq<string>, i: nat): Option<(Key, string)>
    requires i < |lines|
  {
    match MatchChild(lines[i])
    case None => None
    case Some((port, dev)) =>
      match LastRootBus(lines[..i + 1])
      case None => None
      case Some(bus) => Some(((bus, ZFill(dev, 3)), ZFill(port, 3)))
  }

  predicate EmitsKey(lines: seq<string>, i: nat, k: Key)
    requires i < |lines|
  {
    Emitted(lines, i).Some? && Emitted(lines, i).value.0 == k
  }

  lemma {:induction false} TreeRunBus(lines: seq<string>)
    ensures TreeRun(lines).currentBus == LastRootBus(lines)
    decreases |lines|
  {
    if |lines| > 0 {
      TreeRunBus(lines[..|lines| - 1]);
    }
  }

  lemma EmittedPrefix(lines: seq<string>, n: nat, i: nat)
    requires i < n <= |lines|
    ensures Emitted(lines[..n], i) == Emitted(lines, i)
  {
    assert lines[..n][i] == lines[i];
    assert lines[..n][..i + 1] == lines[..i + 1];
  }

  /** The tree loop's effect on the map is the entry the last line emits. */
  lemma TreeRunLast(lines: seq<string>)
    requires |lines| > 0
    ensures Emitted(lines, |lines| - 1).None? ==> ParseTree(lines) == ParseTree(lines[..|lines| - 1])
    ensures Emitted(lines, |lines| - 1).Some? ==>
      ParseTree(lines) == ParseTree(lines[..|lines| - 1])[Emitted(lines, |lines| - 1).value.0 := Emitted(lines, |lines| - 1).value.1]
  {
    var n := |lines| - 1;
    var line := lines[n];
    var st := TreeRun(lines[..n]);
    assert TreeRun(lines) == TreeStep(st, line);
    TreeRunBus(lines[..n]);
    assert lines[..n + 1] == lines;
    var bus := LastRootBus(lines);
    assert bus == if MatchRoot(line).Some? then MatchRoot(line) else st.currentBus;
    match MatchChild(line)
    case None =>
      assert Emitted(lines, n) == None;
    case Some((port, dev)) =>
      assert Emitted(lines, n) == if bus.Some? then Some(((bus.value, ZFill(dev, 3)), ZFill(port, 3))) else None;
  }

  /** The entry each line emits, in line order. */
  function EmittedAll(lines: seq<string>): (es: seq<Option<(Key, string)>>)
    ensures |es| == |lines|
  {
    seq(|lines|, i requires 0 <= i < |lines| => Emitted(lines, i))
  }

  /** A map built by writing entries in order, later ones overwriting. */
  function Overwrite(es: seq<Option<(Key, string)>>): map<Key, string> {
    if |es| == 0 then map[]
    else
      var m := Overwrite(es[..|es| - 1]);
      match es[|es| - 1]
      case None => m
      case Some((k, v)) => m[k := v]
  }

  /** The tree loop writes the emitted entries in line order. */
  lemma {:induction false} ParseTreeOverwrites(lines: seq<string>)
    ensures ParseTree(lines) == Overwrite(EmittedAll(lines))
    decreases |lines|
  {
    if |lines| > 0 {
      var n := |lines| - 1;
      ParseTreeOverwrites(lines[..n]);
      TreeRunLast(lines);
      forall i | 0 <= i < n
        ensures EmittedAll(lines)[..n][i] == EmittedAll(lines[..n])[i]
      {
        EmittedPrefix(lines, n, i);
      }
      assert EmittedAll(lines)[..n] == EmittedAll(lines[..n]);
    }
  }

  predicate WritesKey(es: seq<Option<(Key, string)>>, i: int, k: Key)
    requires 0 <= i < |es|
  {
    es[i].Some? && es[i].value.0 == k
  }

  lemma {:induction false} OverwriteKeys(es: seq<Option<(Key, string)>>, k: Key)
    ensures k in Overwrite(es) <==> exists i :: 0 <= i < |es| && WritesKey(es, i, k)
    decreases |es|
  {
    if |es| > 0 {
      var n := |es| - 1;
      OverwriteKeys(es[..n], k);
      match es[n] {
        case None =>
          assert Overwrite(es) == Overwrite(es[..n]);
        case Some((k2, v)) =>
          assert Overwrite(es) == Overwrite(es[..n])[k2 := v];
          if k2 == k {
            assert WritesKey(es, n, k);
          }
      }
      if k in Overwrite(es[..n]) {
        var i :| 0 <= i < n && WritesKey(es[..n], i, k);
        assert es[..n][i] == es[i];
        assert WritesKey(es, i, k);
      }
      if exists i :: 0 <= i < |es| && WritesKey(es, i, k) {
        var i :| 0 <= i < |es| && WritesKey(es, i, k);
        if i < n {
          assert es[..n][i] == es[i];
          assert WritesKey(es[..n], i, k);
        }
      }
    }
  }

  lemma {:induction false} OverwriteLastWins(es: seq<Option<(Key, string)>>, i: int, k: Key)
    requires 0 <= i < |es| && WritesKey(es, i, k)
    requires forall j :: i < j < |es| ==> !WritesKey(es, j, k)
    ensures k in Overwrite(es) && Overwrite(es)[k] == es[i].value.1
    decreases |es|
  {
    var n := |es| - 1;
    if i < n {
      assert !WritesKey(es, n, k);
      assert WritesKey(es[..n], i, k);
      forall j | i < j < n
        ensures !WritesKey(es[..n], j, k)
      {
        assert es[..n][j] == es[j];
        assert !WritesKey(es, j, k);
      }
      OverwriteLastWins(es[..n], i, k);
    }
  }

  /** The correlation map holds exactly the keys some child line emits. */
  lemma ParseTreeKeys(lines: seq<string>, k: Key)
    ensures k in ParseTree(lines) <==> exists i: nat :: i < |lines| && EmitsKey(lines, i, k)
  {
    ParseTreeOverwrites(lines);
    OverwriteKeys(EmittedAll(lines), k);
    assert forall i :: 0 <= i < |lines| ==> (WritesKey(EmittedAll(lines), i, k) <==> EmitsKey(lines, i, k));
  }

  /** Each key holds the port of the last line that emits it. */
  lemma ParseTreeLastWins(lines: seq<string>, i: nat, k: Key)
    requires i < |lines| && EmitsKey(lines, i, k)
    requires forall j: nat :: i < j < |lines| ==> !EmitsKey(lines, j, k)
    ensures k in ParseTree(lines) && ParseTree(lines)[k] == Emitted(lines, i).value.1
  {
    var es := EmittedAll(lines);
    ParseTreeOverwrites(lines);
    assert es[i] == Emitted(lines, i);
    forall j | i < j < |es|
      ensures !WritesKey(es, j, k)
    {
      assert es[j] == Emitted(lines, j) && !EmitsKey(lines, j, k);
    }
    OverwriteLastWins(es, i, k);
  }

  /** A child line seen before any root line adds nothing: without a root
      line the map stays empty. */
  lemma {:induction false} ParseTreeWithoutRoot(lines: seq<string>)
    requires forall i :: 0 <= i < |lines| ==> MatchRoot(lines[i]).None?
    ensures ParseTree(lines) == map[]
    decreases |lines|
  {
    if |lines| > 0 {
      ParseTreeWithoutRoot(lines[..|lines| - 1]);
      TreeRunBus(lines[..|lines| - 1]);
      NoRootBus(lines[..|lines| - 1]);
    }
  }

  lemma {:induction false} NoRootBus(lines: seq<string>)
    requires forall i :: 0 <= i < |lines| ==> MatchRoot(lines[i]).None?
    ensures LastRootBus(lines) == None
    decreases |lines|
  {
    if |lines| > 0 {
      NoRootBus(lines[..|lines| - 1]);
    }
  }

  // ================================================================ lines

  /** `parts = line.strip().split()`; a line with at least six tokens
      yields bus = token 2 and device = token 4 minus its last character. */
  function ParseDeviceLine(line: string): (r: Option<(string, string)>)
    ensures r.Some? <==> |Split(Strip(line))| >= 6
  {
    var parts := Split(Strip(line));
    if |parts| >= 6 then Some((parts[1], parts[3][..|parts[3]| - 1])) else None
  }

  /** An `lsusb` line: "Bus B Device D: ID V:P description". */
  function LsusbLine(bus: string, dev: string, id: string, words: seq<string>): string {
    Join(["Bus", bus, "Device", dev + ":", "ID", id] + words, " ")
  }

  predicate Word(t: string) {
    t != "" && NoSpace(t)
  }

  /** The line parser recovers bus and device of every `lsusb` line. */
  lemma ParseLsusbLine(bus: string, dev: string, id: string, words: seq<string>)
    requires Word(bus) && NoSpace(dev) && Word(id)
    requires forall i :: 0 <= i < |words| ==> Word(words[i])
    ensures ParseDeviceLine(LsusbLine(bus, dev, id, words)) == Some((bus, dev))
  {
    var ts := ["Bus", bus, "Device", dev + ":", "ID", id] + words;
    assert Word(dev + ":") by {
      assert forall k :: 0 <= k < |dev| ==> (dev + ":")[k] == dev[k];
    }
    assert forall i :: 0 <= i < |ts| ==> Word(ts[i]) by {
      assert Word("Bus") && Word("Device") && Word("ID");
    }
    ParseTokens(ts);
    assert ts[1] == bus && ts[3] == dev + ":";
    assert (dev + ":")[..|dev + ":"| - 1] == dev;
  }

  /** Six or more words joined by single spaces: the second and the fourth
      (without its last character) come back. */
  lemma ParseTokens(ts: seq<string>)
    requires |ts| >= 6 && Word(ts[3]) && forall i :: 0 <= i < |ts| ==> Word(ts[i])
    ensures ParseDeviceLine(Join(ts, " ")) == Some((ts[1], ts[3][..|ts[3]| - 1]))
  {
    JoinTrimmed(ts);
    StripTrimmed(Join(ts, " "));
    SplitJoin(ts);
  }

  // ================================================================ classify

  datatype Category = Hdmi | UsbA | Storage | MicroSd

  /** The card label the classifier assigns. */
  function Label(c: Category): string {
    match c
    case Hdmi => "HDMI Expansion Card"
    case UsbA => "USB-A Expansion Card"
    case Storage => "Storage Expansion Card"
    case MicroSd => "Micro SD Expansion Card"
  }

  /** `expansion_card_map[label]`. */
  function Image(c: Category): string {
    match c
    case Hdmi => "expansion_card_hdmi.png"
    case UsbA => "expansion_card_usb_a.png"
    case Storage => "expansion_card_storage.png"
    case MicroSd => "expansion_card_micro_sd.png"
  }

  /** The image of an empty slot (the USB-C card). */
  const DefaultImage: string := "expansion_card_usb_c.png"

  predicate HasAny(s: string, subs: seq<string>) {
    exists i :: 0 <= i < |subs| && Contains(s, subs[i])
  }

  /** The classifier chain over the whole stripped line. Case-insensitive
      tests look in the upper-cased line; the digit and id tests look in
      the line as written. First match wins. */
  function Classify(line: string): (r: Option<Category>)
    ensures Contains(Upper(line), "HDMI") ==> r == Some(Hdmi)
    ensures Contains(Upper(line), "USB DISK") || Contains(line, "090c:3350") ==> r.Some?
    ensures r == Some(Storage) ==> Contains(line, "13fe:6500") || Contains(Upper(line), "USB DISK 3.2")
  {
    var up := Upper(line);
    if Contains(up, "HDMI") then Some(Hdmi)
    else if Contains(up, "USB3.0") || Contains(up, "USB2.0") || Contains(up, "USB-A") then Some(UsbA)
    else if Contains(up, "FRAMEWORK") && (Contains(line, "0001") || Contains(line, "0003")) then Some(UsbA)
    else if Contains(up, "FRAMEWORK") && Contains(line, "0002") then Some(Hdmi)
    else if Contains(line, "13fe:6500") || Contains(up, "USB DISK 3.2") then Some(Storage)
    else if Contains(line, "090c:3350") || Contains(up, "USB DISK") then Some(MicroSd)
    else None
  }

  /** A rule of the chain written as data. */
  datatype Test =
    | UpperHasAny(subs: seq<string>)
    | FrameworkAnd(subs: seq<string>)
    | RawOrUpper(raw: string, upper: string)

  datatype Rule = Rule(test: Test, category: Category)

  predicate Holds(t: Test, line: string) {
    match t
    case UpperHasAny(subs) => HasAny(Upper(line), subs)
    case FrameworkAnd(subs) => Contains(Upper(line), "FRAMEWORK") && HasAny(line, subs)
    case RawOrUpper(raw, upper) => Contains(line, raw) || Contains(Upper(line), upper)
  }

  /** The classifier as an ordered rule table. */
  const ClassifierRules: seq<Rule> := [
    Rule(UpperHasAny(["HDMI"]), Hdmi),
    Rule(UpperHasAny(["USB3.0", "USB2.0", "USB-A"]), UsbA),
    Rule(FrameworkAnd(["0001", "0003"]), UsbA),
    Rule(FrameworkAnd(["0002"]), Hdmi),
    Rule(RawOrUpper("13fe:6500", "USB DISK 3.2"), Storage),
    Rule(RawOrUpper("090c:3350", "USB DISK"), MicroSd)
  ]

  /** The category of the first rule that holds. */
  function FirstMatch(rules: seq<Rule>, line: string): (r: Option<Category>)
    ensures r.None? <==> forall i :: 0 <= i < |rules| ==> !Holds(rules[i].test, line)
    ensures r.Some? ==> exists i :: (0 <= i < |rules| && Holds(rules[i].test, line)
      && rules[i].category == r.value
      && forall j :: 0 <= j < i ==> !Holds(rules[j].test, line))
  {
    if |rules| == 0 then None
    else if Holds(rules[0].test, line) then Some(rules[0].category)
    else
      assert forall i :: 1 <= i < |rules| ==> rules[i] == rules[1..][i - 1];
      FirstMatch(rules[1..], line)
  }

  lemma HasAnyOne(s: string, a: string)
    ensures HasAny(s, [a]) <==> Contains(s, a)
  {
    if Contains(s, a) {
      assert [a][0] == a;
    }
  }

  lemma HasAnyTwo(s: string, a: string, b: string)
    ensures HasAny(s, [a, b]) <==> Contains(s, a) || Contains(s, b)
  {
    if Contains(s, b) {
      assert [a, b][1] == b;
    }
    if Contains(s, a) {
      assert [a, b][0] == a;
    }
  }

  lemma HasAnyThree(s: string, a: string, b: string, c: string)
    ensures HasAny(s, [a, b, c]) <==> Contains(s, a) || Contains(s, b) || Contains(s, c)
  {
    if Contains(s, c) {
      assert [a, b, c][2] == c;
    }
    if Contains(s, b) {
      assert [a, b, c][1] == b;
    }
    if Contains(s, a) {
      assert [a, b, c][0] == a;
    }
  }

  /** The if-chain of the program and the rule table agree on every line. */
  lemma FirstMatchCons(r: Rule, rest: seq<Rule>, line: string)
    ensures FirstMatch([r] + rest, line) ==
      if Holds(r.test, line) then Some(r.category) else FirstMatch(rest, line)
  {
    assert ([r] + rest)[1..] == rest;
  }

  /** The if-chain of the program and the rule table agree on every line. */
  lemma ClassifyIsFirstMatch(line: string)
    ensures Classify(line) == FirstMatch(ClassifierRules, line)
  {
    var up := Upper(line);
    HasAnyOne(up, "HDMI");
    HasAnyThree(up, "USB3.0", "USB2.0", "USB-A");
    HasAnyTwo(line, "0001", "0003");
    HasAnyOne(line, "0002");
    var r6: seq<Rule> := [Rule(RawOrUpper("090c:3350", "USB DISK"), MicroSd)];
    var r5 := [Rule(RawOrUpper("13fe:6500", "USB DISK 3.2"), Storage)] + r6;
    var r4 := [Rule(FrameworkAnd(["0002"]), Hdmi)] + r5;
    var r3 := [Rule(FrameworkAnd(["0001", "0003"]), UsbA)] + r4;
    var r2 := [Rule(UpperHasAny(["USB3.0", "USB2.0", "USB-A"]), UsbA)] + r3;
    assert ClassifierRules == [Rule(UpperHasAny(["HDMI"]), Hdmi)] + r2;
    FirstMatchCons(Rule(UpperHasAny(["HDMI"]), Hdmi), r2, line);
    FirstMatchCons(Rule(UpperHasAny(["USB3.0", "USB2.0", "USB-A"]), UsbA), r3, line);
    FirstMatchCons(Rule(FrameworkAnd(["0001", "0003"]), UsbA), r4, line);
    FirstMatchCons(Rule(FrameworkAnd(["0002"]), Hdmi), r5, line);
    FirstMatchCons(Rule(RawOrUpper("13fe:6500", "USB DISK 3.2"), Storage), r6, line);
    FirstMatchCons(Rule(RawOrUpper("090c:3350", "USB DISK"), MicroSd), [], line);
    assert r6 == [Rule(RawOrUpper("090c:3350", "USB DISK"), MicroSd)] + [];
  }

  /** Rule 5 precedes rule 6: a line mentioning "USB DISK 3.2" is never a
      Micro SD card. */
  lemma StorageBeforeMicroSd(line: string)
    requires Contains(Upper(line), "USB DISK 3.2")
    ensures Classify(line) != Some(MicroSd)
  {
  }

  // ================================================================ slots

  /** `[DEFAULT] * ports`: Python repeats a list zero times for a
      non-positive count. */
  function DefaultSlots(ports: int): (r: seq<string>)
    ensures |r| == if ports < 0 then 0 else ports
    ensures forall i :: 0 <= i < |r| ==> r[i] == DefaultImage
  {
    seq(if ports < 0 then 0 else ports, _ => DefaultImage)
  }

  /** The first slot still holding the default image. */
  function FirstDefault(slots: seq<string>): (r: Option<nat>)
    ensures r.Some? ==> r.value < |slots| && slots[r.value] == DefaultImage
    ensures r.Some? ==> forall j :: 0 <= j < r.value ==> slots[j] != DefaultImage
    ensures r.None? ==> forall j :: 0 <= j < |slots| ==> slots[j] != DefaultImage
  {
    if |slots| == 0 then None
    else if slots[0] == DefaultImage then Some(0)
    else
      match FirstDefault(slots[1..])
      case None => None
      case Some(i) => Some(i + 1)
  }

  /** Places image `img` for slot index `idx` (already known to be
      non-negative): an in-range index overwrites that slot; an index at or
      past `ports` fills the first slot still holding the default, or drops
      the image when none is left. */
  function Place(slots: seq<string>, img: string, idx: nat, ports: int): (r: seq<string>)
    ensures |r| == |slots|
    ensures idx < ports && idx < |slots| ==> r[idx] == img
    ensures idx < ports ==> forall j :: 0 <= j < |slots| && j != idx ==> r[j] == slots[j]
    ensures idx >= ports ==> forall j :: 0 <= j < |slots| && slots[j] != DefaultImage ==> r[j] == slots[j]
    ensures idx >= ports ==> forall j :: 0 <= j < |slots| && r[j] != slots[j] ==>
      r[j] == img && forall i :: 0 <= i < j ==> slots[i] != DefaultImage
    ensures idx >= ports && (forall j :: 0 <= j < |slots| ==> slots[j] != DefaultImage) ==> r == slots
  {
    if idx >= ports then
      match FirstDefault(slots)
      case Some(i) => slots[i := img]
      case None => slots
    else if idx < |slots| then slots[idx := img]
    else slots
  }

  /** `port_idx`: the slot index of the port the device is plugged into,
      when the tree map knows the device and the slot table knows the
      port. */
  function SlotIndex(corr: map<Key, string>, portMap: map<string, int>, bus: string, dev: string): (r: Option<int>)
    ensures r.Some? <==> (bus, dev) in corr && corr[(bus, dev)] in portMap
    ensures r.Some? ==> r.value in portMap.Values
  {
    if (bus, dev) in corr && corr[(bus, dev)] in portMap then Some(portMap[corr[(bus, dev)]])
    else None
  }

  /** What one `lsusb` line asks to place: its category and slot index,
      when it has six tokens, is classified and has a non-negative index. */
  function Placement(corr: map<Key, string>, portMap: map<string, int>, line: string): (r: Option<(Category, nat)>)
    ensures r.Some? <==> (ParseDeviceLine(line).Some? && Classify(Strip(line)).Some?
      && SlotIndex(corr, portMap, ParseDeviceLine(line).value.0, ParseDeviceLine(line).value.1).Some?
      && SlotIndex(corr, portMap, ParseDeviceLine(line).value.0, ParseDeviceLine(line).value.1).value >= 0)
    ensures r.Some? ==> r.value.0 == Classify(Strip(line)).value && (r.value.1 as int) in portMap.Values
  {
    match ParseDeviceLine(line)
    case None => None
    case Some((bus, dev)) =>
      var category := Classify(Strip(line));
      var idx := SlotIndex(corr, portMap, bus, dev);
      if category.Some? && idx.Some? && 0 <= idx.value then Some((category.value, idx.value as nat))
      else None
  }

  /** The result list after every `lsusb` line, in order. */
  function Resolve(lines: seq<string>, corr: map<Key, string>, portMap: map<string, int>, ports: int): (r: seq<string>)
    ensures |r| == if ports < 0 then 0 else ports
  {
    if |lines| == 0 then DefaultSlots(ports)
    else
      var slots := Resolve(lines[..|lines| - 1], corr, portMap, ports);
      match Placement(corr, portMap, lines[|lines| - 1])
      case None => slots
      case Some((c, idx)) => Place(slots, Image(c), idx, ports)
  }

  /** The port-to-slot table of `ExpansionCards` and its widget copy. */
  const ShippedSlotMap: map<string, int> :=
    map["001" := 1, "002" := 2, "003" := 3, "004" := 2, "005" := 2, "006" := 0]

  /** Every slot index the shipped table produces lies in 0..3, and ports
      002, 004 and 005 share slot 2: with four ports the overflow rule is
      never reached. */
  lemma ShippedSlotMapInRange()
    ensures forall p :: p in ShippedSlotMap ==> 0 <= ShippedSlotMap[p] < 4
    ensures ShippedSlotMap["002"] == ShippedSlotMap["004"] == ShippedSlotMap["005"] == 2
  {
  }

  /** The category placed in `slot` by the last line that targets it. */
  function LastWriter(lines: seq<string>, corr: map<Key, string>, portMap: map<string, int>, slot: nat): Option<Category> {
    if |lines| == 0 then None
    else
      match Placement(corr, portMap, lines[|lines| - 1])
      case Some((c, idx)) =>
        if idx == slot then Some(c) else LastWriter(lines[..|lines| - 1], corr, portMap, slot)
      case None => LastWriter(lines[..|lines| - 1], corr, portMap, slot)
  }

  /** When every index of the slot table is in range, each slot ends up
      with the image of the last line that targets it (the later line wins),
      and a slot no line targets keeps the default. */
  lemma {:induction false} ResolveLastWriterWins(lines: seq<string>, corr: map<Key, string>, portMap: map<string, int>, ports: int, slot: nat)
    requires forall p :: p in portMap ==> 0 <= portMap[p] < ports
    requires slot < ports
    ensures Resolve(lines, corr, portMap, ports)[slot] ==
      match LastWriter(lines, corr, portMap, slot)
      case Some(c) => Image(c)
      case None => DefaultImage
    decreases |lines|
  {
    if |lines| > 0 {
      ResolveLastWriterWins(lines[..|lines| - 1], corr, portMap, ports, slot);
      match Placement(corr, portMap, lines[|lines| - 1])
      case None =>
      case Some((c, idx)) =>
        var line := lines[|lines| - 1];
        var pd := ParseDeviceLine(line).value;
        assert SlotIndex(corr, portMap, pd.0, pd.1) == Some(idx as int);
        assert idx < ports;
    }
  }

  /** A line that is unclassified, not in the tree map or on a port the
      table does not list leaves the result unchanged. */
  lemma ResolveSkipsUnplaced(lines: seq<string>, line: string, corr: map<Key, string>, portMap: map<string, int>, ports: int)
    requires || ParseDeviceLine(line).None?
             || Classify(Strip(line)).None?
             || SlotIndex(corr, portMap, ParseDeviceLine(line).value.0, ParseDeviceLine(line).value.1).None?
    ensures Resolve(lines + [line], corr, portMap, ports) == Resolve(lines, corr, portMap, ports)
  {
    assert (lines + [line])[..|lines|] == lines;
  }

  /** With an empty tree map no line is ever placed. */
  lemma {:induction false} ResolveWithoutTree(lines: seq<string>, portMap: map<string, int>, ports: int)
    ensures Resolve(lines, map[], portMap, ports) == DefaultSlots(ports)
    decreases |lines|
  {
    if |lines| > 0 {
      ResolveWithoutTree(lines[..|lines| - 1], portMap, ports);
    }
  }

  /** Two slots and three devices resolving to indices 0, 5 and 5: the
      first fills slot 0, the second overflows into slot 1 and the third
      finds no default slot left and is dropped. */
  lemma OverflowScenario(a: Category, b: Category, c: Category)
    ensures Place(Place(Place(DefaultSlots(2), Image(a), 0, 2), Image(b), 5, 2), Image(c), 5, 2)
      == [Image(a), Image(b)]
  {
    var s1 := Place(DefaultSlots(2), Image(a), 0, 2);
    assert s1 == [Image(a), DefaultImage];
    var s2 := Place(s1, Image(b), 5, 2);
    assert FirstDefault(s1) == Some(1);
    assert s2 == [Image(a), Image(b)];
  }

  /** A root line followed by one child line yields exactly one key: the
      root line's bus text as written, the device padded to three digits. */
  lemma {:induction false} TwoLineTree(rootBus: string, rootPort: string, rootDev: string, rootTail: string,
                                       indent: string, port: string, dev: string, tail: string)
    requires rootBus != "" && AllDigits(rootBus)
    requires rootPort != "" && AllDigits(rootPort)
    requires rootDev != "" && AllDigits(rootDev)
    requires AllSpace(indent)
    requires port != "" && AllDigits(port)
    requires dev != "" && AllDigits(dev)
    ensures ParseTree([RootLine(rootBus, rootPort, rootDev, rootTail), ChildLine(indent, port, dev, tail)])
      == map[(rootBus, ZFill(dev, 3)) := ZFill(port, 3)]
  {
    var r := RootLine(rootBus, rootPort, rootDev, rootTail);
    var c := ChildLine(indent, port, dev, tail);
    MatchRootLine(rootBus, rootPort, rootDev, rootTail);
    MatchChildLine(indent, port, dev, tail);
    RootLineNotChild(rootBus, rootPort, rootDev, rootTail);
    ChildLineNotRoot(indent, port, dev, tail);
    RootThenChild(r, c, rootBus, port, dev);
  }

  /** A line the root pattern alone matches, then one the child pattern
      alone matches. */
  lemma RootThenChild(r: string, c: string, bus: string, port: string, dev: string)
    requires MatchRoot(r) == Some(bus) && MatchChild(r).None?
    requires MatchRoot(c).None? && MatchChild(c) == Some((port, dev))
    ensures ParseTree([r, c]) == map[(bus, ZFill(dev, 3)) := ZFill(port, 3)]
  {
    TreeRunPair(r, c);
    StepRoot(TreeState(None, map[]), r, bus);
    StepChild(TreeState(Some(bus), map[]), c, port, dev);
  }

  /** The tree loop over two lines is two steps from the empty state. */
  lemma TreeRunPair(a: string, b: string)
    ensures TreeRun([a, b]) == TreeStep(TreeStep(TreeState(None, map[]), a), b)
  {
    TreeRunSnoc([], a);
    TreeRunSnoc([a], b);
    assert [] + [a] == [a] && [a] + [b] == [a, b];
  }

  /** The tree loop reads one more line. */
  lemma TreeRunSnoc(lines: seq<string>, line: string)
    ensures TreeRun(lines + [line]) == TreeStep(TreeRun(lines), line)
  {
    assert (lines + [line])[..|lines|] == lines;
  }

  lemma StepRoot(st: TreeState, line: string, bus: string)
    requires MatchRoot(line) == Some(bus) && MatchChild(line).None?
    ensures TreeStep(st, line) == TreeState(Some(bus), st.devToPort)
  {
  }

  lemma StepChild(st: TreeState, line: string, port: string, dev: string)
    requires MatchRoot(line).None? && MatchChild(line) == Some((port, dev)) && st.currentBus.Some?
    ensures TreeStep(st, line) ==
      TreeState(st.currentBus, st.devToPort[(st.currentBus.value, ZFill(dev, 3)) := ZFill(port, 3)])
  {
  }

  lemma RootLineNotChild(bus: string, port: string, dev: string, tail: string)
    ensures MatchChild(RootLine(bus, port, dev, tail)) == None
  {
    var r := RootLine(bus, port, dev, tail);
    assert r[0] == '/';
    assert LeadingSpace(r) == 0;
    assert r[0..] == r;
    assert !StartsWith(r, "|__ Port ");
  }

  lemma ChildLineNotRoot(indent: string, port: string, dev: string, tail: string)
    requires AllSpace(indent)
    ensures MatchRoot(ChildLine(indent, port, dev, tail)) == None
  {
    var c := ChildLine(indent, port, dev, tail);
    assert c[0] == '|' || IsSpace(c[0]) by {
      if |indent| > 0 {
        assert c[0] == indent[0];
      }
    }
    assert !StartsWith(c, "/:  Bus ");
  }

  /** The key stores the root line's bus as written, while the `lsusb`
      line is looked up with its own bus token: when the two spellings
      differ ("01" against "001") the card is never correlated and every
      slot stays at the default, whatever slot its port would map to. */
  lemma {:induction false} UnpaddedBusNeverMatches(rootBus: string, rootPort: string, rootDev: string,
                                                   indent: string, port: string, dev: string,
                                                   bus: string, id: string, words: seq<string>,
                                                   portMap: map<string, int>, ports: int)
    requires rootBus != "" && AllDigits(rootBus)
    requires rootPort != "" && AllDigits(rootPort)
    requires rootDev != "" && AllDigits(rootDev)
    requires AllSpace(indent)
    requires port != "" && AllDigits(port)
    requires dev != "" && AllDigits(dev)
    requires Word(bus) && Word(id) && forall i :: 0 <= i < |words| ==> Word(words[i])
    requires bus != rootBus
    ensures Resolve([LsusbLine(bus, ZFill(dev, 3), id, words)],
                    ParseTree([RootLine(rootBus, rootPort, rootDev, ""), ChildLine(indent, port, dev, "")]),
                    portMap, ports) == DefaultSlots(ports)
  {
    var padded := ZFill(dev, 3);
    var line := LsusbLine(bus, padded, id, words);
    var corr := ParseTree([RootLine(rootBus, rootPort, rootDev, ""), ChildLine(indent, port, dev, "")]);
    TwoLineTree(rootBus, rootPort, rootDev, "", indent, port, dev, "");
    assert corr == map[(rootBus, padded) := ZFill(port, 3)];
    ZFillDigits(dev, 3);
    ParseLsusbLine(bus, padded, id, words);
    UnkeyedLineSkipped(line, corr, portMap, ports);
  }

  lemma UnkeyedLineSkipped(line: string, corr: map<Key, string>, portMap: map<string, int>, ports: int)
    requires ParseDeviceLine(line).Some? && ParseDeviceLine(line).value !in corr
    ensures Resolve([line], corr, portMap, ports) == DefaultSlots(ports)
  {
    assert Placement(corr, portMap, line) == None;
    assert [line][..0] == [];
  }

  lemma ZFillDigits(s: string, w: nat)
    requires AllDigits(s)
    ensures AllDigits(ZFill(s, w)) && NoSpace(ZFill(s, w))
  {
    var r := ZFill(s, w);
    forall k | 0 <= k < |r|
      ensures IsDigit(r[k])
    {
      if k >= |r| - |s| {
        assert r[k] == r[|r| - |s|..][k - (|r| - |s|)];
      }
    }
  }

  // ================================================================ widgets

  /** `ExpansionCards.update`: `None` stands for an `lsusb` or `lsusb -t`
      call that raised; the result is then all defaults. */
  function ExpansionCardsUpdate(lsusb: Option<string>, lsusbTree: Option<string>, ports: int): (r: seq<string>)
    ensures |r| == if ports < 0 then 0 else ports
    ensures lsusb.None? || lsusbTree.None? ==> r == DefaultSlots(ports)
    ensures forall i :: 0 <= i < |r| ==> r[i] == DefaultImage || exists c :: r[i] == Image(c)
  {
    if lsusb.None? || lsusbTree.None? then DefaultSlots(ports)
    else
      var r := Resolve(SplitLines(lsusb.value), ParseTree(SplitLines(lsusbTree.value)), ShippedSlotMap, ports);
      ResolveImages(SplitLines(lsusb.value), ParseTree(SplitLines(lsusbTree.value)), ShippedSlotMap, ports);
      r
  }

  lemma {:induction false} ResolveImages(lines: seq<string>, corr: map<Key, string>, portMap: map<string, int>, ports: int)
    ensures forall i :: 0 <= i < |Resolve(lines, corr, portMap, ports)| ==>
      Resolve(lines, corr, portMap, ports)[i] == DefaultImage || exists c :: Resolve(lines, corr, portMap, ports)[i] == Image(c)
    decreases |lines|
  {
    if |lines| > 0 {
      ResolveImages(lines[..|lines| - 1], corr, portMap, ports);
    }
  }

  const CameraName: string := "Realtek Semiconductor Corp. Laptop Camera"

  const CameraOffOverlay: Overlay :=
    Overlay("camera_off", "overlays/framework-camera-off-{overlay_id}.png", None)

  /** The `data` dict of `ExpansionCardsWidget`. */
  datatype CardsData = CardsData(expansionCards: seq<string>, overlays: Option<seq<Overlay>>)

  /** Whether some `lsusb` line, whatever its token count, names the
      built-in camera. */
  predicate CameraFound(lines: seq<string>) {
    exists i :: 0 <= i < |lines| && Contains(lines[i], CameraName)
  }

  /** The camera is found in a concatenated output exactly when it is
      found in one of the parts. */
  lemma CameraFoundSplit(a: seq<string>, b: seq<string>)
    ensures CameraFound(a + b) <==> CameraFound(a) || CameraFound(b)
  {
    if CameraFound(a) {
      var i :| 0 <= i < |a| && Contains(a[i], CameraName);
      assert (a + b)[i] == a[i];
    }
    if CameraFound(b) {
      var i :| 0 <= i < |b| && Contains(b[i], CameraName);
      assert (a + b)[|a| + i] == b[i];
    }
    if CameraFound(a + b) {
      var i :| 0 <= i < |a + b| && Contains((a + b)[i], CameraName);
      if i < |a| {
        assert (a + b)[i] == a[i];
      } else {
        assert (a + b)[i] == b[i - |a|];
      }
    }
  }

  /** `ExpansionCardsWidget.update`. Its `dev_to_port` is created empty and
      never filled, so the same resolver runs with an empty tree map. */
  function WidgetUpdate(lsusb: Option<string>, ports: int): (d: CardsData)
    ensures d.expansionCards == DefaultSlots(ports)
    ensures d.overlays.Some? <==> (lsusb.None? || !CameraFound(SplitLines(lsusb.value)))
    ensures d.overlays.Some? ==> d.overlays.value == [CameraOffOverlay]
  {
    var lines := if lsusb.Some? then SplitLines(lsusb.value) else [];
    var result := Resolve(lines, map[], ShippedSlotMap, ports);
    ResolveWithoutTree(lines, ShippedSlotMap, ports);
    var camera := CameraFound(lines);
    CardsData(result, if camera then None else Some([CameraOffOverlay]))
  }
}

=== FILE: wrappers.dfy ===
/** Failure-carrying datatypes used throughout the model: Python's `None`
    becomes `Option.None`, and an exception that escapes a function becomes
    `Result.Failure`. */
module Wrappers {

  datatype Option<+T> = None | Some(value: T) {

    /** Returns the wrapped value, or `default` for None. */
    function GetOr(default: T): T {
      match this
      case Some(v) => v
      case None => default
    }
  }

  datatype Result<+R, +E> = Success(value: R) | Failure(error: E)
}
